=== FILE: README.md ===
# Mekton Fusion seeding layer in Dafny

Mekton Fusion is a Foundry VTT game system for Cyberpunk 2020–style play. When a
world starts, it seeds the world's item directory and every actor with a
catalog of skills and Witcher signs. This project models that seeding layer
and the stat-defaults normaliser, and proves properties of them.

- **Field normalisers** (`SeedNormalise`):
  - `prepareSkillSystem` and `prepareSpellSystem` fill in missing fields of a
    skill or spell `system` object and upper-case its codes. The skill
    normaliser also derives the `hard` flag from the pattern `/\(H\)|\[H\]/i`.
  - `normaliseSeedData` turns a catalog entry into the record the host creates.
- **Catalogs** (`Skills`, `Spells`, `Stats`): the 93-row skill table (in which
  "Regeneration" appears twice), the psionic name list, the five signs, the
  stat list and the stat defaults. Each is modelled as a sequence, and lemmas
  check its contents.
- **Migration tables** (`Legacy`):
  - the legacy skill renames;
  - the folding of the old Mecha Gunnery spellings into the canonical hard
    skill;
  - the purge of the retired "Stat Boost".
- **Actor sync** (`ActorSync`): `ensureActorHasSkills`, `ensureActorHasSpells`
  and `ensureActorHasCoreItems`. Each is a pure function from an actor's items
  to a plan and the resulting items. The plan is renames, deletions, creations
  and updates.
- **World seed** (`WorldSeed`): `seedWorldData`. It covers:
  - the world-level renames and the collapse;
  - one loop over the skills and the signs;
  - the actor loop;
  - the notifications the user sees.
- **Stat defaults** (`StatDefaults`): `applyStatDefaults` and
  `STAT_DEFAULT_VALUES`.

How the host is modelled:

- A JavaScript object is a `map<string, Value>`, and an absent property reads
  as `undefined`. Members inherited from `Object.prototype` are modelled
  separately, at the bracket reads that can reach them: the rename table
  (`Legacy.RenameLookupAsWritten`) and the stat defaults
  (`StatDefaults.ApplyStatDefaultsAsWritten`).
- A host document is an `Item(id, name, kind, system)`.
- Each awaited host call (rename, delete, create, update) is a pure edit of an
  item sequence (`Documents`), and every call succeeds.
- Folder ids arrive as parameters.

Two results stand out:

- The world pass can never find nothing to do (`WorldSeed.WorldNeverSettles`).
  The two "Regeneration" records share a name but have different systems. The
  world's name map holds only one item per name, so one of the two records
  always differs from the stored item. Every run therefore creates or updates
  an item, and "No new Items to seed." is never shown.
- On an actor, the sign sync settles exactly when no stored sign has a field
  the prepared sign lacks (`ActorSync.SpellSyncSettles`). The host merges
  each `{ system }` update into the stored system, so such a field stays, and
  the sign differs from the default again on every later run
  (`ActorSync.ExtraKeysPersist`). A sign still carrying `rank: null` is such
  a case (`ActorSync.RankNullNeverSettles`).

## Model

| member | source | states |
|---|---|---|
| SeedNormalise.HasHardMarkerIff | module/seed.js:30 | The left-to-right scan used for the `hard` pattern is true exactly when some position of the text starts `(H)`, `(h)`, `[H]` or `[h]`. |
| SeedNormalise.PrepareSkillSystem | module/seed.js:23-32 | `stat` is upper-cased when truthy. `category` is stringified when truthy. rank, favorite and ip default to 0, false and 0 only when null or undefined. `hard`, when null or undefined, becomes whether the source's name matches the pattern. Every other key keeps its value. The keys are the input's plus the four defaulted ones. |
| SeedNormalise.PrepareSkillSystemIdempotent | module/seed.js:23-32 | Normalising a skill system twice gives the same object as normalising it once. |
| SeedNormalise.PrepareSpellSystem | module/seed.js:34-43 | school, cost, effect and favorite default to "Sign", 0, "" and false only when null or undefined. `test` is upper-cased when truthy and "INT" otherwise. Other keys are kept. |
| SeedNormalise.PrepareSpellSystemIdempotent | module/seed.js:34-43 | Normalising a spell system twice gives the same object as normalising it once. |
| SeedNormalise.NormaliseSeedData | module/seed.js:45-59 | Fails exactly when the type is skill or spell and `system ?? data ?? {}` is not an object. Otherwise the keys are the entry's minus `data`, plus `folder` and `system`. `folder` is the folder id. Other keys are kept. `system` is prepared by type, or left unchanged for any other type. |
| WorldSeed.NormaliseEntry | module/seed.js:224-225 | For any `{ name, type, system }` entry the normaliser succeeds, giving the same name and type, the folder id, and the system prepared for that type. |
| Skills.CatalogWellFormed | module/data/skills.js:1-120 | 93 rows. Every row has type "skill", rank 0, favorite false and ip 0. Its stat is one of ATTR, COOL, EMP, INT, REF, TECH or PSI, and its category begins with its stat. `hard` is absent or true, and no other keys occur. |
| Skills.CatalogHardIffTagged | module/data/skills.js:1-120 | `hard: true` sits exactly on the rows whose name ends in "(H)", and each such name passes the hard pattern. |
| Skills.PsionicNamesArePsiRows | module/data/skills.js:87-151 | `PSIONIC_SKILL_NAMES` is, in order, the list of names of the rows whose category is "PSI". |
| Skills.CatalogNamesDistinctButRegeneration | module/data/skills.js:23-96 | Two rows share a name exactly when they are rows 16 and 75, both "Regeneration", one on EMP and one on PSI. |
| Skills.CatalogPrepareAddsOnlyHard | module/seed.js:67-71 | Running `prepareSkillSystem` on any row's system changes nothing except adding `hard: false` where `hard` is absent. |
| Spells.SignsWellFormed | module/data/spells.js:1-52 | Five signs with distinct names. Each has type "spell", school "Sign", cost 2 or 3, test "INT" or "EMP", a non-empty effect and no `favorite`. |
| Spells.SignsPrepareAddsOnlyFavorite | module/seed.js:145-149 | Running `prepareSpellSystem` on a sign's system only adds `favorite: false`. |
| StatDefaults.DefaultValuesAllFive | module/data/defaults.js:2-5 | The defaults have exactly the ten keys INT…EDU, each mapped to 5. |
| StatDefaults.ApplyStatDefaults | module/data/defaults.js:7-19 | The output keys are the defaults' keys plus the keys of object inputs. An object input keeps its value when that value is a non-zero number and otherwise gets the default. A key with a non-object input or no input keeps the default. |
| StatDefaults.CoalesceIsDead | module/data/defaults.js:10 | `Number(v) ?? d` is always `Number(v)`: the fallback never fires. |
| StatDefaults.PlainInputsIgnored | module/data/defaults.js:9-11 | Dropping every non-object input (number, NaN, undefined, null) does not change the result. |
| StatDefaults.OutputIsNonZeroOrDefault | module/data/defaults.js:13-17 | Every output value is a non-zero number or its key's default, read as an own property: undefined for a key the defaults lack. |
| StatDefaults.ApplyStatDefaultsIdempotent | module/data/defaults.js:7-19 | Feeding the output back as `{ value }` records gives the same output. |
| StatDefaults.EmptyStatsGiveDefaults | module/data/defaults.js:7-19 | With no input and the built-in defaults the result is the defaults. |
| StatDefaults.DefaultReadAsWritten | module/data/defaults.js:15-16 | The bracket read `defaults[k]` yields an inherited `Object.prototype` member exactly for a prototype name the defaults lack; otherwise it is the own-key read. |
| StatDefaults.ApplyStatDefaultsAsWritten | module/data/defaults.js:7-19 | The source with inherited reads and the `__proto__` setter has the same keys as the own-key reading, less `"__proto__"` when an object input under that name meets no own default. |
| StatDefaults.AsWrittenValueAt | module/data/defaults.js:10-17 | On every key the source as written gives the own-key value, except on a prototype name the defaults lack, where it gives the inherited member exactly when the own-key value is undefined. |
| StatDefaults.InheritedDefaultLeaksIn | module/data/defaults.js:15-16 | `{ constructor: { value: 0 } }` with the built-in defaults gives the inherited member under "constructor", where the own-key reading gives undefined. |
| StatDefaults.ProtoKeyDropped | module/data/defaults.js:10-13 | `{ __proto__: { value: 7 } }` with the built-in defaults leaves no "__proto__" key, where the own-key reading has 7 under it. |
| StatDefaults.AsWrittenAgreesOffPrototype | module/data/defaults.js:7-19 | With any defaults and no stat named like an `Object.prototype` member, the source as written equals the own-key reading. |
| Stats.StatsDistinct | module/data/stats.js:1-12 | Ten stats with pairwise distinct keys. |
| Stats.StatDefaultsCoverStats | module/data/stats.js:1-25 | The keys of `STAT_DEFAULTS` are exactly the keys of `CP2020_STATS`. |
| Stats.StatDefaultsAreDefaultValues | module/data/stats.js:14-25 | Every value of `STAT_DEFAULTS` is 5, and the map equals `STAT_DEFAULT_VALUES`. |
| Legacy.RenameTargetOnlyLegacy | module/seed.js:9-13 | A rename target exists exactly for the three old names, and each target is a row of the skill catalog. |
| Legacy.TargetsAreFinal | module/seed.js:9-13 | No new name is itself an old name, and no rename maps a name to itself. |
| Legacy.RenameLookupAsWritten | module/seed.js:76 | The bracket read yields a string exactly for the three old names, and then it is that name's target. |
| Legacy.InheritedNameFiresRename | module/seed.js:76-77 | The rename guard as written passes for a skill named "constructor", whose looked-up "new name" is not a string. |
| Legacy.CollapseMecha | module/seed.js:91-112 | After the collapse no old spelling is left in the name map, and every other name keeps its item. The canonical name is present iff it or an old spelling was. If the canonical skill existed, it stays and every old spelling found is deleted. Otherwise the first old spelling found is renamed to canonical and the later one is deleted. |
| Legacy.CatalogHoldsNewNames | module/seed.js:5-13 | Every new name and the canonical Mecha Gunnery name is a row of the catalog. |
| Legacy.CatalogAvoidsRetired | module/seed.js:5-15 | No catalog row carries an old name, an old Mecha Gunnery spelling or "Stat Boost". |
| ActorSync.RenamePass | module/seed.js:75-84 | Only skills with an old name change, and only their name, which becomes the table's new name. Ids, types and systems stay. |
| ActorSync.RenamePassOnlyToAbsent | module/seed.js:75-84 | A skill with an old name ends up with its new name exactly when no other skill has that name afterwards, so a rename never creates a duplicate. |
| ActorSync.PurgeRemovesOnlyDeprecated | module/seed.js:86-90 | An item survives the purge exactly when it is not a skill named "Stat Boost" whose category upper-cases to something other than "PSI". |
| ActorSync.PurgeKeepsPsiStatBoost | module/seed.js:86 | A "Stat Boost" skill with category "psi" is kept, because the category is upper-cased before the comparison. "Stat Boost (phys)" is kept too. |
| ActorSync.PurgeDropsUncategorised | module/seed.js:86 | A "Stat Boost" skill without a category is purged, since `String(undefined)` is "UNDEFINED". |
| ActorSync.SkillPatchFillsGaps | module/seed.js:123-131 | A patch holds only missing fields, each with the catalog value. `stat` and `category` count as missing when falsy, the others when null or undefined. `hard` is only ever written as true. Every missing field is written, except `category` and `hard` when the catalog value is falsy. |
| ActorSync.PatchNeverOverwrites | module/seed.js:123-135 | Writing a patch changes no field that was present and no field outside the six skill fields. |
| ActorSync.PatchSettles | module/seed.js:123-131 | Once a catalog default's patch is written, the patch computed again is empty. |
| ActorSync.PlanSkills | module/seed.js:113-132 | A catalog skill is created iff its name is absent from the name map. Every emitted patch is non-empty and is the patch of an existing skill. The plan has at most one action per catalog row. |
| ActorSync.PlanSkillsPatchesEveryGap | module/seed.js:116-132 | Every existing skill with a non-empty patch gets that patch. |
| ActorSync.PlannedPatchesAreFillOnly | module/seed.js:124-131 | Every planned patch is non-empty, touches only fields missing on its target, and sets `hard` only to true. |
| ActorSync.EnsureActorHasSkills | module/seed.js:62-138 | A missing or non-character/npc actor gives zero counts and no change. Otherwise the counts are the plan's list lengths, at most the catalog size, and the actor keeps its type. |
| ActorSync.CatalogSkillDefaults | module/data/skills.js:23-96 | Every prepared catalog record is a skill, and none carries a retired name. |
| ActorSync.CollapseSource | module/seed.js:91-112 | Each entry of the collapsed name map is the item stored under that name, or an old Mecha Gunnery spelling's item renamed to "Mecha Gunnery (H)". Only old spellings' items are deleted, and never the one that is kept. |
| ActorSync.CollapsedHoldsMap | module/seed.js:86-112 | Every item the collapsed name map holds is still on the actor after the purge, the rename and the deletions, as a skill under its map name. |
| ActorSync.CollapsedEntrySource | module/seed.js:91-112 | With distinct item ids, each entry of the collapsed name map is an actor skill whose id is not deleted. The entry is that skill, carrying "Mecha Gunnery (H)" exactly when the collapse renames it. |
| ActorSync.PatchedNotDeprecated | module/seed.js:116-135 | Creating the missing defaults and applying the fill-only patches adds no retired "Stat Boost", given skill defaults with no retired name. |
| ActorSync.CollapsedFromInput | module/seed.js:75-112 | Every item left after the purge and the collapse has the id, type and system of one of the actor's items. |
| ActorSync.SkillPassCarriesDefaults | module/seed.js:73-137 | With distinct item ids, after the skill pass every catalog name is carried by a skill. |
| ActorSync.SkillPassKeepsPresentFields | module/seed.js:123-135 | An item that survives to the patch step keeps its id and name, and every field it already had keeps its value. The patches only fill missing fields. |
| ActorSync.SkillPassPurges | module/seed.js:86-90 | With distinct item ids, no deprecated item is left: no skill "Stat Boost" that is not a PSI skill. |
| ActorSync.SkillPassFoldsMecha | module/seed.js:91-112 | With distinct item ids and at most one skill per old spelling, no skill carries an old Mecha Gunnery spelling afterwards. |
| ActorSync.SkillPassKeepsEarlierDuplicate | module/seed.js:75-112 | Two skills both named "Mecha Gunnery" with no catalog: the first stays under its old name, and the second is renamed to "Mecha Gunnery (H)". |
| ActorSync.SkillSyncEndState | module/seed.js:62-138 | For a character or npc with distinct item ids: every catalog skill name is carried by a skill afterwards, and no deprecated item is left. With at most one skill per old spelling, no old Mecha Gunnery spelling is left either. |
| ActorSync.PlanSpells | module/seed.js:154-166 | A sign is created iff its name is absent from the name map. Every overwrite targets an existing sign whose system differs from the default, and writes the default's system. |
| ActorSync.PlanSpellsOverwritesEveryDifference | module/seed.js:157-166 | Every existing sign whose system differs from the default gets an overwrite. |
| ActorSync.ApplyPatchesEffect | module/seed.js:169 | When updates agree on the ids they share, each item keeps its id, name and type. An item no update names keeps its system. An item one names gets that update's fields merged over its stored system, key by key. |
| ActorSync.MergeGivesFieldsIff | module/seed.js:164-165 | Merging a default's fields over a stored system gives exactly the default when, and only when, the stored system has no key the default lacks. |
| ActorSync.InstallsExisting | module/seed.js:157-169 | With distinct item ids and distinct catalog names, the sign the name map finds afterwards for an existing default has the default's fields merged over its stored system. It has exactly the default system iff it had no field the default lacks. |
| ActorSync.InstallsCreated | module/seed.js:157-169 | With distinct catalog names, a sign that was missing is installed afterwards. |
| ActorSync.InstalledAfterPass | module/seed.js:157-169 | With distinct item ids and distinct catalog names, and no stored sign having a field its default lacks, every default is installed after one pass. |
| ActorSync.ExtraKeysPersist | module/seed.js:164-169 | If some stored sign has a field its default lacks, then after the pass the sign under that name still has it. So the condition holds again on the result. |
| ActorSync.RunSpellsSettles | module/seed.js:140-172 | With distinct item ids and distinct catalog names, a second sync of the result plans nothing and leaves the items as they are, exactly when no stored sign has a field its default lacks. |
| ActorSync.SpellSyncSettles | module/seed.js:140-172 | For a character or npc with distinct item ids, syncing the real signs a second time gives zero counts and no change, exactly when no stored sign has a field the prepared sign lacks. |
| ActorSync.ExtraFieldUpdatedAgain | module/seed.js:157-169 | A lone stored sign equal to its default plus one extra field gets an update on the second pass too. |
| ActorSync.ExtraFieldNeverSettles | module/seed.js:140-172 | For a character or npc whose only item is a prepared sign plus a field that sign lacks, the second sync still reports an update. |
| ActorSync.SignsHaveNoRank | module/data/spells.js:1-52 | No prepared sign has a `rank` field. |
| ActorSync.RankNullNeverSettles | macros/purge-spell-rank.macro.js:3-7 | A character whose only item is "Aard" with `rank: null`, as left by a rank-purging update, still gets an update on the second sign sync. |
| ActorSync.EnsureActorHasSpells | module/seed.js:140-172 | A missing or non-character/npc actor gives zero counts and no change. Otherwise the counts are the plan's list lengths, at most five. |
| ActorSync.EnsureActorHasCoreItems | module/seed.js:174-181 | A missing or non-character/npc actor gives zero counts and no change. Otherwise the counts are the sums of the skill pass and the spell pass, the actor keeps its type, and the total is at most 98. |
| Documents.ByNameIsLast | module/seed.js:151-153 | The name map holds, under each name, the last item with that name. |
| WorldSeed.LegacyRenamesAreTable | module/seed.js:9-13 | The rename table's old names are distinct, its new names are distinct, and no new name is an old name. |
| WorldSeed.RenameWorldFrame | module/seed.js:193-203 | A name the rename table does not mention keeps its entry in the world's name map. |
| WorldSeed.RenameWorldPair | module/seed.js:193-203 | If an old name is present and its new name absent, the item moves to the new name (renamed) and the old name disappears. Otherwise both names keep their entries, so an existing item with the new name is never replaced. |
| WorldSeed.WorldDefaultsAreSyncDefaults | module/seed.js:222-238 | The records the world loop installs are exactly the prepared skills followed by the prepared signs, the same records the actor sync uses. |
| WorldSeed.RegenerationRecords | module/data/skills.js:23-96 | The two desired "Regeneration" records have different systems. |
| WorldSeed.WorldNeverSettles | module/seed.js:222-238 | For every name map, the world loop creates or updates at least one item. |
| WorldSeed.SeedEmptyWorld | module/seed.js:222-243 | On an empty world nothing is renamed or collapsed, every desired record is created in order with fresh ids, and nothing is updated; with the catalog's records (RegenerationRecords) this yields two items named "Regeneration". |
| WorldSeed.Total | module/seed.js:250-256 | The summed counts are zero exactly when every actor's counts are zero, and each actor's counts are at most the total. |
| WorldSeed.TotalAppend | module/seed.js:250-256 | The totals of two lists joined are the sums of their totals, field by field. |
| WorldSeed.TotalSingle | module/seed.js:250-256 | One actor's totals are its own counts. |
| WorldSeed.TotalSnoc | module/seed.js:253-255 | Adding one actor's `created` and `updated` to the running totals gives the totals of the longer list, as the `+=` lines do. |
| WorldSeed.SyncActors | module/seed.js:252-253 | The i-th result is `ensureActorHasCoreItems` on the i-th actor. Each result is an actor of the same type. |
| WorldSeed.ActorResults | module/seed.js:250-256 | The synced actors in order, and the sum of every sync's counts. The sum is zero exactly when every sync's counts are zero. |
| WorldSeed.ActorPass | module/seed.js:250-256 | The i-th actor afterwards is the i-th actor synced by `ensureActorHasCoreItems`. The counts are the sum over the actors' syncs. |
| WorldSeed.Notices | module/seed.js:240-264 | "Seeded", "Updated" and "Synced actor items" each appear exactly when their count is non-zero. "No new Items to seed." appears exactly when all counts are zero. |
| WorldSeed.SeedWorldData | module/seed.js:187-269 | The world items are those of the world pass. The i-th actor is the i-th actor synced by `ensureActorHasCoreItems`. The notifications are those for the world pass's creates and updates and the summed actor counts. So "No new Items to seed." is never shown, and at least one notification is. |

## Left out

- Host I/O:
  - `ensureFolder` (module/seed.js:17-21) and the folder placement of created world items. Folder ids are parameters, and a world item does not record its folder.
  - Notifications are modelled only as the list of messages.
  - Console logging.
- The `try`/`catch` around host calls: every call is taken to succeed, so the warning paths and the "Seeding failed" path are not modelled.
- `Promise.all` (module/seed.js:246): the updates are applied in list order. When the two "Regeneration" records both update one world item, the later one wins in the model, but the host does not fix that order.
- Host update semantics:
  - a `{ system }` update (module/seed.js:165,234) is modelled as a merge of the update's top-level keys into the stored system. The host merges nested objects recursively. Every sign and catalog field is a scalar, so the two agree unless a stored field holds an object;
  - the dotted-key skill patch is modelled as a per-key merge.
- `deepClone`, `objectsEqual` and `mergeObject`: value semantics and structural equality stand in for them. Because every function is pure, no input is ever mutated.
- Host schema defaults (module/data/item-data-model.js, module/data/actor-data-model.js): stored systems are taken as given.
- `Number()` on strings, floats and booleans: stat values are integers, NaN or undefined.
- `toUpperCase`: only ASCII letters are upper-cased.
- `syncActorCoreItems` (module/seed.js:183-185) only forwards to `ensureActorHasCoreItems`.
- The spell pass reads the same actor object the skill pass edited. The model passes the edited actor on.
- Sheets, settings and macros are outside the seeding layer. The source contains no dice resolver, so none is modelled.
- Skills.CatalogHardIffTagged: states that `hard: true` sits exactly on names ending in "(H)". It does not state that no other name contains a marker elsewhere, which is the source's full "contains" reading.
- StatDefaults.ApplyStatDefaults: reads `defaults[k]` and assigns `out[k]` as own properties. For keys named like `Object.prototype` members ("constructor", "toString", "__proto__", …) the source reads the inherited member and, for "__proto__", sets the prototype instead of adding a key. StatDefaults.ApplyStatDefaultsAsWritten models those cases and agrees with this member off the prototype names (StatDefaults.AsWrittenAgreesOffPrototype).
- StatDefaults.OutputIsNonZeroOrDefault: the default it names is the own-key read, undefined for a missing key. As written, a prototype name without a default falls back to the inherited member instead (StatDefaults.InheritedDefaultLeaksIn).
- ActorSync.RenamePass: models the corrected own-key lookup of the rename table (Legacy.RenameTargetOnlyLegacy), not the inherited-key lookup of module/seed.js:76-77. See "## Findings" for the difference.
- ActorSync.SkillPassFoldsMecha: requires at most one skill per old Mecha Gunnery spelling. The name map holds only the last item of each name, so an earlier duplicate keeps its old name after one run (ActorSync.SkillPassKeepsEarlierDuplicate).
- ActorSync.SkillSyncEndState: promises that no old Mecha Gunnery spelling is left only under the same one-per-spelling condition, for the same reason.
- ActorSync.RunSpellsSettles: requires distinct catalog names. The skill catalog does not have them, so no settling lemma is stated for the skill pass. Duplicate old Mecha Gunnery items also need more than one run to collapse, because the name map holds only the last of them.

## Findings

| source | as written | input that shows it | evidently intended | confidence | as-written member | corrected member |
|---|---|---|---|---|---|---|
| module/seed.js:76-77 | `LEGACY_SKILL_RENAMES[it.name]` reads inherited `Object.prototype` members, and the guard only tests truthiness | a skill named "constructor": the lookup finds the `Object` function, the guard passes, and an update is issued with that function as the new name | only the three own entries of the table trigger a rename | not executed | Legacy.InheritedNameFiresRename | Legacy.RenameTargetOnlyLegacy |

=== FILE: actor_sync.dfy ===
/** Bringing one actor's skills and spells in line with the catalogs
(module/seed.js:62-181).

`ensureActorHasSkills` renames skills with old names, purges the retired
"Stat Boost", collapses the old Mecha Gunnery spellings, creates every
catalog skill the actor lacks and fills in the missing fields of the ones it
has. `ensureActorHasSpells` creates the missing signs and writes the catalog
`system` into any sign that differs from it; the host merges that write into
the stored system. Each awaited host call
is an edit of the actor's item sequence, and every call succeeds.
 */
module ActorSync {
  import opened JsValue
  import opened Documents
  import opened SeedNormalise
  import opened Skills
  import opened Spells
  import opened Legacy

  /** An actor: its `type` and its embedded items. */
  datatype Actor = Actor(kind: string, items: seq<Item>)

  /** The `{ created, updated }` record the sync functions return. */
  datatype Counts = Counts(created: nat, updated: nat)

  /** The counts and the actor after the host edits; `None` stands for a
      missing actor. */
  datatype Sync = Sync(counts: Counts, actor: Option<Actor>)

  /** Only actors of type "character" or "npc" are synced. */
  predicate Allowed(actor: Option<Actor>)
  {
    actor.Some? && actor.value.kind in {"character", "npc"}
  }

  /** An update of one embedded item: its id and the fields to write into its
      `system` (the `system.<field>` keys of the source). */
  datatype Patch = Patch(id: Id, fields: Object)

  // ---------------------------------------------------------------------------
  // The legacy rename pass (module/seed.js:75-84)
  // ---------------------------------------------------------------------------

  /** Some skill other than the one at position `k` is called `name`
      (`existingSkills.some(other => other !== it && other.name === name)`). */
  predicate OtherSkillNamed(items: seq<Item>, k: int, name: string)
  {
    exists j | 0 <= j < |items| && j != k :: items[j].kind == "skill" && items[j].name == name
  }

  /** The loop over the skills from position `i` on. Each rename is awaited
      before the next skill is looked at, so a later skill sees the new names. */
  function RenamePass(items: seq<Item>, i: nat): (r: seq<Item>)
    requires i <= |items|
    ensures |r| == |items|
    ensures forall k | 0 <= k < |items| ::
              r[k].id == items[k].id && r[k].kind == items[k].kind && r[k].system == items[k].system
    ensures forall k | 0 <= k < |items| && (k < i || items[k].kind != "skill" || RenameTarget(items[k].name).None?) ::
              r[k] == items[k]
    ensures forall k | 0 <= k < |items| && r[k] != items[k] :: RenameTarget(items[k].name) == Some(r[k].name)
    decreases |items| - i
  {
    if i == |items| then items
    else
      var it := items[i];
      var t := RenameTarget(it.name);
      if it.kind == "skill" && t.Some? && t.value != it.name && !OtherSkillNamed(items, i, t.value) then
        TargetsAreFinal(it.name);
        RenamePass(items[i := it.(name := t.value)], i + 1)
      else
        RenamePass(items, i + 1)
  }

  /** A skill with an old name ends up under its new name exactly when no other
      skill carries that name: a rename fires only when the target is absent,
      and it never makes two skills share a name. */
  lemma {:induction false} RenamePassOnlyToAbsent(items: seq<Item>, i: nat)
    requires i <= |items|
    ensures var r := RenamePass(items, i);
            forall k | i <= k < |items| && items[k].kind == "skill" && RenameTarget(items[k].name).Some? ::
              (r[k].name == RenameTarget(items[k].name).value) <==>
              !OtherSkillNamed(r, k, RenameTarget(items[k].name).value)
    decreases |items| - i
  {
    if i < |items| {
      var it := items[i];
      var t := RenameTarget(it.name);
      var r := RenamePass(items, i);
      if it.kind == "skill" && t.Some? && t.value != it.name && !OtherSkillNamed(items, i, t.value) {
        var s := items[i := it.(name := t.value)];
        RenamePassOnlyToAbsent(s, i + 1);
        TargetsAreFinal(it.name);
        assert r == RenamePass(s, i + 1);
        assert r[i] == s[i];
        forall j | 0 <= j < |r| && j != i && r[j].kind == "skill"
          ensures r[j].name != t.value
        {
          if r[j] != s[j] {
            var tj := RenameTarget(s[j].name).value;
            assert r[j].name == tj;
            if tj == t.value {
              assert false;
            }
          }
        }
      } else {
        RenamePassOnlyToAbsent(items, i + 1);
        if it.kind == "skill" && t.Some? {
          TargetsAreFinal(it.name);
          var j :| 0 <= j < |items| && j != i && items[j].kind == "skill" && items[j].name == t.value;
          assert r[j] == items[j];
          assert OtherSkillNamed(r, i, t.value);
        }
      }
    }
  }

  // ---------------------------------------------------------------------------
  // The purge (module/seed.js:86-90)
  // ---------------------------------------------------------------------------

  /** A skill the purge removes: a retired name whose category, printed and
      upper-cased, is not "PSI". */
  predicate Deprecated(it: Item)
  {
    && it.kind == "skill"
    && it.name in DEPRECATED_SKILL_NAMES
    && Upper(ToStr(Get(it.system, "category"))) != "PSI"
  }

  /** `toRemove.map(i => i.id)` */
  function PurgeIds(items: seq<Item>): (ids: seq<Id>)
    ensures forall id :: id in ids <==> exists k | 0 <= k < |items| :: Deprecated(items[k]) && items[k].id == id
  {
    if items == [] then []
    else
      var rest := PurgeIds(items[..|items| - 1]);
      var last := items[|items| - 1];
      assert forall k | 0 <= k < |items| - 1 :: items[..|items| - 1][k] == items[k];
      if Deprecated(last) then rest + [last.id] else rest
  }

  /** With the host's distinct ids, the purge removes exactly the deprecated
      skills: every other item stays. */
  lemma {:induction false} PurgeRemovesOnlyDeprecated(items: seq<Item>)
    requires UniqueIds(items)
    ensures forall k | 0 <= k < |items| :: items[k] in DeleteIds(items, PurgeIds(items)) <==> !Deprecated(items[k])
  {
    forall k | 0 <= k < |items|
      ensures items[k].id in PurgeIds(items) <==> Deprecated(items[k])
    {
      if items[k].id in PurgeIds(items) {
        var j :| 0 <= j < |items| && Deprecated(items[j]) && items[j].id == items[k].id;
        assert j == k;
      }
    }
  }

  /** The category test upper-cases what it prints: a Stat Boost whose
      category is "psi" is kept, as is the psionic "Stat Boost (phys)". */
  lemma {:induction false} PurgeKeepsPsiStatBoost(id: Id, sys: Object)
    ensures !Deprecated(Item(id, "Stat Boost", "skill", sys["category" := Str("psi")]))
    ensures !Deprecated(Item(id, "Stat Boost (phys)", "skill", sys))
  {
    assert Upper("psi") == "PSI";
  }

  /** A Stat Boost without a category prints it as "undefined", which is not
      "PSI", so it is purged. */
  lemma {:induction false} PurgeDropsUncategorised(id: Id, sys: Object)
    requires "category" !in sys
    ensures Deprecated(Item(id, "Stat Boost", "skill", sys))
  {
    UpperPointwise("undefined");
  }

  // ---------------------------------------------------------------------------
  // The skill patch (module/seed.js:123-131)
  // ---------------------------------------------------------------------------

  /** A skill field counts as missing: `stat` and `category` when falsy, the
      others when null or undefined. */
  predicate Unset(sys: Object, k: string)
  {
    if k == "stat" || k == "category" then !Truthy(Get(sys, k)) else Nullish(Get(sys, k))
  }

  /** Whether the source's six tests put key `k` into the patch, in the
      order of module/seed.js:125-130. */
  predicate Wanted(cur: Object, d: Object, k: string)
  {
    if k == "stat" then !Truthy(Get(cur, "stat"))
    else if k == "category" then Truthy(Get(d, "category")) && !Truthy(Get(cur, "category"))
    else if k == "hard" then Nullish(Get(cur, "hard")) && Truthy(Get(d, "hard"))
    else (k == "rank" || k == "favorite" || k == "ip") && Nullish(Get(cur, k))
  }

  /** The fields written for one catalog skill `d` into an existing skill whose
      system is `cur`: the keys for which the source's six tests fire. */
  function SkillPatch(cur: Object, d: Object): (p: Object)
    ensures p.Keys <= SkillKeys
  {
    map k | k in SkillKeys && Wanted(cur, d, k) :: if k == "hard" then Bool(true) else Get(d, k)
  }

  /** The patch holds missing fields only, each with the catalog value;
      `category` and `hard` are written only when the catalog value is truthy,
      and `hard` only ever as true. Every missing field is written unless it is
      one of those two with a falsy catalog value. */
  lemma SkillPatchFillsGaps(cur: Object, d: Object)
    ensures var p := SkillPatch(cur, d);
            && (forall k | k in p :: Unset(cur, k))
            && (forall k | k in p && k != "hard" :: p[k] == Get(d, k))
            && ("hard" in p ==> p["hard"] == Bool(true))
            && (forall k | k in SkillKeys && Unset(cur, k) ::
                  k in p <==> (k != "category" && k != "hard") || Truthy(Get(d, k)))
  {
  }

  /** Writing a patch never changes a field that was present, nor any field
      outside the six skill fields. */
  lemma {:induction false} PatchNeverOverwrites(cur: Object, d: Object)
    ensures var merged := cur + SkillPatch(cur, d);
            && (forall k | !Unset(cur, k) :: Get(merged, k) == Get(cur, k))
            && (forall k | k !in SkillKeys :: Get(merged, k) == Get(cur, k))
  {
  }

  /** A catalog default fills every field it is asked for: once its patch is
      written, the patch computed again is empty. */
  lemma {:induction false} PatchSettles(cur: Object, d: Object)
    requires Truthy(Get(d, "stat"))
    requires !Nullish(Get(d, "rank")) && !Nullish(Get(d, "favorite")) && !Nullish(Get(d, "ip"))
    ensures SkillPatch(cur + SkillPatch(cur, d), d) == map[]
  {
    var p := SkillPatch(cur, d);
    var merged := cur + p;
    KeysDistinct();
    forall k | k in SkillKeys
      ensures k !in SkillPatch(merged, d)
    {
      if k in p {
        assert Get(merged, k) == p[k];
      } else {
        assert Get(merged, k) == Get(cur, k);
      }
    }
  }

  // ---------------------------------------------------------------------------
  // Planning the creates and patches (module/seed.js:113-132)
  // ---------------------------------------------------------------------------

  datatype SkillPlan = SkillPlan(creates: seq<Entry>, patches: seq<Patch>)

  /** The patch for one catalog skill, when it names an existing skill. */
  function PatchFor(m: map<string, Item>, d: Entry): Patch
    requires d.name in m
  {
    Patch(m[d.name].id, SkillPatch(m[d.name].system, d.system))
  }

  /** The loop over the catalog: a default whose name the map lacks is created,
      and one it has yields a patch unless that patch is empty. */
  function PlanSkills(m: map<string, Item>, defaults: seq<Entry>): (p: SkillPlan)
    ensures forall e :: e in p.creates <==> e in defaults && e.name !in m
    ensures forall q | q in p.patches ::
              exists d | d in defaults && d.name in m :: q == PatchFor(m, d) && q.fields != map[]
    ensures |p.creates| + |p.patches| <= |defaults|
  {
    if defaults == [] then SkillPlan([], [])
    else
      var d := defaults[0];
      var rest := PlanSkills(m, defaults[1..]);
      assert forall e | e in defaults :: e == d || e in defaults[1..];
      if d.name !in m then SkillPlan([d] + rest.creates, rest.patches)
      else if PatchFor(m, d).fields == map[] then rest
      else SkillPlan(rest.creates, [PatchFor(m, d)] + rest.patches)
  }

  /** Conversely, every default naming an existing skill whose patch is not
      empty has that patch in the plan. */
  lemma {:induction false} PlanSkillsPatchesEveryGap(m: map<string, Item>, defaults: seq<Entry>, d: Entry)
    requires d in defaults && d.name in m && PatchFor(m, d).fields != map[]
    ensures PatchFor(m, d) in PlanSkills(m, defaults).patches
  {
    if defaults[0] != d {
      assert d in defaults[1..];
      PlanSkillsPatchesEveryGap(m, defaults[1..], d);
    }
  }

  /** No patch is empty and none writes `hard` other than as true. */
  lemma {:induction false} PlannedPatchesAreFillOnly(m: map<string, Item>, defaults: seq<Entry>)
    ensures var p := PlanSkills(m, defaults);
            forall q | q in p.patches ::
              && q.fields != map[]
              && (exists n | n in m :: q.id == m[n].id && forall k | k in q.fields :: Unset(m[n].system, k))
              && ("hard" in q.fields ==> q.fields["hard"] == Bool(true))
  {
    var p := PlanSkills(m, defaults);
    forall q | q in p.patches
      ensures exists n | n in m :: q.id == m[n].id && forall k | k in q.fields :: Unset(m[n].system, k)
    {
      var d :| d in defaults && d.name in m && q == PatchFor(m, d) && q.fields != map[];
      assert q.id == m[d.name].id;
    }
  }

  // ---------------------------------------------------------------------------
  // The host edits
  // ---------------------------------------------------------------------------

  /** The awaited `update({ name })` of the collapse, when there is one. */
  function RenameOpt(items: seq<Item>, id: Option<Id>, name: string): seq<Item>
  {
    match id
    case None => items
    case Some(x) => RenameById(items, x, name)
  }

  /** `updateEmbeddedDocuments("Item", patches)`: each patch is merged into
      its item's system, in order. */
  function ApplyPatches(items: seq<Item>, patches: seq<Patch>): (r: seq<Item>)
    ensures |r| == |items|
    ensures forall k | 0 <= k < |items| :: r[k].id == items[k].id && r[k].name == items[k].name && r[k].kind == items[k].kind
    decreases |patches|
  {
    if patches == [] then items
    else ApplyPatches(UpdateSystemById(items, patches[0].id, patches[0].fields, false), patches[1..])
  }

  // ---------------------------------------------------------------------------
  // ensureActorHasSkills
  // ---------------------------------------------------------------------------

  /** The catalog as the sync uses it: every system run through `prepareSkillSystem`. */
  function DefaultSkills(table: seq<Entry>): seq<Entry>
  {
    seq(|table|, i requires 0 <= i < |table| => Entry(table[i].name, "skill", PrepareSkillSystem(table[i].system)))
  }

  /** Every stage of the skill pass on an item sequence. */
  datatype SkillRun = SkillRun(
    renamed: seq<Item>,     // after the legacy renames
    purged: seq<Id>,        // the deprecated skills deleted
    kept: seq<Item>,        // the items after the purge
    collapse: Collapse,     // the Mecha Gunnery collapse of the name map
    collapsed: seq<Item>,   // the items after the collapse
    plan: SkillPlan,        // the creates and patches
    items: seq<Item>)       // the items at the end

  function RunSkills(items: seq<Item>, defaults: seq<Entry>): (run: SkillRun)
  {
    var renamed := RenamePass(items, 0);
    var purged := PurgeIds(renamed);
    var kept := DeleteIds(renamed, purged);
    var collapse := CollapseMecha(ByName(OfKind(renamed, "skill")));
    var collapsed := DeleteIds(RenameOpt(kept, collapse.renamed, HARD_MECHA_GUNNERY), collapse.deleted);
    var plan := PlanSkills(collapse.byName, defaults);
    SkillRun(renamed, purged, kept, collapse, collapsed, plan, ApplyPatches(Create(collapsed, plan.creates), plan.patches))
  }

  /** `ensureActorHasSkills(actor)`: a missing actor, or one that is neither a
      character nor an NPC, yields zero counts and is left as it is; otherwise
      the counts are the lengths of the create and update lists. */
  function EnsureActorHasSkills(actor: Option<Actor>): (s: Sync)
    ensures !Allowed(actor) ==> s == Sync(Counts(0, 0), actor)
    ensures Allowed(actor) ==>
              var run := RunSkills(actor.value.items, DefaultSkills(CP2020_SKILLS));
              && s.counts == Counts(|run.plan.creates|, |run.plan.patches|)
              && s.counts.created + s.counts.updated <= |CP2020_SKILLS|
              && s.actor == Some(Actor(actor.value.kind, run.items))
  {
    if !Allowed(actor) then Sync(Counts(0, 0), actor)
    else
      var run := RunSkills(actor.value.items, DefaultSkills(CP2020_SKILLS));
      Sync(Counts(|run.plan.creates|, |run.plan.patches|), Some(actor.value.(items := run.items)))
  }

  // ---------------------------------------------------------------------------
  // What the skill pass leaves behind
  // ---------------------------------------------------------------------------

  /** Default skills as the pass is given them: skills whose names the
      migration does not retire. */
  predicate SkillDefaults(defaults: seq<Entry>)
  {
    forall b | 0 <= b < |defaults| :: defaults[b].kind == "skill" && !Retired(defaults[b].name)
  }

  /** The prepared catalog is such a list. */
  lemma CatalogSkillDefaults()
    ensures SkillDefaults(DefaultSkills(CP2020_SKILLS))
  {
    CatalogAvoidsRetired();
  }

  /** Deleting documents keeps the ids of the collection pairwise different. */
  lemma {:induction false} DeleteIdsUnique(items: seq<Item>, ids: seq<Id>)
    requires UniqueIds(items)
    ensures UniqueIds(DeleteIds(items, ids))
  {
    if items != [] {
      var init := items[..|items| - 1];
      var last := items[|items| - 1];
      DeleteIdsUnique(init, ids);
      var rest := DeleteIds(init, ids);
      forall it | it in rest
        ensures it.id != last.id
      {
        var k :| 0 <= k < |init| && init[k] == it;
        assert items[k] == it;
      }
    }
  }

  /** Renaming changes no id. */
  lemma RenamesKeepIdsUnique(items: seq<Item>, id: Option<Id>, name: string)
    requires UniqueIds(items)
    ensures UniqueIds(RenamePass(items, 0)) && UniqueIds(RenameOpt(items, id, name))
  {
  }

  /** The renames and the purge keep ids unique. */
  lemma {:induction false} StagesKeepIdsUnique(items: seq<Item>, defaults: seq<Entry>)
    requires UniqueIds(items)
    ensures var run := RunSkills(items, defaults);
            UniqueIds(run.renamed) && UniqueIds(run.kept) && UniqueIds(run.collapsed)
  {
    var renamed := RenamePass(items, 0);
    RenamesKeepIdsUnique(items, None, HARD_MECHA_GUNNERY);
    var kept := DeleteIds(renamed, PurgeIds(renamed));
    DeleteIdsUnique(renamed, PurgeIds(renamed));
    var collapse := CollapseMecha(ByName(OfKind(renamed, "skill")));
    var ren := RenameOpt(kept, collapse.renamed, HARD_MECHA_GUNNERY);
    RenamesKeepIdsUnique(kept, collapse.renamed, HARD_MECHA_GUNNERY);
    DeleteIdsUnique(ren, collapse.deleted);
  }

  /** The name under which the map held the item the collapse files under
      `n`: `n` itself, or the old spelling that was renamed to it. Every id
      the collapse deletes belongs to another old spelling. */
  lemma CollapseSource(m: map<string, Item>, n: string) returns (src: string)
    requires forall k | k in m :: m[k].name == k
    requires n in CollapseMecha(m).byName
    ensures src in m && CollapseMecha(m).byName[n] == m[src].(name := n)
    ensures src == n || src in LEGACY_MECHA_GUNNERY_NAMES
    ensures src != n ==> n == HARD_MECHA_GUNNERY && CollapseMecha(m).renamed == Some(m[src].id)
    ensures src == n && CollapseMecha(m).renamed.Some? ==>
              exists l | l in LEGACY_MECHA_GUNNERY_NAMES && l in m && l != src :: CollapseMecha(m).renamed.value == m[l].id
    ensures forall x | x in CollapseMecha(m).deleted ::
              exists l | l in LEGACY_MECHA_GUNNERY_NAMES && l in m && l != src :: x == m[l].id
  {
    var c := CollapseMecha(m);
    var mg, mgh := "Mecha Gunnery", "Mecha Gunnery [H]";
    assert mg in LEGACY_MECHA_GUNNERY_NAMES && mgh in LEGACY_MECHA_GUNNERY_NAMES;
    if n != HARD_MECHA_GUNNERY || HARD_MECHA_GUNNERY in m {
      src := n;
    } else if mg in m {
      src := mg;
    } else {
      src := mgh;
    }
    // Each id deleted or renamed is that of an old spelling the map holds.
    forall x | x in c.deleted
      ensures (mg in m && mg != src && x == m[mg].id) || (mgh in m && mgh != src && x == m[mgh].id)
    {
    }
    if c.renamed.Some? {
      assert (mg in m && c.renamed.value == m[mg].id) || (mgh in m && c.renamed.value == m[mgh].id);
    }
  }

  /** A skill of `rs` that is not a retired "Stat Boost" survives the purge,
      and the collapse keeps it unless it deletes its id; it carries the
      canonical name afterwards exactly when the collapse renames it. */
  lemma {:induction false} SurvivesCollapse(rs: seq<Item>, it: Item, renamed: Option<Id>, deleted: seq<Id>)
    requires UniqueIds(rs) && it in rs && it.name !in DEPRECATED_SKILL_NAMES
    requires it.id !in deleted
    ensures var ren := RenameOpt(DeleteIds(rs, PurgeIds(rs)), renamed, HARD_MECHA_GUNNERY);
            (if renamed == Some(it.id) then it.(name := HARD_MECHA_GUNNERY) else it) in DeleteIds(ren, deleted)
  {
    var kept := DeleteIds(rs, PurgeIds(rs));
    forall k | 0 <= k < |rs| && rs[k].id == it.id
      ensures !Deprecated(rs[k])
    {
      SameIdSameItem(rs, rs[k], it);
    }
    assert it in kept;
    var p :| 0 <= p < |kept| && kept[p] == it;
    var ren := RenameOpt(kept, renamed, HARD_MECHA_GUNNERY);
    assert ren[p] == if renamed == Some(it.id) then it.(name := HARD_MECHA_GUNNERY) else it;
  }

  /** Every item a skill name map holds after the collapse, other than a
      retired "Stat Boost", is one of the collapsed items: a skill that
      survived the purge, renamed to the canonical Mecha Gunnery name when the
      collapse picked it. */
  lemma {:induction false} CollapsedHoldsMap(rs: seq<Item>, m: map<string, Item>, n: string)
    requires UniqueIds(rs)
    requires forall k | k in m :: m[k] in rs && m[k].kind == "skill" && m[k].name == k
    requires n in CollapseMecha(m).byName && n !in DEPRECATED_SKILL_NAMES
    ensures var c := CollapseMecha(m);
            && c.byName[n] in DeleteIds(RenameOpt(DeleteIds(rs, PurgeIds(rs)), c.renamed, HARD_MECHA_GUNNERY), c.deleted)
            && c.byName[n].kind == "skill" && c.byName[n].name == n
  {
    var c := CollapseMecha(m);
    var it := CollapsedEntrySource(rs, m, n);
    SurvivesCollapse(rs, it, c.renamed, c.deleted);
  }

  /** The item of `rs` behind an entry of the collapsed name map: the
      collapse does not delete its id, and the entry is that item, renamed
      exactly when the collapse renames it. */
  lemma CollapsedEntrySource(rs: seq<Item>, m: map<string, Item>, n: string) returns (it: Item)
    requires UniqueIds(rs)
    requires forall k | k in m :: m[k] in rs && m[k].kind == "skill" && m[k].name == k
    requires n in CollapseMecha(m).byName
    ensures it in rs && it.kind == "skill" && it.id !in CollapseMecha(m).deleted
    ensures CollapseMecha(m).byName[n] ==
              if CollapseMecha(m).renamed == Some(it.id) then it.(name := HARD_MECHA_GUNNERY) else it
    ensures CollapseMecha(m).byName[n].name == n
  {
    var c := CollapseMecha(m);
    var src := CollapseSource(m, n);
    it := m[src];
    forall x | x in c.deleted
      ensures x != it.id
    {
      var l :| l in LEGACY_MECHA_GUNNERY_NAMES && l in m && l != src && x == m[l].id;
      assert m[l].name != it.name;
      DistinctItemsDistinctIds(rs, m[l], it);
    }
    if src == n && c.renamed.Some? {
      var l :| l in LEGACY_MECHA_GUNNERY_NAMES && l in m && l != src && c.renamed.value == m[l].id;
      assert m[l].name != it.name;
      DistinctItemsDistinctIds(rs, m[l], it);
    }
  }

  /** An item no patch names keeps its system. */
  lemma {:induction false} PatchesSkip(items: seq<Item>, ps: seq<Patch>, k: int)
    requires 0 <= k < |items| && forall a | 0 <= a < |ps| :: ps[a].id != items[k].id
    ensures ApplyPatches(items, ps)[k] == items[k]
    decreases |ps|
  {
    if ps != [] {
      var first := UpdateSystemById(items, ps[0].id, ps[0].fields, false);
      assert first[k] == items[k];
      PatchesSkip(first, ps[1..], k);
    }
  }

  /** Patches that write only fields missing from `base` leave every field
      `base` has as it was. */
  lemma {:induction false} PatchesKeepPresent(items: seq<Item>, ps: seq<Patch>, k: int, base: Object)
    requires 0 <= k < |items|
    requires forall key | !Unset(base, key) :: Get(items[k].system, key) == Get(base, key)
    requires forall a | 0 <= a < |ps| && ps[a].id == items[k].id :: forall key | key in ps[a].fields :: Unset(base, key)
    ensures forall key | !Unset(base, key) :: Get(ApplyPatches(items, ps)[k].system, key) == Get(base, key)
    decreases |ps|
  {
    if ps != [] {
      var first := UpdateSystemById(items, ps[0].id, ps[0].fields, false);
      var rest := ps[1..];
      assert forall a | 0 <= a < |rest| :: rest[a] == ps[a + 1];
      PatchesKeepPresent(first, rest, k, base);
    }
  }

  /** The skill the pass finds under a default's name is a collapsed item
      carrying that name. */
  lemma {:induction false} MapEntryCollapsed(items: seq<Item>, defaults: seq<Entry>, n: string)
    requires UniqueIds(items)
    requires n in RunSkills(items, defaults).collapse.byName && n !in DEPRECATED_SKILL_NAMES
    ensures var run := RunSkills(items, defaults);
            && run.collapse.byName[n] in run.collapsed
            && run.collapse.byName[n].kind == "skill" && run.collapse.byName[n].name == n
  {
    var run := RunSkills(items, defaults);
    StagesKeepIdsUnique(items, defaults);
    var m0 := ByName(OfKind(run.renamed, "skill"));
    forall k | k in m0
      ensures m0[k] in run.renamed && m0[k].kind == "skill"
    {
      assert m0[k] in OfKind(run.renamed, "skill");
    }
    CollapsedHoldsMap(run.renamed, m0, n);
  }

  /** A patch holds missing fields only. */
  lemma PatchFillsOnly(cur: Object, d: Object)
    ensures forall k | k in SkillPatch(cur, d) :: Unset(cur, k)
  {
  }

  /** Every item of the collapsed name map, other than a retired
      "Stat Boost", is a collapsed skill filed under its own name. */
  predicate MapInCollapsed(m: map<string, Item>, collapsed: seq<Item>)
  {
    forall n | n in m && n !in DEPRECATED_SKILL_NAMES :: m[n] in collapsed && m[n].name == n
  }

  lemma {:induction false} RunMapInCollapsed(items: seq<Item>, defaults: seq<Entry>)
    requires UniqueIds(items)
    ensures var run := RunSkills(items, defaults);
            MapInCollapsed(run.collapse.byName, run.collapsed)
  {
    var run := RunSkills(items, defaults);
    forall n | n in run.collapse.byName && n !in DEPRECATED_SKILL_NAMES
      ensures run.collapse.byName[n] in run.collapsed && run.collapse.byName[n].name == n
    {
      MapEntryCollapsed(items, defaults, n);
    }
  }

  /** Every planned patch targets a collapsed skill named after a default,
      and writes only fields that skill lacks. */
  lemma {:induction false} PatchTargets(m: map<string, Item>, defaults: seq<Entry>, collapsed: seq<Item>, a: int)
    returns (k: int, d: Entry)
    requires SkillDefaults(defaults) && MapInCollapsed(m, collapsed)
    requires 0 <= a < |PlanSkills(m, defaults).patches|
    ensures var q := PlanSkills(m, defaults).patches[a];
            && 0 <= k < |collapsed| && collapsed[k].id == q.id
            && d in defaults && d.name == collapsed[k].name
            && forall key | key in q.fields :: Unset(collapsed[k].system, key)
  {
    var q := PlanSkills(m, defaults).patches[a];
    assert q in PlanSkills(m, defaults).patches;
    d :| d in defaults && d.name in m && q == PatchFor(m, d) && q.fields != map[];
    var b :| 0 <= b < |defaults| && defaults[b] == d;
    k :| 0 <= k < |collapsed| && collapsed[k] == m[d.name];
    PatchFillsOnly(m[d.name].system, d.system);
  }

  /** After the skill pass every default's name is carried by a skill. */
  lemma {:induction false} SkillPassCarriesDefaults(items: seq<Item>, defaults: seq<Entry>, d: Entry)
    requires UniqueIds(items) && SkillDefaults(defaults) && d in defaults
    ensures var out := RunSkills(items, defaults).items;
            exists j | 0 <= j < |out| :: out[j].kind == "skill" && out[j].name == d.name
  {
    var run := RunSkills(items, defaults);
    var m := run.collapse.byName;
    var ys := Create(run.collapsed, run.plan.creates);
    var b :| 0 <= b < |defaults| && defaults[b] == d;
    if d.name in m {
      MapEntryCollapsed(items, defaults, d.name);
      var j :| 0 <= j < |run.collapsed| && run.collapsed[j] == m[d.name];
      assert ys[j] == m[d.name];
      assert run.items[j].name == ys[j].name && run.items[j].kind == ys[j].kind;
    } else {
      assert d in run.plan.creates;
      var c :| 0 <= c < |run.plan.creates| && run.plan.creates[c] == d;
      var j := |run.collapsed| + c;
      assert ys[j].name == d.name && ys[j].kind == d.kind;
      assert run.items[j].name == ys[j].name && run.items[j].kind == ys[j].kind;
    }
  }

  /** A field present on a skill that came through the renames, the purge and
      the collapse keeps its value: the patches only fill missing fields. */
  lemma {:induction false} SkillPassKeepsPresentFields(items: seq<Item>, defaults: seq<Entry>, k: int)
    requires UniqueIds(items) && SkillDefaults(defaults)
    requires 0 <= k < |RunSkills(items, defaults).collapsed|
    ensures var run := RunSkills(items, defaults);
            && run.items[k].id == run.collapsed[k].id && run.items[k].name == run.collapsed[k].name
            && forall key | !Unset(run.collapsed[k].system, key) ::
                 Get(run.items[k].system, key) == Get(run.collapsed[k].system, key)
  {
    var run := RunSkills(items, defaults);
    var ys := Create(run.collapsed, run.plan.creates);
    var ps := run.plan.patches;
    var base := run.collapsed[k].system;
    StagesKeepIdsUnique(items, defaults);
    RunMapInCollapsed(items, defaults);
    assert ys[k] == run.collapsed[k];
    forall a | 0 <= a < |ps| && ps[a].id == ys[k].id
      ensures forall key | key in ps[a].fields :: Unset(base, key)
    {
      var k', _ := PatchTargets(run.collapse.byName, defaults, run.collapsed, a);
      SameIdSameItem(run.collapsed, run.collapsed[k'], run.collapsed[k]);
    }
    PatchesKeepPresent(ys, ps, k, base);
  }

  /** Where a collapsed item comes from: an item of the renamed sequence that
      the purge and the collapse did not delete, with its own name or renamed
      to the canonical Mecha Gunnery name. */
  lemma {:induction false} CollapsedOrigin(rs: seq<Item>, ids: seq<Id>, renamed: Option<Id>, deleted: seq<Id>, y: Item)
    returns (q: int)
    requires y in DeleteIds(RenameOpt(DeleteIds(rs, ids), renamed, HARD_MECHA_GUNNERY), deleted)
    ensures 0 <= q < |rs| && rs[q].id == y.id && rs[q].kind == y.kind && rs[q].system == y.system
    ensures y.id !in ids && y.id !in deleted
    ensures y == if renamed == Some(y.id) then rs[q].(name := HARD_MECHA_GUNNERY) else rs[q]
  {
    var kept := DeleteIds(rs, ids);
    var ren := RenameOpt(kept, renamed, HARD_MECHA_GUNNERY);
    var p :| 0 <= p < |ren| && ren[p] == y;
    assert kept[p] in rs;
    q :| 0 <= q < |rs| && rs[q] == kept[p];
  }

  /** Every collapsed item is an item of the actor with its id, type and
      system: the renames and the collapse change names only. */
  lemma {:induction false} CollapsedFromInput(items: seq<Item>, defaults: seq<Entry>)
    ensures var run := RunSkills(items, defaults);
            forall y | y in run.collapsed ::
              exists i | 0 <= i < |items| :: items[i].id == y.id && items[i].kind == y.kind && items[i].system == y.system
  {
    var run := RunSkills(items, defaults);
    forall y | y in run.collapsed
      ensures exists i | 0 <= i < |items| :: items[i].id == y.id && items[i].kind == y.kind && items[i].system == y.system
    {
      var q := CollapsedOrigin(run.renamed, run.purged, run.collapse.renamed, run.collapse.deleted, y);
      assert items[q].id == y.id && items[q].kind == y.kind && items[q].system == y.system;
    }
  }

  /** No collapsed item is a retired "Stat Boost": the purge removed them all,
      and the collapse only renames to the canonical Mecha Gunnery name. */
  lemma {:induction false} CollapsedNotDeprecated(items: seq<Item>, defaults: seq<Entry>)
    ensures var run := RunSkills(items, defaults);
            forall y | y in run.collapsed :: !Deprecated(y)
  {
    var run := RunSkills(items, defaults);
    forall y | y in run.collapsed
      ensures !Deprecated(y)
    {
      var q := CollapsedOrigin(run.renamed, run.purged, run.collapse.renamed, run.collapse.deleted, y);
      assert !Deprecated(run.renamed[q]);
    }
  }

  /** The collapse deletes or renames the item the map holds under each old
      Mecha Gunnery spelling. */
  lemma CollapseRetiresOld(m: map<string, Item>, l: string)
    requires l in LEGACY_MECHA_GUNNERY_NAMES && l in m
    ensures m[l].id in CollapseMecha(m).deleted || CollapseMecha(m).renamed == Some(m[l].id)
  {
  }

  /** No two skills of the actor share an old Mecha Gunnery spelling. */
  predicate OneOfEachOldSpelling(items: seq<Item>)
  {
    forall i, j | 0 <= i < j < |items| && items[i].kind == "skill" && items[j].kind == "skill" && items[i].name == items[j].name ::
      items[i].name !in LEGACY_MECHA_GUNNERY_NAMES
  }

  /** The renames never give an old spelling, so with one skill per old
      spelling the skill carrying one after them is the last of that name. */
  lemma {:induction false} OldSpellingIsLast(items: seq<Item>, q: int)
    requires OneOfEachOldSpelling(items)
    requires 0 <= q < |items| && RenamePass(items, 0)[q].kind == "skill"
    requires RenamePass(items, 0)[q].name in LEGACY_MECHA_GUNNERY_NAMES
    ensures LastNamed(RenamePass(items, 0), "skill", RenamePass(items, 0)[q].name, q)
  {
    var rs := RenamePass(items, 0);
    assert forall r | 0 <= r < |rs| && rs[r].name in LEGACY_MECHA_GUNNERY_NAMES :: rs[r] == items[r];
  }

  /** With one skill per old spelling, no collapsed skill keeps an old
      spelling: the skill carrying it is the one the map holds, and the
      collapse deletes or renames that one. */
  lemma {:induction false} CollapsedHasNoOldSpelling(items: seq<Item>, defaults: seq<Entry>)
    requires OneOfEachOldSpelling(items)
    ensures var run := RunSkills(items, defaults);
            forall y | y in run.collapsed && y.kind == "skill" :: y.name !in LEGACY_MECHA_GUNNERY_NAMES
  {
    var run := RunSkills(items, defaults);
    var rs := run.renamed;
    var m0 := ByName(OfKind(rs, "skill"));
    forall y | y in run.collapsed && y.kind == "skill"
      ensures y.name !in LEGACY_MECHA_GUNNERY_NAMES
    {
      var q := CollapsedOrigin(rs, run.purged, run.collapse.renamed, run.collapse.deleted, y);
      if y.name in LEGACY_MECHA_GUNNERY_NAMES {
        assert y == rs[q];
        OldSpellingIsLast(items, q);
        ByNameOfKindIsLast(rs, "skill", y.name, q);
        CollapseRetiresOld(m0, y.name);
      }
    }
  }

  /** The create-and-patch step adds no retired "Stat Boost": created items
      are defaults, and every patch goes to an item the map holds under a
      default's name. */
  lemma {:induction false} PatchedNotDeprecated(m: map<string, Item>, defaults: seq<Entry>, collapsed: seq<Item>)
    requires SkillDefaults(defaults) && MapInCollapsed(m, collapsed) && UniqueIds(collapsed)
    requires forall y | y in collapsed :: !Deprecated(y)
    ensures var plan := PlanSkills(m, defaults);
            var out := ApplyPatches(Create(collapsed, plan.creates), plan.patches);
            forall j | 0 <= j < |out| :: !Deprecated(out[j])
  {
    var plan := PlanSkills(m, defaults);
    var ys := Create(collapsed, plan.creates);
    var ps := plan.patches;
    var out := ApplyPatches(ys, ps);
    CreateKeepsIdsUnique(collapsed, plan.creates);
    forall j | 0 <= j < |out|
      ensures !Deprecated(out[j])
    {
      if out[j].name in DEPRECATED_SKILL_NAMES {
        forall a | 0 <= a < |ps|
          ensures ps[a].id != ys[j].id
        {
          var k, d := PatchTargets(m, defaults, collapsed, a);
          var b :| 0 <= b < |defaults| && defaults[b] == d;
          assert ys[k] == collapsed[k] && ys[k].name !in DEPRECATED_SKILL_NAMES;
          DistinctItemsDistinctIds(ys, ys[k], ys[j]);
        }
        PatchesSkip(ys, ps, j);
        if j < |collapsed| {
          assert ys[j] in collapsed;
        } else {
          assert plan.creates[j - |collapsed|] in plan.creates;
        }
      }
    }
  }

  /** After the skill pass no item is a retired "Stat Boost". */
  lemma {:induction false} SkillPassPurges(items: seq<Item>, defaults: seq<Entry>)
    requires UniqueIds(items) && SkillDefaults(defaults)
    ensures var out := RunSkills(items, defaults).items;
            forall j | 0 <= j < |out| :: !Deprecated(out[j])
  {
    var run := RunSkills(items, defaults);
    StagesKeepIdsUnique(items, defaults);
    RunMapInCollapsed(items, defaults);
    CollapsedNotDeprecated(items, defaults);
    PatchedNotDeprecated(run.collapse.byName, defaults, run.collapsed);
    assert run.plan == PlanSkills(run.collapse.byName, defaults);
    assert run.items == ApplyPatches(Create(run.collapsed, run.plan.creates), run.plan.patches);
  }

  /** After the skill pass no skill carries an old Mecha Gunnery spelling,
      when the actor had at most one skill of each. */
  lemma {:induction false} SkillPassFoldsMecha(items: seq<Item>, defaults: seq<Entry>)
    requires SkillDefaults(defaults) && OneOfEachOldSpelling(items)
    ensures var out := RunSkills(items, defaults).items;
            forall j | 0 <= j < |out| && out[j].kind == "skill" :: out[j].name !in LEGACY_MECHA_GUNNERY_NAMES
  {
    var run := RunSkills(items, defaults);
    var ys := Create(run.collapsed, run.plan.creates);
    CollapsedHasNoOldSpelling(items, defaults);
    forall j | 0 <= j < |run.items| && run.items[j].kind == "skill"
      ensures run.items[j].name !in LEGACY_MECHA_GUNNERY_NAMES
    {
      assert run.items[j].name == ys[j].name && run.items[j].kind == ys[j].kind;
      if j < |run.collapsed| {
        assert ys[j] in run.collapsed;
      } else {
        assert run.plan.creates[j - |run.collapsed|] in run.plan.creates;
      }
    }
  }

  /** Deleting ids no item carries changes nothing. */
  lemma {:induction false} DeleteIdsNothing(items: seq<Item>, ids: seq<Id>)
    requires forall k | 0 <= k < |items| :: items[k].id !in ids
    ensures DeleteIds(items, ids) == items
  {
    if items != [] {
      DeleteIdsNothing(items[..|items| - 1], ids);
      assert items[..|items| - 1] + [items[|items| - 1]] == items;
    }
  }

  /** Without an old name the rename pass changes nothing. */
  lemma {:induction false} RenameNone(items: seq<Item>)
    requires forall k | 0 <= k < |items| :: RenameTarget(items[k].name).None?
    ensures RenamePass(items, 0) == items
  {
  }

  /** Without a retired skill the purge deletes nothing. */
  lemma {:induction false} PurgeNone(items: seq<Item>)
    requires forall k | 0 <= k < |items| :: !Deprecated(items[k])
    ensures PurgeIds(items) == []
  {
    if items != [] {
      PurgeNone(items[..|items| - 1]);
    }
  }

  /** Of two skills called "Mecha Gunnery" the name map holds the second. */
  lemma TwoOldSpellingsMap(a: Item, b: Item)
    requires a.kind == "skill" && b.kind == "skill" && a.name == "Mecha Gunnery" && b.name == "Mecha Gunnery"
    ensures ByName(OfKind([a, b], "skill")) == map["Mecha Gunnery" := b]
  {
    PairOfKind(a, b, "skill");
    PairByName(a, b);
  }

  /** Two items of one kind are both kept by the filter, in order. */
  lemma PairOfKind(a: Item, b: Item, kind: string)
    requires a.kind == kind && b.kind == kind
    ensures OfKind([a, b], kind) == [a, b]
  {
    assert [a, b][..1] == [a] && [a][..0] == [];
  }

  /** Of two items with one name, the name map holds the second. */
  lemma PairByName(a: Item, b: Item)
    requires a.name == b.name
    ensures ByName([a, b]) == map[b.name := b]
  {
    assert [a, b][..1] == [a] && [a][..0] == [];
  }

  /** With only "Mecha Gunnery" in the map, the collapse renames that skill
      and deletes nothing. */
  lemma OnlyOldSpellingCollapse(b: Item)
    ensures CollapseMecha(map["Mecha Gunnery" := b]).renamed == Some(b.id)
    ensures CollapseMecha(map["Mecha Gunnery" := b]).deleted == []
  {
  }

  /** Renaming the second of two items with different ids. */
  lemma RenameSecond(a: Item, b: Item, name: string)
    requires a.id != b.id
    ensures RenameById([a, b], b.id, name) == [a, b.(name := name)]
  {
    var r := RenameById([a, b], b.id, name);
    assert r[0] == a && r[1] == b.(name := name);
  }

  /** The collapse looks at the last skill of each old spelling only: of two
      skills called "Mecha Gunnery", the second is renamed and the first
      keeps its old name. */
  lemma SkillPassKeepsEarlierDuplicate(a: Item, b: Item)
    requires a.kind == "skill" && b.kind == "skill" && a.name == "Mecha Gunnery" && b.name == "Mecha Gunnery"
    requires a.id != b.id
    ensures RunSkills([a, b], []).items == [a, b.(name := HARD_MECHA_GUNNERY)]
  {
    var items := [a, b];
    RenameNone(items);
    PurgeNone(items);
    TwoOldSpellingsMap(a, b);
    OnlyOldSpellingCollapse(b);
    DeleteIdsNothing(items, []);
    var run := RunSkills(items, []);
    assert run.renamed == items && run.purged == [] && run.kept == items;
    assert run.collapse == CollapseMecha(map["Mecha Gunnery" := b]);
    var ren := [a, b.(name := HARD_MECHA_GUNNERY)];
    RenameSecond(a, b, HARD_MECHA_GUNNERY);
    DeleteIdsNothing(ren, []);
    assert run.collapsed == ren;
    NoDefaultsNoPlan(items);
  }

  /** With no defaults the pass plans nothing, so its result is the collapsed
      items. */
  lemma NoDefaultsNoPlan(items: seq<Item>)
    ensures RunSkills(items, []).items == RunSkills(items, []).collapsed
  {
    var run := RunSkills(items, []);
    assert run.plan == SkillPlan([], []);
    assert Create(run.collapsed, []) == run.collapsed;
  }

  /** For the catalog: after `ensureActorHasSkills` every catalog skill is
      present by name and no retired "Stat Boost" is left; no old Mecha
      Gunnery spelling is left either when the actor had one skill of each. */
  lemma SkillSyncEndState(actor: Option<Actor>, d: Entry)
    requires Allowed(actor) && UniqueIds(actor.value.items) && d in DefaultSkills(CP2020_SKILLS)
    ensures var out := EnsureActorHasSkills(actor).actor.value.items;
            && (exists j | 0 <= j < |out| :: out[j].kind == "skill" && out[j].name == d.name)
            && (forall j | 0 <= j < |out| :: !Deprecated(out[j]))
            && (OneOfEachOldSpelling(actor.value.items) ==>
                  forall j | 0 <= j < |out| && out[j].kind == "skill" :: out[j].name !in LEGACY_MECHA_GUNNERY_NAMES)
  {
    var items := actor.value.items;
    var defaults := DefaultSkills(CP2020_SKILLS);
    CatalogSkillDefaults();
    SkillPassCarriesDefaults(items, defaults, d);
    SkillPassPurges(items, defaults);
    if OneOfEachOldSpelling(items) {
      SkillPassFoldsMecha(items, defaults);
    }
  }

  // ---------------------------------------------------------------------------
  // ensureActorHasSpells
  // ---------------------------------------------------------------------------

  datatype SpellPlan = SpellPlan(creates: seq<Entry>, overwrites: seq<Patch>)

  /** The loop over the signs: a missing one is created, and an existing one
      whose system is not deep-equal to the default gets the default system. */
  function PlanSpells(m: map<string, Item>, defaults: seq<Entry>): (p: SpellPlan)
    ensures forall e :: e in p.creates <==> e in defaults && e.name !in m
    ensures forall q | q in p.overwrites ::
              exists d | d in defaults && d.name in m :: q == Patch(m[d.name].id, d.system) && m[d.name].system != d.system
    ensures |p.creates| + |p.overwrites| <= |defaults|
  {
    if defaults == [] then SpellPlan([], [])
    else
      var d := defaults[0];
      var rest := PlanSpells(m, defaults[1..]);
      assert forall e | e in defaults :: e == d || e in defaults[1..];
      if d.name !in m then SpellPlan([d] + rest.creates, rest.overwrites)
      else if m[d.name].system == d.system then rest
      else SpellPlan(rest.creates, [Patch(m[d.name].id, d.system)] + rest.overwrites)
  }

  /** Conversely, every default naming an existing sign whose system differs
      from the default has its overwrite in the plan. */
  lemma {:induction false} PlanSpellsOverwritesEveryDifference(m: map<string, Item>, defaults: seq<Entry>, d: Entry)
    requires d in defaults && d.name in m && m[d.name].system != d.system
    ensures Patch(m[d.name].id, d.system) in PlanSpells(m, defaults).overwrites
  {
    if defaults[0] != d {
      assert d in defaults[1..];
      PlanSpellsOverwritesEveryDifference(m, defaults[1..], d);
    }
  }

  /** The signs as the sync uses them: every system run through `prepareSpellSystem`. */
  function DefaultSpells(table: seq<Entry>): seq<Entry>
  {
    seq(|table|, i requires 0 <= i < |table| => Entry(table[i].name, "spell", PrepareSpellSystem(table[i].system)))
  }

  /** One sign pass: the plan, and the items after the creates and the
      updates. `updateEmbeddedDocuments` merges each `{ system }` update into
      the stored system key by key, so a stored key the default lacks stays. */
  function RunSpells(items: seq<Item>, defaults: seq<Entry>): (SpellPlan, seq<Item>)
  {
    var plan := PlanSpells(ByName(OfKind(items, "spell")), defaults);
    (plan, ApplyPatches(Create(items, plan.creates), plan.overwrites))
  }

  /** Merging the same fields twice is merging them once. */
  lemma MergeTwice(sys: Object, fields: Object)
    ensures (sys + fields) + fields == sys + fields
  {
  }

  /** A merge leaves exactly the merged fields when, and only when, the
      stored system has no key the fields lack. */
  lemma MergeGivesFieldsIff(sys: Object, fields: Object)
    ensures sys + fields == fields <==> sys.Keys <= fields.Keys
  {
    if sys + fields == fields {
      assert (sys + fields).Keys == sys.Keys + fields.Keys;
    }
  }

  /** Updates that agree on every id they share land each on its own item:
      names, kinds and ids stay, an item no update names keeps its system,
      and an item one names gets that update's fields merged over its own. */
  lemma {:induction false} ApplyPatchesEffect(items: seq<Item>, qs: seq<Patch>)
    requires forall a, b | 0 <= a < |qs| && 0 <= b < |qs| && qs[a].id == qs[b].id :: qs[a].fields == qs[b].fields
    ensures var r := ApplyPatches(items, qs);
            && (forall k | 0 <= k < |items| :: r[k].id == items[k].id && r[k].name == items[k].name && r[k].kind == items[k].kind)
            && (forall k | 0 <= k < |items| && (forall a | 0 <= a < |qs| :: qs[a].id != items[k].id) :: r[k] == items[k])
            && (forall k, a | 0 <= k < |items| && 0 <= a < |qs| && qs[a].id == items[k].id ::
                  r[k].system == items[k].system + qs[a].fields)
    decreases |qs|
  {
    if qs != [] {
      var first := UpdateSystemById(items, qs[0].id, qs[0].fields, false);
      var rest := qs[1..];
      assert forall a | 0 <= a < |rest| :: rest[a] == qs[a + 1];
      ApplyPatchesEffect(first, rest);
      var r := ApplyPatches(items, qs);
      forall k, a | 0 <= k < |items| && 0 <= a < |qs| && qs[a].id == items[k].id
        ensures r[k].system == items[k].system + qs[a].fields
      {
        if exists c | 0 <= c < |rest| :: rest[c].id == items[k].id {
          MergeTwice(items[k].system, qs[a].fields);
        }
      }
    }
  }

  /** Default entries with pairwise different names. */
  predicate DistinctNames(es: seq<Entry>)
  {
    forall a, b | 0 <= a < b < |es| :: es[a].name != es[b].name
  }

  /** With unique ids, two different items of a list have different ids. */
  lemma DistinctItemsDistinctIds(items: seq<Item>, x: Item, y: Item)
    requires UniqueIds(items) && x in items && y in items && x != y
    ensures x.id != y.id
  {
    var i :| 0 <= i < |items| && items[i] == x;
    var j :| 0 <= j < |items| && items[j] == y;
    assert i != j;
  }

  /** With the host's distinct ids, two items of the sequence with one id are
      the same item. */
  lemma {:induction false} SameIdSameItem(items: seq<Item>, x: Item, y: Item)
    requires UniqueIds(items) && x in items && y in items && x.id == y.id
    ensures x == y
  {
    var i :| 0 <= i < |items| && items[i] == x;
    var j :| 0 <= j < |items| && items[j] == y;
    assert i == j;
  }

  /** The default `d` is the last spell of its name in `items`, with the
      default system. */
  predicate Installed(items: seq<Item>, d: Entry)
  {
    var m := ByName(OfKind(items, "spell"));
    d.name in m && m[d.name].system == d.system
  }

  /** The default an overwrite of the spell plan comes from: one naming an
      existing sign whose system differs from the default. */
  lemma {:induction false} OverwriteOrigin(m: map<string, Item>, defaults: seq<Entry>, q: Patch) returns (x: nat)
    requires q in PlanSpells(m, defaults).overwrites
    ensures x < |defaults| && defaults[x].name in m
    ensures q == Patch(m[defaults[x].name].id, defaults[x].system) && m[defaults[x].name].system != defaults[x].system
  {
    var d := defaults[0];
    if d.name in m && m[d.name].system != d.system && q == Patch(m[d.name].id, d.system) {
      x := 0;
    } else {
      var y := OverwriteOrigin(m, defaults[1..], q);
      x := y + 1;
    }
  }

  /** `m` holds items of the sequence, each under its own name, as
      `ByName` builds it. */
  predicate Indexes(items: seq<Item>, m: map<string, Item>)
  {
    forall n | n in m :: m[n] in items && m[n].name == n
  }

  /** Every overwrite the spell plan makes targets an item of the sequence,
      so its id is below `NextId`. */
  lemma {:induction false} OverwritesTargetOld(items: seq<Item>, defaults: seq<Entry>)
    ensures var qs := PlanSpells(ByName(OfKind(items, "spell")), defaults).overwrites;
            forall b | 0 <= b < |qs| :: qs[b].id < NextId(items)
  {
    var m := ByName(OfKind(items, "spell"));
    var qs := PlanSpells(m, defaults).overwrites;
    forall b | 0 <= b < |qs|
      ensures qs[b].id < NextId(items)
    {
      var x := OverwriteOrigin(m, defaults, qs[b]);
      assert m[defaults[x].name] in items;
    }
  }

  /** Two overwrites of one item carry the same system. */
  lemma {:induction false} OverwritesConsistent(items: seq<Item>, defaults: seq<Entry>, m: map<string, Item>, qs: seq<Patch>)
    requires UniqueIds(items)
    requires DistinctNames(defaults)
    requires Indexes(items, m) && qs == PlanSpells(m, defaults).overwrites
    ensures forall b, c | 0 <= b < |qs| && 0 <= c < |qs| && qs[b].id == qs[c].id :: qs[b].fields == qs[c].fields
  {
    forall b, c | 0 <= b < |qs| && 0 <= c < |qs| && qs[b].id == qs[c].id
      ensures qs[b].fields == qs[c].fields
    {
      var x := OverwriteOrigin(m, defaults, qs[b]);
      var y := OverwriteOrigin(m, defaults, qs[c]);
      SameIdSameItem(items, m[defaults[x].name], m[defaults[y].name]);
      assert x == y;
    }
  }

  /** No overwrite other than the one for `d` touches the spell the map holds
      under `d`'s name. */
  lemma {:induction false} OnlyOwnOverwrite(items: seq<Item>, defaults: seq<Entry>, m: map<string, Item>, qs: seq<Patch>, d: Entry, b: int)
    requires UniqueIds(items)
    requires DistinctNames(defaults)
    requires Indexes(items, m) && qs == PlanSpells(m, defaults).overwrites
    requires d in defaults && d.name in m && 0 <= b < |qs| && qs[b].id == m[d.name].id
    ensures qs[b] == Patch(m[d.name].id, d.system) && m[d.name].system != d.system
  {
    var x := OverwriteOrigin(m, defaults, qs[b]);
    SameIdSameItem(items, m[defaults[x].name], m[d.name]);
    var y :| 0 <= y < |defaults| && defaults[y] == d;
    assert x == y;
  }

  /** Updates keep names and kinds, so the last item of a name stays last. */
  lemma PatchesKeepLast(items: seq<Item>, qs: seq<Patch>, kind: string, n: string, i: int)
    requires LastNamed(items, kind, n, i)
    ensures LastNamed(ApplyPatches(items, qs), kind, n, i)
  {
  }

  /** The items the spell plan creates carry names the map does not hold. */
  lemma {:induction false} CreatedAreNew(items: seq<Item>, m: map<string, Item>, defaults: seq<Entry>)
    ensures var ys := Create(items, PlanSpells(m, defaults).creates);
            forall k | |items| <= k < |ys| :: ys[k].name !in m
  {
    var cs := PlanSpells(m, defaults).creates;
    var ys := Create(items, cs);
    forall k | |items| <= k < |ys|
      ensures ys[k].name !in m
    {
      assert cs[k - |items|] in cs;
    }
  }

  /** Creating the planned spells keeps the last item of a name the map
      holds the last one of that name. */
  lemma {:induction false} CreateKeepsLast(items: seq<Item>, m: map<string, Item>, defaults: seq<Entry>, n: string, i: int)
    requires n in m && LastNamed(items, "spell", n, i)
    ensures LastNamed(Create(items, PlanSpells(m, defaults).creates), "spell", n, i)
  {
    var ys := Create(items, PlanSpells(m, defaults).creates);
    CreatedAreNew(items, m, defaults);
    forall j | i < j < |ys|
      ensures !(ys[j].kind == "spell" && ys[j].name == n)
    {
      if j < |items| {
        assert ys[j] == items[j];
      } else {
        assert ys[j].name !in m;
      }
    }
    assert ys[i] == items[i];
  }

  /** The last spell named like an existing default stays the last one of
      that name: created items never carry an existing name. */
  lemma {:induction false} ExistingStaysLast(items: seq<Item>, defaults: seq<Entry>, d: Entry, i: int)
    requires d.name in ByName(OfKind(items, "spell"))
    requires LastNamed(items, "spell", d.name, i)
    ensures LastNamed(RunSpells(items, defaults).1, "spell", d.name, i)
  {
    var plan := PlanSpells(ByName(OfKind(items, "spell")), defaults);
    CreateKeepsLast(items, ByName(OfKind(items, "spell")), defaults, d.name, i);
    PatchesKeepLast(Create(items, plan.creates), plan.overwrites, "spell", d.name, i);
  }

  /** The spell the map holds under an existing default's name gets the
      default's fields merged over its own: through its own update, or
      because it already had exactly the default system. */
  lemma {:induction false} ExistingGetsDefault(items: seq<Item>, m: map<string, Item>, defaults: seq<Entry>, d: Entry, i: int)
    requires UniqueIds(items) && Indexes(items, m)
    requires DistinctNames(defaults)
    requires d in defaults && d.name in m
    requires 0 <= i < |items| && m[d.name] == items[i]
    ensures var plan := PlanSpells(m, defaults);
            ApplyPatches(Create(items, plan.creates), plan.overwrites)[i].system == m[d.name].system + d.system
  {
    var plan := PlanSpells(m, defaults);
    var ys := Create(items, plan.creates);
    var qs := plan.overwrites;
    OverwritesConsistent(items, defaults, m, qs);
    ApplyPatchesEffect(ys, qs);
    assert ys[i] == items[i];
    forall a | 0 <= a < |qs| && qs[a].id == ys[i].id
      ensures qs[a].fields == d.system
    {
      OnlyOwnOverwrite(items, defaults, m, qs, d, a);
    }
    if m[d.name].system != d.system {
      PlanSpellsOverwritesEveryDifference(m, defaults, d);
    } else {
      MergeGivesFieldsIff(d.system, d.system);
    }
  }

  /** A default sign the actor already had ends up with the default's fields
      merged over its stored system; it then has exactly the default system
      when, and only when, it had no field the default lacks. */
  lemma {:induction false} InstallsExisting(items: seq<Item>, defaults: seq<Entry>, d: Entry)
    requires UniqueIds(items)
    requires DistinctNames(defaults)
    requires d in defaults && d.name in ByName(OfKind(items, "spell"))
    ensures var before := ByName(OfKind(items, "spell"));
            var after := ByName(OfKind(RunSpells(items, defaults).1, "spell"));
            d.name in after && after[d.name].system == before[d.name].system + d.system
    ensures Installed(RunSpells(items, defaults).1, d) <==> ByName(OfKind(items, "spell"))[d.name].system.Keys <= d.system.Keys
  {
    var m := ByName(OfKind(items, "spell"));
    ByNameOfKindWitness(items, "spell", d.name);
    var i :| LastNamed(items, "spell", d.name, i) && m[d.name] == items[i];
    ExistingStaysLast(items, defaults, d, i);
    ExistingGetsDefault(items, m, defaults, d, i);
    ByNameOfKindIsLast(RunSpells(items, defaults).1, "spell", d.name, i);
    MergeGivesFieldsIff(m[d.name].system, d.system);
  }

  /** A default the map lacks is created, and the last spell of its name after
      creation is the created one, carrying the default system. */
  lemma {:induction false} CreatedIsLast(items: seq<Item>, m: map<string, Item>, defaults: seq<Entry>, d: Entry) returns (last: int)
    requires DistinctNames(defaults)
    requires forall b | 0 <= b < |defaults| :: defaults[b].kind == "spell"
    requires d in defaults && d.name !in m
    ensures var ys := Create(items, PlanSpells(m, defaults).creates);
            && LastNamed(ys, "spell", d.name, last)
            && last >= |items| && ys[last].id >= NextId(items) && ys[last].system == d.system
  {
    var cs := PlanSpells(m, defaults).creates;
    var ys := Create(items, cs);
    assert d in cs;
    var c :| 0 <= c < |cs| && cs[c] == d;
    assert ys[|items| + c].name == d.name && ys[|items| + c].kind == "spell";
    last := LastIndexOf(ys, "spell", d.name);
    assert last >= |items| + c;
    var e := cs[last - |items|];
    assert e in cs;
    var x :| 0 <= x < |defaults| && defaults[x] == e;
    var y :| 0 <= y < |defaults| && defaults[y] == d;
    assert x == y;
  }

  /** A default sign the actor lacked is created with the default system. */
  lemma {:induction false} InstallsCreated(items: seq<Item>, defaults: seq<Entry>, d: Entry)
    requires DistinctNames(defaults)
    requires forall b | 0 <= b < |defaults| :: defaults[b].kind == "spell"
    requires d in defaults && d.name !in ByName(OfKind(items, "spell"))
    ensures Installed(RunSpells(items, defaults).1, d)
  {
    var plan := PlanSpells(ByName(OfKind(items, "spell")), defaults);
    var ys := Create(items, plan.creates);
    var last := CreatedIsLast(items, ByName(OfKind(items, "spell")), defaults, d);
    OverwritesTargetOld(items, defaults);
    PatchesSkip(ys, plan.overwrites, last);
    PatchesKeepLast(ys, plan.overwrites, "spell", d.name, last);
    ByNameOfKindIsLast(ApplyPatches(ys, plan.overwrites), "spell", d.name, last);
  }

  /** A plan made when every default is installed is empty. */
  lemma {:induction false} PlanOfInstalled(items: seq<Item>, defaults: seq<Entry>)
    requires forall b | 0 <= b < |defaults| :: Installed(items, defaults[b])
    ensures PlanSpells(ByName(OfKind(items, "spell")), defaults) == SpellPlan([], [])
  {
    if defaults != [] {
      assert Installed(items, defaults[0]);
      PlanOfInstalled(items, defaults[1..]);
    }
  }

  /** No sign the map finds under a default's name has a field the default
      lacks. */
  predicate NoExtraKeys(items: seq<Item>, defaults: seq<Entry>)
  {
    var m := ByName(OfKind(items, "spell"));
    forall b | 0 <= b < |defaults| && defaults[b].name in m :: m[defaults[b].name].system.Keys <= defaults[b].system.Keys
  }

  /** After one pass every default is installed, except that a stored sign
      keeps the fields the default lacks. */
  lemma {:induction false} InstalledAfterPass(items: seq<Item>, defaults: seq<Entry>)
    requires UniqueIds(items)
    requires DistinctNames(defaults)
    requires forall b | 0 <= b < |defaults| :: defaults[b].kind == "spell"
    ensures NoExtraKeys(items, defaults) ==>
              forall b | 0 <= b < |defaults| :: Installed(RunSpells(items, defaults).1, defaults[b])
  {
    var out := RunSpells(items, defaults).1;
    if NoExtraKeys(items, defaults) {
      forall b | 0 <= b < |defaults|
        ensures Installed(out, defaults[b])
      {
        if defaults[b].name in ByName(OfKind(items, "spell")) {
          InstallsExisting(items, defaults, defaults[b]);
        } else {
          InstallsCreated(items, defaults, defaults[b]);
        }
      }
    }
  }

  /** A stored sign with a field its default lacks keeps that field through
      the pass, under the same name, so it differs from the default again. */
  lemma {:induction false} ExtraKeysPersist(items: seq<Item>, defaults: seq<Entry>) returns (b: int)
    requires UniqueIds(items)
    requires DistinctNames(defaults)
    requires !NoExtraKeys(items, defaults)
    ensures 0 <= b < |defaults|
    ensures var after := ByName(OfKind(RunSpells(items, defaults).1, "spell"));
            defaults[b].name in after && !(after[defaults[b].name].system.Keys <= defaults[b].system.Keys)
    ensures !NoExtraKeys(RunSpells(items, defaults).1, defaults)
  {
    var m := ByName(OfKind(items, "spell"));
    b :| 0 <= b < |defaults| && defaults[b].name in m && !(m[defaults[b].name].system.Keys <= defaults[b].system.Keys);
    var key :| key in m[defaults[b].name].system.Keys && key !in defaults[b].system.Keys;
    InstallsExisting(items, defaults, defaults[b]);
    var after := ByName(OfKind(RunSpells(items, defaults).1, "spell"));
    assert key in after[defaults[b].name].system.Keys;
  }

  /** A second spell pass right after the first creates nothing, updates
      nothing and leaves the items as they are exactly when no stored sign
      has a field its default lacks. Otherwise the update is issued again,
      and, the field staying, on every later pass too (ExtraKeysPersist). */
  lemma {:induction false} RunSpellsSettles(items: seq<Item>, defaults: seq<Entry>)
    requires UniqueIds(items)
    requires DistinctNames(defaults)
    requires forall b | 0 <= b < |defaults| :: defaults[b].kind == "spell"
    ensures var out := RunSpells(items, defaults).1;
            RunSpells(out, defaults) == (SpellPlan([], []), out) <==> NoExtraKeys(items, defaults)
  {
    var out := RunSpells(items, defaults).1;
    if NoExtraKeys(items, defaults) {
      InstalledAfterPass(items, defaults);
      PlanOfInstalled(out, defaults);
      assert Create(out, []) == out;
    } else {
      var b := ExtraKeysPersist(items, defaults);
      var after := ByName(OfKind(out, "spell"));
      PlanSpellsOverwritesEveryDifference(after, defaults, defaults[b]);
    }
  }

  /** `ensureActorHasSpells(actor)`, with the same guard as the skill pass. */
  function EnsureActorHasSpells(actor: Option<Actor>): (s: Sync)
    ensures !Allowed(actor) ==> s == Sync(Counts(0, 0), actor)
    ensures Allowed(actor) ==>
              var (plan, items) := RunSpells(actor.value.items, DefaultSpells(WITCHER_SIGNS));
              && s.counts == Counts(|plan.creates|, |plan.overwrites|)
              && s.counts.created + s.counts.updated <= |WITCHER_SIGNS|
              && s.actor == Some(Actor(actor.value.kind, items))
  {
    if !Allowed(actor) then Sync(Counts(0, 0), actor)
    else
      var (plan, items) := RunSpells(actor.value.items, DefaultSpells(WITCHER_SIGNS));
      Sync(Counts(|plan.creates|, |plan.overwrites|), Some(actor.value.(items := items)))
  }

  /** The prepared signs are spells with pairwise different names. */
  lemma SignDefaultsDistinct()
    ensures DistinctNames(DefaultSpells(WITCHER_SIGNS))
    ensures forall b | 0 <= b < |DefaultSpells(WITCHER_SIGNS)| :: DefaultSpells(WITCHER_SIGNS)[b].kind == "spell"
  {
    SignsWellFormed();
  }

  /** Syncing the signs a second time changes nothing and reports zero
      counts exactly when no stored sign has a field the prepared sign lacks. */
  lemma SpellSyncSettles(actor: Option<Actor>)
    requires Allowed(actor) && UniqueIds(actor.value.items)
    ensures var once := EnsureActorHasSpells(actor);
            EnsureActorHasSpells(once.actor) == Sync(Counts(0, 0), once.actor) <==>
            NoExtraKeys(actor.value.items, DefaultSpells(WITCHER_SIGNS))
  {
    SignDefaultsDistinct();
    RunSpellsSettles(actor.value.items, DefaultSpells(WITCHER_SIGNS));
  }

  /** The name map of a single sign. */
  lemma SingleSignMap(it: Item)
    requires it.kind == "spell"
    ensures ByName(OfKind([it], "spell")) == map[it.name := it]
  {
    assert [it][..0] == [];
  }

  /** A lone stored sign with a field its default lacks is updated again by
      the second pass. */
  lemma ExtraFieldUpdatedAgain(id: Id, defaults: seq<Entry>, d: Entry, key: string, v: Value)
    requires DistinctNames(defaults)
    requires forall b | 0 <= b < |defaults| :: defaults[b].kind == "spell"
    requires d in defaults && key !in d.system
    ensures var out := RunSpells([Item(id, d.name, "spell", d.system[key := v])], defaults).1;
            RunSpells(out, defaults).0.overwrites != []
  {
    var it := Item(id, d.name, "spell", d.system[key := v]);
    SingleSignMap(it);
    var b :| 0 <= b < |defaults| && defaults[b] == d;
    assert !NoExtraKeys([it], defaults);
    var c := ExtraKeysPersist([it], defaults);
    var after := ByName(OfKind(RunSpells([it], defaults).1, "spell"));
    PlanSpellsOverwritesEveryDifference(after, defaults, defaults[c]);
  }

  /** An actor whose only item is a default sign plus a field that sign
      lacks is never settled: its second sign sync still reports an update. */
  lemma ExtraFieldNeverSettles(kind: string, id: Id, d: Entry, key: string, v: Value)
    requires kind in {"character", "npc"}
    requires d in DefaultSpells(WITCHER_SIGNS) && key !in d.system
    ensures var actor := Some(Actor(kind, [Item(id, d.name, "spell", d.system[key := v])]));
            var once := EnsureActorHasSpells(actor);
            EnsureActorHasSpells(once.actor).counts.updated > 0
  {
    SignDefaultsDistinct();
    ExtraFieldUpdatedAgain(id, DefaultSpells(WITCHER_SIGNS), d, key, v);
  }

  /** No prepared sign has a `rank` field. */
  lemma SignsHaveNoRank()
    ensures forall b | 0 <= b < |DefaultSpells(WITCHER_SIGNS)| :: "rank" !in DefaultSpells(WITCHER_SIGNS)[b].system
  {
    SignsWellFormed();
  }

  /** A sign still carrying `rank: null`, which a rank-purging update of the
      stored item leaves in place, keeps its actor from ever settling. */
  lemma RankNullNeverSettles(id: Id)
    ensures var d := DefaultSpells(WITCHER_SIGNS)[0];
            var actor := Some(Actor("character", [Item(id, d.name, "spell", d.system["rank" := Null])]));
            var once := EnsureActorHasSpells(actor);
            EnsureActorHasSpells(once.actor).counts.updated > 0
  {
    SignsHaveNoRank();
    ExtraFieldNeverSettles("character", id, DefaultSpells(WITCHER_SIGNS)[0], "rank", Null);
  }

  // ---------------------------------------------------------------------------
  // ensureActorHasCoreItems
  // ---------------------------------------------------------------------------

  /** The skill pass, then the spell pass on the actor it leaves; the counts
      are the sums of the two passes' counts. */
  function EnsureActorHasCoreItems(actor: Option<Actor>): (s: Sync)
    ensures !Allowed(actor) ==> s == Sync(Counts(0, 0), actor)
    ensures Allowed(actor) ==>
              var skills := EnsureActorHasSkills(actor);
              var spells := EnsureActorHasSpells(skills.actor);
              && s.counts == Counts(skills.counts.created + spells.counts.created, skills.counts.updated + spells.counts.updated)
              && s.actor == spells.actor
              && s.actor.Some? && s.actor.value.kind == actor.value.kind
    ensures s.counts.created + s.counts.updated <= |CP2020_SKILLS| + |WITCHER_SIGNS|
  {
    if !Allowed(actor) then Sync(Counts(0, 0), actor)
    else
      var skills := EnsureActorHasSkills(actor);
      assert Allowed(skills.actor);
      var spells := EnsureActorHasSpells(skills.actor);
      Sync(Counts(skills.counts.created + spells.counts.created, skills.counts.updated + spells.counts.updated), spells.actor)
  }
}

=== FILE: defaults.dfy ===
/** The stat-defaults normaliser (module/data/defaults.js).

`applyStatDefaults(stats, defaults)` turns a stats object into one whose every
property is a record `{ value }`. The values the model follows are integers,
NaN and undefined; the output maps each key to the number inside its record.
 */
module StatDefaults {
  import JsValue

  /** A number as the stat code sees it, or `undefined`. */
  datatype StatValue = Int(n: int) | NaN | Undefined

  /** One property of the `stats` argument: a primitive, `null`, or an object
      whose `value` property is read. */
  datatype StatInput = Plain(v: StatValue) | Null | Record(value: StatValue)

  /** The ten stats, each defaulting to 5: module/data/defaults.js:2-5. */
  const STAT_DEFAULT_VALUES: map<string, StatValue> := map[
    "INT" := Int(5), "REF" := Int(5), "TECH" := Int(5), "COOL" := Int(5), "ATTR" := Int(5),
    "LUCK" := Int(5), "MA" := Int(5), "BODY" := Int(5), "EMP" := Int(5), "EDU" := Int(5)]

  /** `Number(v)` */
  function ToNumber(v: StatValue): (r: StatValue)
    ensures r != Undefined
  {
    match v
    case Int(n) => Int(n)
    case NaN => NaN
    case Undefined => NaN
  }

  /** Truthiness of a number: neither 0 nor NaN (nor undefined). */
  predicate NumTruthy(v: StatValue)
  {
    v.Int? && v.n != 0
  }

  /** `a || b` */
  function Or(a: StatValue, b: StatValue): StatValue
  {
    if NumTruthy(a) then a else b
  }

  /** `a ?? b` */
  function Coalesce(a: StatValue, b: StatValue): StatValue
  {
    if a == Undefined then b else a
  }

  /** `defaults[k]` read as an own property: undefined for a key the defaults
      do not have. The bracket read of the source also finds inherited
      `Object.prototype` members; `DefaultReadAsWritten` models that. */
  function DefaultAt(defaults: map<string, StatValue>, k: string): StatValue
  {
    if k in defaults then defaults[k] else Undefined
  }

  /** The keys whose input is an object (`v && typeof v === 'object'`). */
  function RecordKeys(stats: map<string, StatInput>): set<string>
  {
    set k | k in stats && stats[k].Record?
  }

  /** A property of `out` between the two loops: a number copied from the
      defaults, or a fresh record built by the first loop. */
  datatype Slot = Copied(v: StatValue) | Boxed(value: StatValue)

  /** The first loop: the defaults copied, then every object input replaced by
      `{ value: Number(v.value) ?? defaults[k] }`. */
  function FirstPass(stats: map<string, StatInput>, defaults: map<string, StatValue>): (out: map<string, Slot>)
    ensures out.Keys == defaults.Keys + RecordKeys(stats)
  {
    map k | k in defaults.Keys + RecordKeys(stats) ::
      if k in stats && stats[k].Record? then Boxed(Coalesce(ToNumber(stats[k].value), DefaultAt(defaults, k)))
      else Copied(defaults[k])
  }

  /** The second loop, on one property: `Number(x) || defaults[k]`, where `x`
      is the copied number or the record's value. */
  function Settle(slot: Slot, d: StatValue): StatValue
  {
    match slot
    case Copied(v) => Or(ToNumber(v), d)
    case Boxed(v) => Or(ToNumber(v), d)
  }

  /** `applyStatDefaults(stats, defaults)`: `out[k]` is the number in the
      record the source returns under `k`. */
  function ApplyStatDefaults(stats: map<string, StatInput>, defaults: map<string, StatValue>): (out: map<string, StatValue>)
    ensures out.Keys == defaults.Keys + RecordKeys(stats)
    ensures forall k | k in stats && stats[k].Record? ::
              out[k] == if NumTruthy(stats[k].value) then stats[k].value else DefaultAt(defaults, k)
    ensures forall k | k in defaults && (k !in stats || !stats[k].Record?) ::
              out[k] == defaults[k]
  {
    var first := FirstPass(stats, defaults);
    map k | k in first :: Settle(first[k], DefaultAt(defaults, k))
  }

  /** `Number(...)` never yields null or undefined, so the `?? defaults[k]` of
      the first loop never fires. */
  lemma CoalesceIsDead(v: StatValue, d: StatValue)
    ensures Coalesce(ToNumber(v), d) == ToNumber(v)
  {
  }

  /** Non-object inputs (numbers, NaN, undefined, null) play no part: the
      result is the one for the object inputs alone. */
  lemma PlainInputsIgnored(stats: map<string, StatInput>, defaults: map<string, StatValue>)
    ensures ApplyStatDefaults(stats, defaults) ==
            ApplyStatDefaults(map k | k in stats && stats[k].Record? :: stats[k], defaults)
  {
    var records := map k | k in stats && stats[k].Record? :: stats[k];
    assert RecordKeys(records) == RecordKeys(stats);
  }

  /** Every output value is a non-zero integer or the default of its key;
      for a key without a default that fallback is undefined. */
  lemma OutputIsNonZeroOrDefault(stats: map<string, StatInput>, defaults: map<string, StatValue>)
    ensures var out := ApplyStatDefaults(stats, defaults);
            forall k | k in out :: NumTruthy(out[k]) || out[k] == DefaultAt(defaults, k)
  {
  }

  /** Feeding the result back, each value boxed as `{ value }`, gives the same
      result: the normaliser is idempotent on its own output. */
  lemma ApplyStatDefaultsIdempotent(stats: map<string, StatInput>, defaults: map<string, StatValue>)
    ensures var out := ApplyStatDefaults(stats, defaults);
            ApplyStatDefaults(map k | k in out :: Record(out[k]), defaults) == out
  {
    var out := ApplyStatDefaults(stats, defaults);
    var boxed := map k | k in out :: Record(out[k]);
    var again := ApplyStatDefaults(boxed, defaults);
    assert RecordKeys(boxed) == out.Keys;
    forall k | k in out
      ensures again[k] == out[k]
    {
      assert boxed[k].Record?;
    }
  }

  /** The built-in defaults name the ten stats, each with the value 5. */
  lemma DefaultValuesAllFive()
    ensures STAT_DEFAULT_VALUES.Keys == {"INT", "REF", "TECH", "COOL", "ATTR", "LUCK", "MA", "BODY", "EMP", "EDU"}
    ensures forall k | k in STAT_DEFAULT_VALUES :: STAT_DEFAULT_VALUES[k] == Int(5)
  {
  }

  /** With the built-in defaults and no input, the result is the defaults. */
  lemma EmptyStatsGiveDefaults()
    ensures ApplyStatDefaults(map[], STAT_DEFAULT_VALUES) == STAT_DEFAULT_VALUES
  {
    DefaultValuesAllFive();
  }

  /** One output value of the source as written: a number (or undefined), as
      `ApplyStatDefaults` computes it, or a member inherited from
      `Object.prototype` (a function, or the prototype object itself). */
  datatype WrittenValue = Num(v: StatValue) | Inherited

  /** `defaults[k]` exactly as module/data/defaults.js:15-16 evaluates it: the
      bracket read on a plain object falls through to `Object.prototype`. */
  function DefaultReadAsWritten(defaults: map<string, StatValue>, k: string): (r: WrittenValue)
    ensures r.Inherited? <==> k !in defaults && k in JsValue.OBJECT_PROTOTYPE_NAMES
    ensures r.Num? ==> r.v == DefaultAt(defaults, k)
  {
    if k in defaults then Num(defaults[k])
    else if k in JsValue.OBJECT_PROTOTYPE_NAMES then Inherited
    else Num(Undefined)
  }

  /** An object input under `"__proto__"` that `out` has no own property for:
      the assignment `out[k] = { ... }` at module/data/defaults.js:10 goes to
      the `__proto__` setter, which replaces `out`'s prototype and adds no key. */
  predicate SetsPrototype(stats: map<string, StatInput>, defaults: map<string, StatValue>)
  {
    "__proto__" in RecordKeys(stats) && "__proto__" !in defaults
  }

  /** The second loop as written, on one property: `Number(x) || defaults[k]`
      with the inherited read. */
  function SettleAsWritten(slot: Slot, d: WrittenValue): WrittenValue
  {
    var n := match slot case Copied(v) => ToNumber(v) case Boxed(v) => ToNumber(v);
    if NumTruthy(n) then Num(n) else d
  }

  /** `applyStatDefaults(stats, defaults)` as written, inherited reads and the
      `__proto__` setter included. Its keys are those of `ApplyStatDefaults`,
      less `"__proto__"` when the setter takes the assignment; its values are
      related by `AsWrittenValueAt`. */
  function ApplyStatDefaultsAsWritten(stats: map<string, StatInput>, defaults: map<string, StatValue>): (out: map<string, WrittenValue>)
    ensures var own := ApplyStatDefaults(stats, defaults);
            out.Keys == if SetsPrototype(stats, defaults) then own.Keys - {"__proto__"} else own.Keys
  {
    var first := FirstPass(stats, defaults);
    map k | k in first && !(k == "__proto__" && SetsPrototype(stats, defaults)) ::
      SettleAsWritten(first[k], DefaultReadAsWritten(defaults, k))
  }

  /** The source as written and the own-key reading agree on every key except
      a prototype name the defaults lack, where the source draws the inherited
      member exactly when the own-key reading gives undefined. */
  lemma AsWrittenValueAt(stats: map<string, StatInput>, defaults: map<string, StatValue>, k: string)
    requires k in ApplyStatDefaultsAsWritten(stats, defaults)
    ensures k in ApplyStatDefaults(stats, defaults)
    ensures var own := ApplyStatDefaults(stats, defaults)[k];
            ApplyStatDefaultsAsWritten(stats, defaults)[k] ==
              if own == Undefined && k !in defaults && k in JsValue.OBJECT_PROTOTYPE_NAMES then Inherited else Num(own)
  {
  }

  /** A stat called "constructor" holding 0: the source falls back to the
      inherited `Object` function, where the own-key reading gives undefined. */
  lemma InheritedDefaultLeaksIn()
    ensures var stats := map["constructor" := Record(Int(0))];
            ApplyStatDefaultsAsWritten(stats, STAT_DEFAULT_VALUES)["constructor"] == Inherited &&
            ApplyStatDefaults(stats, STAT_DEFAULT_VALUES)["constructor"] == Undefined
  {
  }

  /** A stat called "__proto__" (as `JSON.parse` can produce) vanishes from the
      source's result, where the own-key reading keeps it. */
  lemma ProtoKeyDropped()
    ensures var stats := map["__proto__" := Record(Int(7))];
            "__proto__" !in ApplyStatDefaultsAsWritten(stats, STAT_DEFAULT_VALUES) &&
            ApplyStatDefaults(stats, STAT_DEFAULT_VALUES)["__proto__"] == Int(7)
  {
  }

  /** When no stat is named like an `Object.prototype` member, the source as
      written and the own-key reading give the same result, whatever the
      defaults. */
  lemma AsWrittenAgreesOffPrototype(stats: map<string, StatInput>, defaults: map<string, StatValue>)
    requires forall k | k in stats :: k !in JsValue.OBJECT_PROTOTYPE_NAMES
    ensures var own := ApplyStatDefaults(stats, defaults);
            ApplyStatDefaultsAsWritten(stats, defaults) == map k | k in own :: Num(own[k])
  {
    var own := ApplyStatDefaults(stats, defaults);
    var written := ApplyStatDefaultsAsWritten(stats, defaults);
    assert !SetsPrototype(stats, defaults) by {
      assert "__proto__" in JsValue.OBJECT_PROTOTYPE_NAMES;
    }
    forall k | k in own
      ensures written[k] == Num(own[k])
    {
      AsWrittenValueAt(stats, defaults, k);
    }
  }
}

=== FILE: documents.dfy ===
/** The host documents the seeding code reads and edits, taken as values.

An item embedded in an actor or stored in the world has an id, a name, a
`type` and a `system` object. Catalog entries are the same data without an
id. Every host edit the seeding code awaits (rename, delete, create, update)
is modelled as a pure edit of an item sequence.
 */
module Documents {
  import opened JsValue

  datatype Option<T> = None | Some(value: T)

  /** Document ids are assigned by the host; naturals stand in for its strings. */
  type Id = nat

  /** `kind` is the document's `type` (a reserved word in Dafny). */
  datatype Item = Item(id: Id, name: string, kind: string, system: Object)

  /** A catalog entry `{ name, type, system }`, or the data of an item to create. */
  datatype Entry = Entry(name: string, kind: string, system: Object)

  /** The entry as the plain object the source passes around. */
  function AsObject(e: Entry): Object
  {
    map["name" := Str(e.name), "type" := Str(e.kind), "system" := Obj(e.system)]
  }

  /** The host keeps the ids of one collection pairwise different. */
  predicate UniqueIds(items: seq<Item>)
  {
    forall i, j | 0 <= i < j < |items| :: items[i].id != items[j].id
  }

  predicate HasId(items: seq<Item>, id: Id)
  {
    exists i | 0 <= i < |items| :: items[i].id == id
  }

  /** The items of one `type`, in collection order: `items.filter(it => it.type === kind)`. */
  function OfKind(items: seq<Item>, kind: string): (r: seq<Item>)
    ensures |r| <= |items|
    ensures forall it :: it in r <==> it in items && it.kind == kind
  {
    if items == [] then []
    else if items[|items| - 1].kind == kind then OfKind(items[..|items| - 1], kind) + [items[|items| - 1]]
    else OfKind(items[..|items| - 1], kind)
  }

  /** `new Map(items.map(it => [it.name, it]))`: a later item replaces an earlier
      one with the same name. */
  function ByName(items: seq<Item>): (m: map<string, Item>)
    ensures m.Keys == set it | it in items :: it.name
    ensures forall n | n in m :: m[n] in items && m[n].name == n
  {
    if items == [] then map[]
    else
      var last := items[|items| - 1];
      ByName(items[..|items| - 1])[last.name := last]
  }

  /** The item the name map holds is the last one carrying that name. */
  lemma {:induction false} ByNameIsLast(items: seq<Item>, n: string, i: nat)
    requires i < |items| && items[i].name == n
    requires forall j | i < j < |items| :: items[j].name != n
    ensures n in ByName(items) && ByName(items)[n] == items[i]
  {
    if i < |items| - 1 {
      ByNameIsLast(items[..|items| - 1], n, i);
    }
  }

  /** `await it.update({ name })` on the item with this id. */
  function RenameById(items: seq<Item>, id: Id, name: string): (r: seq<Item>)
    ensures |r| == |items|
    ensures forall i | 0 <= i < |items| ::
              r[i] == if items[i].id == id then items[i].(name := name) else items[i]
  {
    seq(|items|, i requires 0 <= i < |items| =>
      if items[i].id == id then items[i].(name := name) else items[i])
  }

  /** `deleteEmbeddedDocuments("Item", ids)`: drops every item whose id is listed. */
  function DeleteIds(items: seq<Item>, ids: seq<Id>): (r: seq<Item>)
    ensures forall it :: it in r <==> it in items && it.id !in ids
    ensures |r| <= |items|
  {
    if items == [] then []
    else
      var rest := DeleteIds(items[..|items| - 1], ids);
      var last := items[|items| - 1];
      if last.id in ids then rest else rest + [last]
  }

  /** A fresh id: larger than every id in use. */
  function NextId(items: seq<Item>): (n: Id)
    ensures forall i | 0 <= i < |items| :: items[i].id < n
  {
    if items == [] then 0
    else
      var n := NextId(items[..|items| - 1]);
      var last := items[|items| - 1].id;
      if last < n then n else last + 1
  }

  /** `createEmbeddedDocuments("Item", entries)`: the new items are appended
      with fresh ids, in the order given. */
  function Create(items: seq<Item>, entries: seq<Entry>): (r: seq<Item>)
    ensures |r| == |items| + |entries|
    ensures r[..|items|] == items
    ensures forall k | 0 <= k < |items| :: r[k] == items[k]
    ensures forall k | 0 <= k < |entries| ::
              r[|items| + k] == Item(NextId(items) + k, entries[k].name, entries[k].kind, entries[k].system)
  {
    var base := NextId(items);
    var added := seq(|entries|, k requires 0 <= k < |entries| =>
      Item(base + k, entries[k].name, entries[k].kind, entries[k].system));
    assert forall k | 0 <= k < |items| :: (items + added)[k] == items[k];
    items + added
  }

  /** Creating documents keeps the ids of the collection pairwise different. */
  lemma {:induction false} CreateKeepsIdsUnique(items: seq<Item>, entries: seq<Entry>)
    requires UniqueIds(items)
    ensures UniqueIds(Create(items, entries))
  {
    var r := Create(items, entries);
    forall i, j | 0 <= i < j < |r|
      ensures r[i].id != r[j].id
    {
      if j >= |items| && i < |items| {
        assert r[i] == items[i];
      }
    }
  }

  /** `updateEmbeddedDocuments("Item", [{ _id, system: ... }])` for one entry:
      `merge` decides the new system from the old one. */
  function UpdateSystemById(items: seq<Item>, id: Id, sys: Object, replace: bool): (r: seq<Item>)
    ensures |r| == |items|
    ensures forall i | 0 <= i < |items| ::
              r[i] == if items[i].id != id then items[i]
                      else items[i].(system := if replace then sys else items[i].system + sys)
  {
    seq(|items|, i requires 0 <= i < |items| =>
      if items[i].id != id then items[i]
      else items[i].(system := if replace then sys else items[i].system + sys))
  }

  /** The item `ByName(OfKind(items, kind))` holds under `n` is the last item of
      that kind and name. */
  predicate LastNamed(items: seq<Item>, kind: string, n: string, i: int)
  {
    && 0 <= i < |items| && items[i].kind == kind && items[i].name == n
    && forall j | i < j < |items| :: !(items[j].kind == kind && items[j].name == n)
  }

  lemma {:induction false} ByNameOfKindIsLast(items: seq<Item>, kind: string, n: string, i: int)
    requires LastNamed(items, kind, n, i)
    ensures n in ByName(OfKind(items, kind)) && ByName(OfKind(items, kind))[n] == items[i]
  {
    var init := items[..|items| - 1];
    var last := items[|items| - 1];
    if i < |items| - 1 {
      assert LastNamed(init, kind, n, i);
      ByNameOfKindIsLast(init, kind, n, i);
    }
  }

  /** A name the map lacks is carried by no item of that kind. */
  lemma {:induction false} ByNameOfKindAbsent(items: seq<Item>, kind: string, n: string)
    requires n !in ByName(OfKind(items, kind))
    ensures forall i | 0 <= i < |items| :: !(items[i].kind == kind && items[i].name == n)
  {
    forall i | 0 <= i < |items| && items[i].kind == kind
      ensures items[i].name != n
    {
      assert items[i] in OfKind(items, kind);
    }
  }

  /** The position of the last item of that kind and name, or -1. */
  function LastIndexOf(items: seq<Item>, kind: string, n: string): (r: int)
    ensures r == -1 || LastNamed(items, kind, n, r)
    ensures r == -1 ==> forall j | 0 <= j < |items| :: !(items[j].kind == kind && items[j].name == n)
  {
    if items == [] then -1
    else if items[|items| - 1].kind == kind && items[|items| - 1].name == n then |items| - 1
    else
      var r := LastIndexOf(items[..|items| - 1], kind, n);
      assert forall j | 0 <= j < |items| - 1 :: items[..|items| - 1][j] == items[j];
      r
  }

  /** Every name the map holds comes from the last item of that kind and name. */
  lemma {:induction false} ByNameOfKindWitness(items: seq<Item>, kind: string, n: string)
    requires n in ByName(OfKind(items, kind))
    ensures exists i :: LastNamed(items, kind, n, i) && ByName(OfKind(items, kind))[n] == items[i]
  {
    var it := ByName(OfKind(items, kind))[n];
    assert it in items && it.kind == kind && it.name == n;
    var i := LastIndexOf(items, kind, n);
    ByNameOfKindIsLast(items, kind, n, i);
  }
}

=== FILE: js_value.dfy ===
/** JavaScript values as the seeding code sees them.

A plain JavaScript object is a finite map from property names to values; a
property that is absent reads as `undefined`, exactly as `obj.key` does.
Numbers are integers or NaN (the content never holds fractions), and arrays
are not needed by the code being modelled.
 */
module JsValue {

  datatype Value =
    | Undefined
    | Null
    | Bool(b: bool)
    | Num(n: int)
    | NaN
    | Str(s: string)
    | Obj(fields: map<string, Value>)

  /** A plain object: its own enumerable properties. */
  type Object = map<string, Value>

  /** Own-property read `o[k]`: `undefined` when `o` has no such property.
      Inherited members are not read here. */
  function Get(o: Object, k: string): Value
  {
    if k in o then o[k] else Undefined
  }

  /** The property names every plain object inherits from
      `Object.prototype`. */
  const OBJECT_PROTOTYPE_NAMES: set<string> := {
    "constructor", "hasOwnProperty", "isPrototypeOf", "propertyIsEnumerable",
    "toLocaleString", "toString", "valueOf", "__proto__",
    "__defineGetter__", "__defineSetter__", "__lookupGetter__", "__lookupSetter__"
  }

  /** `v == null`: true for both `undefined` and `null`. */
  predicate Nullish(v: Value)
  {
    v.Undefined? || v.Null?
  }

  /** JavaScript truthiness: `undefined`, `null`, `false`, `0`, `NaN` and `""` are falsy. */
  predicate Truthy(v: Value)
  {
    match v
    case Undefined => false
    case Null => false
    case Bool(b) => b
    case Num(n) => n != 0
    case NaN => false
    case Str(s) => s != ""
    case Obj(_) => true
  }

  /** `v ?? fallback` */
  function Coalesce(v: Value, fallback: Value): Value
  {
    if Nullish(v) then fallback else v
  }

  function DigitChar(d: int): char
    requires 0 <= d < 10
  {
    "0123456789"[d]
  }

  /** Decimal digits of a natural number, most significant first. */
  function NatToDecimal(n: nat): (r: string)
    ensures |r| > 0
    ensures forall i | 0 <= i < |r| :: '0' <= r[i] <= '9'
    decreases n
  {
    if n < 10 then [DigitChar(n)] else NatToDecimal(n / 10) + [DigitChar(n % 10)]
  }

  /** `String(v)` for the values modelled here. */
  function ToStr(v: Value): string
  {
    match v
    case Undefined => "undefined"
    case Null => "null"
    case Bool(b) => if b then "true" else "false"
    case Num(n) => if n < 0 then "-" + NatToDecimal(-n) else NatToDecimal(n)
    case NaN => "NaN"
    case Str(s) => s
    case Obj(_) => "[object Object]"
  }

  /** A truthy value prints as a non-empty string, so upper-casing it keeps it truthy. */
  lemma TruthyToStrNonEmpty(v: Value)
    requires Truthy(v)
    ensures ToStr(v) != ""
  {
  }

  predicate IsLowerAscii(c: char)
  {
    'a' <= c <= 'z'
  }

  /** `toUpperCase` on one character, restricted to ASCII letters. */
  function UpperChar(c: char): char
  {
    if IsLowerAscii(c) then (c as int - 32) as char else c
  }

  /** `String.prototype.toUpperCase`, restricted to ASCII letters. */
  function Upper(s: string): string
  {
    if s == [] then [] else [UpperChar(s[0])] + Upper(s[1..])
  }

  predicate NoLowerAscii(s: string)
  {
    forall i | 0 <= i < |s| :: !IsLowerAscii(s[i])
  }

  /** Upper-casing maps each character on its own and keeps the length. */
  lemma {:induction false} UpperPointwise(s: string)
    ensures |Upper(s)| == |s|
    ensures forall i | 0 <= i < |s| :: Upper(s)[i] == UpperChar(s[i])
  {
    if s != [] {
      UpperPointwise(s[1..]);
    }
  }

  /** The result of upper-casing holds no lower-case letter, and a string without
      lower-case letters is its own upper case: together, upper-casing is idempotent. */
  lemma UpperNoLower(s: string)
    ensures NoLowerAscii(Upper(s))
  {
    UpperPointwise(s);
  }

  lemma UpperFixesNoLower(s: string)
    requires NoLowerAscii(s)
    ensures Upper(s) == s
  {
    UpperPointwise(s);
  }

  lemma UpperIdempotent(s: string)
    ensures Upper(Upper(s)) == Upper(s)
  {
    UpperNoLower(s);
    UpperFixesNoLower(Upper(s));
  }
}

=== FILE: legacy.dfy ===
/** The migration tables of the seeding code (module/seed.js:5-15) and the
Mecha Gunnery collapse that both the actor sync and the world seed perform.

Old versions of the content used other names for a few skills. The seeding
code renames those skills, folds the old spellings of Mecha Gunnery into the
canonical hard skill, and purges the retired "Stat Boost" skill.
 */
module Legacy {
  import opened JsValue
  import opened Documents
  import opened Skills

  const HARD_MECHA_GUNNERY: string := "Mecha Gunnery (H)"

  /** The old spellings folded into `HARD_MECHA_GUNNERY`, in the order they are tried. */
  const LEGACY_MECHA_GUNNERY_NAMES: seq<string> := ["Mecha Gunnery", "Mecha Gunnery [H]"]

  /** Old name to new name, in the insertion order of the object literal, which
      is the order `Object.entries` yields them. */
  const LEGACY_SKILL_RENAMES: seq<(string, string)> := [
    ("Resist Magic", "Resist Magic (2)"),
    ("Spellcasting", "Spellcasting (2)"),
    ("Military Intelligence", "Expert: Military Intelligence")
  ]

  const DEPRECATED_SKILL_NAMES: seq<string> := ["Stat Boost"]

  // ---------------------------------------------------------------------------
  // Looking up a rename
  // ---------------------------------------------------------------------------

  /** The value paired with `key` in an association list, the first pair winning. */
  function Lookup(pairs: seq<(string, string)>, key: string): (r: Option<string>)
    ensures r.Some? <==> exists i | 0 <= i < |pairs| :: pairs[i].0 == key
    ensures r.Some? ==> (key, r.value) in pairs
  {
    if pairs == [] then None
    else if pairs[0].0 == key then Some(pairs[0].1)
    else
      var r := Lookup(pairs[1..], key);
      assert forall i | 1 <= i < |pairs| :: pairs[i] == pairs[1..][i - 1];
      r
  }

  /** `LEGACY_SKILL_RENAMES[name]`, read as an own property of the table. */
  function RenameTarget(name: string): (t: Option<string>)
    ensures t.Some? <==> name in {"Resist Magic", "Spellcasting", "Military Intelligence"}
    ensures t.Some? ==> (name, t.value) in LEGACY_SKILL_RENAMES
  {
    Lookup(LEGACY_SKILL_RENAMES, name)
  }

  /** A renamed skill is never renamed again: no new name is an old name. */
  lemma TargetsAreFinal(name: string)
    requires RenameTarget(name).Some?
    ensures RenameTarget(RenameTarget(name).value).None?
    ensures RenameTarget(name).value != name
  {
  }

  /** `LEGACY_SKILL_RENAMES[it.name]` exactly as module/seed.js:76 evaluates it:
      a bracket read on an object literal also finds the inherited members,
      which are functions (or, for `__proto__`, the prototype object). Both
      are truthy objects; an empty object stands for them here. */
  function RenameLookupAsWritten(name: string): (v: Value)
    ensures v.Str? <==> RenameTarget(name).Some?
    ensures RenameTarget(name).Some? ==> v == Str(RenameTarget(name).value)
  {
    match RenameTarget(name)
    case Some(t) => Str(t)
    case None => if name in OBJECT_PROTOTYPE_NAMES then Obj(map[]) else Undefined
  }

  /** The guard `newName && newName !== it.name` of module/seed.js:77. */
  predicate RenameGuardAsWritten(name: string)
  {
    var v := RenameLookupAsWritten(name);
    Truthy(v) && v != Str(name)
  }

  /** The guard as written lets a skill called "constructor" through with a
      function for its new name, so an update is issued with that function
      as the name. The corrected lookup finds nothing for it. */
  lemma InheritedNameFiresRename()
    ensures RenameGuardAsWritten("constructor")
    ensures !RenameLookupAsWritten("constructor").Str?
    ensures RenameTarget("constructor").None?
  {
  }

  /** The corrected lookup (an own-property read): a rename fires for exactly
      the three old names, and each new name is a row of `CP2020_SKILLS`. */
  lemma RenameTargetOnlyLegacy(name: string)
    ensures RenameTarget(name).Some? <==> name in {"Resist Magic", "Spellcasting", "Military Intelligence"}
    ensures RenameTarget(name).Some? ==>
              exists i | 0 <= i < |CP2020_SKILLS| :: CP2020_SKILLS[i].name == RenameTarget(name).value
  {
    CatalogHoldsNewNames();
  }

  // ---------------------------------------------------------------------------
  // The Mecha Gunnery collapse (module/seed.js:91-112 and 204-221)
  // ---------------------------------------------------------------------------

  /** The name map after the collapse, the item renamed to the canonical name
      (at most one) and the items to delete, in the order they were met. */
  datatype Collapse = Collapse(byName: map<string, Item>, renamed: Option<Id>, deleted: seq<Id>)

  /** The loop over the old spellings. `canonical` says whether a canonical
      skill is known; the first old spelling met without one takes its place. */
  function CollapseLoop(m: map<string, Item>, canonical: bool, names: seq<string>): (c: Collapse)
    decreases |names|
  {
    if names == [] then Collapse(m, None, [])
    else
      var n := names[0];
      if n !in m then CollapseLoop(m, canonical, names[1..])
      else if canonical then
        var rest := CollapseLoop(m - {n}, canonical, names[1..]);
        rest.(deleted := [m[n].id] + rest.deleted)
      else
        var rest := CollapseLoop((m - {n})[HARD_MECHA_GUNNERY := m[n].(name := HARD_MECHA_GUNNERY)], true, names[1..]);
        rest.(renamed := Some(m[n].id))
  }

  /** Only the old spellings leave the map, and only the canonical name is added. */
  lemma {:induction false} CollapseLoopFrame(m: map<string, Item>, canonical: bool, names: seq<string>)
    requires HARD_MECHA_GUNNERY !in names
    ensures var c := CollapseLoop(m, canonical, names);
            && (forall n | n in names :: n !in c.byName)
            && (forall k | k !in names && k != HARD_MECHA_GUNNERY :: (k in c.byName <==> k in m))
            && (forall k | k in m && k !in names && k != HARD_MECHA_GUNNERY :: c.byName[k] == m[k])
            && (HARD_MECHA_GUNNERY in m ==> HARD_MECHA_GUNNERY in c.byName)
    decreases |names|
  {
    if names != [] {
      var n := names[0];
      assert forall x | x in names[1..] :: x in names;
      if n !in m {
        CollapseLoopFrame(m, canonical, names[1..]);
      } else if canonical {
        CollapseLoopFrame(m - {n}, canonical, names[1..]);
      } else {
        CollapseLoopFrame((m - {n})[HARD_MECHA_GUNNERY := m[n].(name := HARD_MECHA_GUNNERY)], true, names[1..]);
      }
    }
  }

  /** The collapse as the source starts it: a canonical skill is known exactly
      when the map holds `HARD_MECHA_GUNNERY`. After it no old spelling is left
      in the map and every other name keeps its item. If the canonical skill
      existed it stays and every old spelling found is deleted; otherwise the
      first old spelling found is renamed to the canonical name and the later
      one is deleted. */
  function CollapseMecha(m: map<string, Item>): (c: Collapse)
    ensures forall n | n in LEGACY_MECHA_GUNNERY_NAMES :: n !in c.byName
    ensures forall k | k !in LEGACY_MECHA_GUNNERY_NAMES && k != HARD_MECHA_GUNNERY ::
              (k in c.byName <==> k in m) && (k in m ==> c.byName[k] == m[k])
    ensures HARD_MECHA_GUNNERY in c.byName <==>
              HARD_MECHA_GUNNERY in m || "Mecha Gunnery" in m || "Mecha Gunnery [H]" in m
    ensures HARD_MECHA_GUNNERY in m ==>
              && c.byName[HARD_MECHA_GUNNERY] == m[HARD_MECHA_GUNNERY]
              && c.renamed == None
              && c.deleted == (if "Mecha Gunnery" in m then [m["Mecha Gunnery"].id] else []) +
                              (if "Mecha Gunnery [H]" in m then [m["Mecha Gunnery [H]"].id] else [])
    ensures HARD_MECHA_GUNNERY !in m && "Mecha Gunnery" in m ==>
              && c.byName[HARD_MECHA_GUNNERY] == m["Mecha Gunnery"].(name := HARD_MECHA_GUNNERY)
              && c.renamed == Some(m["Mecha Gunnery"].id)
              && c.deleted == (if "Mecha Gunnery [H]" in m then [m["Mecha Gunnery [H]"].id] else [])
    ensures HARD_MECHA_GUNNERY !in m && "Mecha Gunnery" !in m && "Mecha Gunnery [H]" in m ==>
              && c.byName[HARD_MECHA_GUNNERY] == m["Mecha Gunnery [H]"].(name := HARD_MECHA_GUNNERY)
              && c.renamed == Some(m["Mecha Gunnery [H]"].id)
              && c.deleted == []
    ensures HARD_MECHA_GUNNERY !in m && "Mecha Gunnery" !in m && "Mecha Gunnery [H]" !in m ==>
              c == Collapse(m, None, [])
  {
    var names := LEGACY_MECHA_GUNNERY_NAMES;
    var c := CollapseLoop(m, HARD_MECHA_GUNNERY in m, names);
    CollapseLoopFrame(m, HARD_MECHA_GUNNERY in m, names);
    assert names[1..] == ["Mecha Gunnery [H]"];
    assert names[1..][1..] == [];
    c
  }

  // ---------------------------------------------------------------------------
  // The migration tables against the catalog
  // ---------------------------------------------------------------------------

  /** Every new name and the canonical Mecha Gunnery name are rows of the catalog. */
  lemma CatalogHoldsNewNames()
    ensures |CP2020_SKILLS| == 93
    ensures CP2020_SKILLS[8].name == "Resist Magic (2)"
    ensures CP2020_SKILLS[9].name == "Spellcasting (2)"
    ensures CP2020_SKILLS[31].name == "Expert: Military Intelligence"
    ensures CP2020_SKILLS[43].name == HARD_MECHA_GUNNERY
  {
    CatalogSize();
    assert SkillRows[8] == AttrCoolRows[8];
    assert SkillRows[9] == AttrCoolRows[9];
    assert SkillRows[31] == IntRowsB[5];
    assert SkillRows[43] == RefCombatRows[8];
  }

  /** The names the migration retires: the old names, the old Mecha Gunnery
      spellings and the purged "Stat Boost". */
  predicate Retired(name: string)
  {
    || RenameTarget(name).Some?
    || name in LEGACY_MECHA_GUNNERY_NAMES
    || name in DEPRECATED_SKILL_NAMES
  }

  predicate GroupAvoidsRetired(rows: seq<SkillRow>)
  {
    forall i | 0 <= i < |rows| :: !Retired(rows[i].name)
  }

  lemma AttrCoolAvoidsRetired()
    ensures GroupAvoidsRetired(AttrCoolRows)
  {
  }

  lemma EmpAvoidsRetired()
    ensures GroupAvoidsRetired(EmpRows)
  {
  }

  lemma IntAAvoidsRetired()
    ensures GroupAvoidsRetired(IntRowsA)
  {
  }

  lemma IntBAvoidsRetired()
    ensures GroupAvoidsRetired(IntRowsB)
  {
  }

  lemma RefCombatAvoidsRetired()
    ensures GroupAvoidsRetired(RefCombatRows)
  {
  }

  lemma RefUtilityAvoidsRetired()
    ensures GroupAvoidsRetired(RefUtilityRows)
  {
  }

  lemma TechAAvoidsRetired()
    ensures GroupAvoidsRetired(TechRowsA)
  {
  }

  lemma TechBAvoidsRetired()
    ensures GroupAvoidsRetired(TechRowsB)
  {
  }

  lemma PsiAAvoidsRetired()
    ensures GroupAvoidsRetired(PsiRowsA)
  {
  }

  lemma PsiMindAvoidsRetired()
    ensures GroupAvoidsRetired(PsiMindRows)
  {
  }

  lemma PsiWillAvoidsRetired()
    ensures GroupAvoidsRetired(PsiWillRows)
  {
  }

  /** No row of the catalog carries a retired name, so the migration never
      renames, collapses or purges a skill the catalog provides. */
  lemma CatalogAvoidsRetired()
    ensures forall i | 0 <= i < |CP2020_SKILLS| :: !Retired(CP2020_SKILLS[i].name)
  {
    AttrCoolAvoidsRetired(); EmpAvoidsRetired(); IntAAvoidsRetired(); IntBAvoidsRetired(); RefCombatAvoidsRetired(); RefUtilityAvoidsRetired(); TechAAvoidsRetired(); TechBAvoidsRetired(); PsiAAvoidsRetired(); PsiMindAvoidsRetired(); PsiWillAvoidsRetired();
    CatalogWellFormed();
    forall i | 0 <= i < |SkillRows|
      ensures !Retired(SkillRows[i].name)
    {
      assert SkillRows[i] in SkillRows;
    }
  }
}

=== FILE: seed_normalise.dfy ===
/** The field normalisers of the seeding layer: they fill in missing fields of a
skill or spell `system` object, upper-case codes and derive the `hard` flag. */
module SeedNormalise {
  import opened JsValue

  // ---------------------------------------------------------------------------
  // The `/\(H\)|\[H\]/i` test
  // ---------------------------------------------------------------------------

  predicate IsH(c: char)
  {
    c == 'H' || c == 'h'
  }

  /** `(H)` or `[H]`, either case of H, starts at position `i` of `s`. */
  predicate MarkerAt(s: string, i: int)
    requires 0 <= i && i + 3 <= |s|
  {
    (s[i] == '(' && IsH(s[i + 1]) && s[i + 2] == ')') ||
    (s[i] == '[' && IsH(s[i + 1]) && s[i + 2] == ']')
  }

  /** The reference meaning of the pattern: some position holds a marker. */
  predicate ContainsHardMarker(s: string)
  {
    exists i | 0 <= i && i + 3 <= |s| :: MarkerAt(s, i)
  }

  /** The regular-expression test as a left-to-right scan. */
  predicate HasHardMarker(s: string)
  {
    if |s| < 3 then false
    else MarkerAt(s, 0) || HasHardMarker(s[1..])
  }

  lemma {:induction false} HasHardMarkerIff(s: string)
    ensures HasHardMarker(s) <==> ContainsHardMarker(s)
  {
    if |s| >= 3 {
      HasHardMarkerIff(s[1..]);
      if ContainsHardMarker(s) && !MarkerAt(s, 0) {
        var i :| 0 <= i && i + 3 <= |s| && MarkerAt(s, i);
        assert MarkerAt(s[1..], i - 1);
      }
      if ContainsHardMarker(s[1..]) {
        var i :| 0 <= i && i + 3 <= |s[1..]| && MarkerAt(s[1..], i);
        assert MarkerAt(s, i + 1);
      }
    }
  }

  /** A name ending in `(H)` is recognised as hard. */
  lemma EndsWithMarker(s: string)
    requires |s| >= 3 && s[|s| - 3] == '(' && s[|s| - 2] == 'H' && s[|s| - 1] == ')'
    ensures HasHardMarker(s)
  {
    assert MarkerAt(s, |s| - 3);
    HasHardMarkerIff(s);
  }

  /** A name in which no bracket is followed by an H is not recognised as hard. */
  lemma NoBracketH(s: string)
    requires forall i | 0 <= i < |s| - 1 :: (s[i] == '(' || s[i] == '[') ==> !IsH(s[i + 1])
    ensures !HasHardMarker(s)
  {
    HasHardMarkerIff(s);
  }

  // ---------------------------------------------------------------------------
  // prepareSkillSystem / prepareSpellSystem
  // ---------------------------------------------------------------------------

  /** The value of a field after `if (o[k] == null) o[k] = d`. */
  function Filled(v: Value, d: Value): Value
  {
    if Nullish(v) then d else v
  }

  /** Keys that the skill normaliser may write. */
  const SkillKeys: set<string> := {"stat", "category", "rank", "favorite", "ip", "hard"}

  /** Keys that the spell normaliser may write. */
  const SpellKeys: set<string> := {"school", "cost", "effect", "test", "favorite"}

  /** The text the hard-flag pattern is tested against: `source?.name || ""`. */
  function NameText(source: Object): string
  {
    var name := Get(source, "name");
    if Truthy(name) then ToStr(name) else ""
  }

  /** `String(v).toUpperCase()` for a truthy code, the value itself otherwise. */
  function UpperCode(v: Value): Value
  {
    if Truthy(v) then Str(Upper(ToStr(v))) else v
  }

  /** The property names the normalisers write are pairwise different. */
  lemma KeysDistinct()
    ensures "stat" != "category" && "stat" != "rank" && "stat" != "favorite" && "stat" != "ip" && "stat" != "hard"
    ensures "category" != "rank" && "category" != "favorite" && "category" != "ip" && "category" != "hard"
    ensures "rank" != "favorite" && "rank" != "ip" && "rank" != "hard"
    ensures "favorite" != "ip" && "favorite" != "hard" && "ip" != "hard"
    ensures "school" != "cost" && "school" != "effect" && "school" != "test" && "school" != "favorite"
    ensures "cost" != "effect" && "cost" != "test" && "cost" != "favorite"
    ensures "effect" != "test" && "effect" != "favorite" && "test" != "favorite"
  {
  }

  /** The value `prepareSkillSystem` leaves under key `k`. Each statement of the
      source writes a different key, so the result can be read key by key; the
      pattern for `hard` is tested against the name of the original `source`. */
  function SkillField(source: Object, k: string): Value
  {
    var v := Get(source, k);
    if k == "stat" then UpperCode(v)
    else if k == "category" then (if Truthy(v) then Str(ToStr(v)) else v)
    else if k == "rank" || k == "ip" then Filled(v, Num(0))
    else if k == "favorite" then Filled(v, Bool(false))
    else if k == "hard" then Filled(v, Bool(HasHardMarker(NameText(source))))
    else v
  }

  /** `prepareSkillSystem`: a copy of `source` with the skill fields normalised.
      Every field other than the six skill fields is copied unchanged. */
  function PrepareSkillSystem(source: Object): (sys: Object)
    ensures sys.Keys == source.Keys + {"rank", "favorite", "ip", "hard"}
    ensures Get(sys, "stat") == UpperCode(Get(source, "stat"))
    ensures Get(sys, "category") ==
              (if Truthy(Get(source, "category")) then Str(ToStr(Get(source, "category"))) else Get(source, "category"))
    ensures Get(sys, "rank") == Filled(Get(source, "rank"), Num(0))
    ensures Get(sys, "favorite") == Filled(Get(source, "favorite"), Bool(false))
    ensures Get(sys, "ip") == Filled(Get(source, "ip"), Num(0))
    ensures Get(sys, "hard") == Filled(Get(source, "hard"), Bool(HasHardMarker(NameText(source))))
    ensures forall k | k !in SkillKeys :: Get(sys, k) == Get(source, k)
  {
    KeysDistinct();
    map k | k in source.Keys + {"rank", "favorite", "ip", "hard"} :: SkillField(source, k)
  }

  /** The value `prepareSpellSystem` leaves under key `k`. */
  function SpellField(source: Object, k: string): Value
  {
    var v := Get(source, k);
    if k == "school" then Filled(v, Str("Sign"))
    else if k == "cost" then Filled(v, Num(0))
    else if k == "effect" then Filled(v, Str(""))
    else if k == "test" then (if Truthy(v) then UpperCode(v) else Str("INT"))
    else if k == "favorite" then Filled(v, Bool(false))
    else v
  }

  /** `prepareSpellSystem`: a copy of `source` with the spell fields normalised. */
  function PrepareSpellSystem(source: Object): (sys: Object)
    ensures sys.Keys == source.Keys + {"school", "cost", "effect", "test", "favorite"}
    ensures Get(sys, "school") == Filled(Get(source, "school"), Str("Sign"))
    ensures Get(sys, "cost") == Filled(Get(source, "cost"), Num(0))
    ensures Get(sys, "effect") == Filled(Get(source, "effect"), Str(""))
    ensures Get(sys, "test") == (if Truthy(Get(source, "test")) then UpperCode(Get(source, "test")) else Str("INT"))
    ensures Get(sys, "favorite") == Filled(Get(source, "favorite"), Bool(false))
    ensures forall k | k !in SpellKeys :: Get(sys, k) == Get(source, k)
  {
    KeysDistinct();
    map k | k in source.Keys + {"school", "cost", "effect", "test", "favorite"} :: SpellField(source, k)
  }

  /** An upper-cased truthy code is a non-empty upper-case string. */
  lemma UpperCodeSettled(v: Value)
    requires Truthy(v)
    ensures Truthy(UpperCode(v)) && UpperCode(UpperCode(v)) == UpperCode(v)
  {
    TruthyToStrNonEmpty(v);
    UpperPointwise(ToStr(v));
    UpperIdempotent(ToStr(v));
  }

  /** A normalised spell already has every spell field in normal form. */
  lemma PrepareSpellFieldsSettled(source: Object)
    ensures var once := PrepareSpellSystem(source);
            forall k | k in SpellKeys :: Get(PrepareSpellSystem(once), k) == Get(once, k)
  {
    var once := PrepareSpellSystem(source);
    if Truthy(Get(source, "test")) {
      UpperCodeSettled(Get(source, "test"));
    }
    assert Get(PrepareSpellSystem(once), "test") == Get(once, "test");
  }

  /** Normalising a spell twice gives the same object as normalising it once. */
  lemma PrepareSpellSystemIdempotent(source: Object)
    ensures PrepareSpellSystem(PrepareSpellSystem(source)) == PrepareSpellSystem(source)
  {
    var once := PrepareSpellSystem(source);
    var twice := PrepareSpellSystem(once);
    PrepareSpellFieldsSettled(source);
    assert twice.Keys == once.Keys;
    forall k | k in once
      ensures twice[k] == once[k]
    {
      assert Get(twice, k) == Get(once, k);
    }
  }

  /** A normalised skill already has every skill field in normal form. */
  lemma PrepareSkillFieldsSettled(source: Object)
    ensures var once := PrepareSkillSystem(source);
            forall k | k in SkillKeys :: Get(PrepareSkillSystem(once), k) == Get(once, k)
  {
    var once := PrepareSkillSystem(source);
    var twice := PrepareSkillSystem(once);
    if Truthy(Get(source, "stat")) {
      UpperCodeSettled(Get(source, "stat"));
    }
    assert Get(twice, "stat") == Get(once, "stat");
    assert Get(twice, "hard") == Get(once, "hard");
  }

  /** Normalising a skill twice gives the same object as normalising it once. */
  lemma PrepareSkillSystemIdempotent(source: Object)
    ensures PrepareSkillSystem(PrepareSkillSystem(source)) == PrepareSkillSystem(source)
  {
    var once := PrepareSkillSystem(source);
    var twice := PrepareSkillSystem(once);
    PrepareSkillFieldsSettled(source);
    assert twice.Keys == once.Keys;
    forall k | k in once
      ensures twice[k] == once[k]
    {
      assert Get(twice, k) == Get(once, k);
    }
  }

  // ---------------------------------------------------------------------------
  // normaliseSeedData
  // ---------------------------------------------------------------------------

  /** Why a normalisation throws: assigning a property of a primitive is a
      `TypeError` in a strict-mode module. */
  datatype Error = TypeError

  datatype Result<T> = Success(value: T) | Failure(error: Error)

  /** The `system` the entry brings: `system ?? data ?? {}`. */
  function BaseSystem(entry: Object): Value
  {
    Coalesce(Get(entry, "system"), Coalesce(Get(entry, "data"), Obj(map[])))
  }

  /** `normaliseSeedData(entry, folderId)`: the entry without its `data` and
      `system` properties, with `folder` set and a prepared `system`. */
  function NormaliseSeedData(entry: Object, folderId: string): (r: Result<Object>)
    ensures r.Failure? <==>
              (Get(entry, "type") in {Str("skill"), Str("spell")} && !BaseSystem(entry).Obj?)
    ensures r.Success? ==>
              && r.value.Keys == entry.Keys - {"data"} + {"folder", "system"}
              && r.value["folder"] == Str(folderId)
              && (forall k | k in entry && k !in {"data", "system", "folder"} :: r.value[k] == entry[k])
              && r.value["system"] ==
                   match Get(entry, "type")
                   case Str("skill") => Obj(PrepareSkillSystem(BaseSystem(entry).fields))
                   case Str("spell") => Obj(PrepareSpellSystem(BaseSystem(entry).fields))
                   case _ => BaseSystem(entry)
  {
    var rest := entry - {"data", "system"};
    var kind := Coalesce(Get(rest, "type"), Get(entry, "type"));
    var base := BaseSystem(entry);
    if kind == Str("skill") || kind == Str("spell") then
      match base
      case Obj(fields) =>
        var sys := if kind == Str("skill") then PrepareSkillSystem(fields) else PrepareSpellSystem(fields);
        Success(rest["folder" := Str(folderId)]["system" := Obj(sys)])
      case _ => Failure(TypeError)
    else
      Success(rest["folder" := Str(folderId)]["system" := base])
  }
}

=== FILE: skills.dfy ===
/** The CP2020 skill table (`CP2020_SKILLS`, module/data/skills.js:1-120) and
the psionic name list (`PSIONIC_SKILL_NAMES`, module/data/skills.js:122-151).

Every row of the source table is an object
`{ name, type: "skill", system: { stat, category, rank: 0, favorite: false, ip: 0 } }`,
and the hard rows add `hard: true` to the system. A row is written here as a
`SkillRow` holding the four parts that vary; `RowEntry` builds the object.
The rows are kept in source order, in six groups whose concatenation is the
table.
 */
module Skills {
  import opened JsValue
  import opened Documents
  import opened SeedNormalise

  datatype SkillRow = SkillRow(name: string, stat: string, category: string, hard: bool)

  /** The table object a row stands for. */
  function RowEntry(r: SkillRow): Entry
  {
    var system := map["stat" := Str(r.stat), "category" := Str(r.category),
                       "rank" := Num(0), "favorite" := Bool(false), "ip" := Num(0)];
    Entry(r.name, "skill", if r.hard then system["hard" := Bool(true)] else system)
  }

  /** The objects of a sequence of rows, in order. */
  function Entries(rows: seq<SkillRow>): (table: seq<Entry>)
    ensures |table| == |rows|
    ensures forall i | 0 <= i < |rows| :: table[i] == RowEntry(rows[i])
  {
    seq(|rows|, i requires 0 <= i < |rows| => RowEntry(rows[i]))
  }

  lemma EntriesAppend(a: seq<SkillRow>, b: seq<SkillRow>)
    ensures Entries(a + b) == Entries(a) + Entries(b)
  {
  }

  /** The ATTR and COOL skills: module/data/skills.js:3-14. */
  const AttrCoolRows: seq<SkillRow> := [
    // ATTR (Personal Presence), lines 3-4
    SkillRow("Personal Grooming", "ATTR", "ATTR", false),
    SkillRow("Wardrobe & Style", "ATTR", "ATTR", false),
    // COOL (Social / Mental Resilience), lines 7-14
    SkillRow("Interrogation (H)", "COOL", "COOL", true),
    SkillRow("Intimidate (H)", "COOL", "COOL", true),
    SkillRow("Persuasion and Fast Talk (H)", "COOL", "COOL", true),
    SkillRow("Resist Torture/Drugs (H)", "COOL", "COOL", true),
    SkillRow("Streetwise", "COOL", "COOL", false),
    SkillRow("Courage", "COOL", "COOL", false),
    SkillRow("Resist Magic (2)", "COOL", "COOL", false),
    SkillRow("Spellcasting (2)", "COOL", "COOL", false)
  ]

  /** The EMP skills: module/data/skills.js:17-23. */
  const EmpRows: seq<SkillRow> := [
    // EMP (Emotional / Interaction / Bio Mod), lines 17-23
    SkillRow("Acting", "EMP", "EMP", false),
    SkillRow("Human Perception", "EMP", "EMP", false),
    SkillRow("Interview", "EMP", "EMP", false),
    SkillRow("Leadership", "EMP", "EMP", false),
    SkillRow("Seduction", "EMP", "EMP", false),
    SkillRow("Social", "EMP", "EMP", false),
    SkillRow("Regeneration", "EMP", "EMP", false)
  ]

  /** The first half of the INT skills: module/data/skills.js:26-34. */
  const IntRowsA: seq<SkillRow> := [
    // INT (Knowledge / Awareness), lines 26-34
    SkillRow("Awareness/Notice", "INT", "INT", false),
    SkillRow("Compose or Write", "INT", "INT", false),
    SkillRow("Disguise", "INT", "INT", false),
    SkillRow("Expert", "INT", "INT", false),
    SkillRow("Gamble (H)", "INT", "INT", true),
    SkillRow("Know Language", "INT", "INT", false),
    SkillRow("Programming (H)", "INT", "INT", true),
    SkillRow("Shadowing/Avoid Pursuit (H)", "INT", "INT", true),
    SkillRow("Survival", "INT", "INT", false)
  ]

  /** The second half of the INT skills: module/data/skills.js:35-43. */
  const IntRowsB: seq<SkillRow> := [
    // INT, continued, lines 35-43
    SkillRow("Teaching (H)", "INT", "INT", true),
    SkillRow("Expert: Security Systems", "INT", "INT", false),
    SkillRow("Expert: Archeology", "INT", "INT", false),
    SkillRow("Expert: Literature", "INT", "INT", false),
    SkillRow("Expert: Chemistry", "INT", "INT", false),
    SkillRow("Expert: Military Intelligence", "INT", "INT", false),
    SkillRow("Expert: Navigation", "INT", "INT", false),
    SkillRow("Education/General", "INT", "INT", false),
    SkillRow("Tactics", "INT", "INT", false)
  ]

  /** The REF combat and mecha skills: module/data/skills.js:46-59. */
  const RefCombatRows: seq<SkillRow> := [
    // REF, Personal Combat, lines 46-52
    SkillRow("Automatic Weapon", "REF", "REF:Combat", false),
    SkillRow("Blade", "REF", "REF:Combat", false),
    SkillRow("Dodge & Escape", "REF", "REF:Combat", false),
    SkillRow("Handgun", "REF", "REF:Combat", false),
    SkillRow("Hand to Hand", "REF", "REF:Combat", false),
    SkillRow("Rifle", "REF", "REF:Combat", false),
    SkillRow("Whip", "REF", "REF:Combat", false),
    // REF, Mecha Combat (all hard), lines 55-59
    SkillRow("Mecha Fighting (H)", "REF", "REF:Mecha", true),
    SkillRow("Mecha Gunnery (H)", "REF", "REF:Mecha", true),
    SkillRow("Mecha Melee (H)", "REF", "REF:Mecha", true),
    SkillRow("Mecha Missiles (H)", "REF", "REF:Mecha", true),
    SkillRow("Mecha Piloting (H)", "REF", "REF:Mecha", true)
  ]

  /** The REF utility skills: module/data/skills.js:62-68. */
  const RefUtilityRows: seq<SkillRow> := [
    // REF, Non-Combat / Utility, lines 62-68
    SkillRow("Aircraft/Shuttle Pilot", "REF", "REF:Utility", false),
    SkillRow("Athletics", "REF", "REF:Utility", false),
    SkillRow("Dance", "REF", "REF:Utility", false),
    SkillRow("Driving", "REF", "REF:Utility", false),
    SkillRow("Stealth", "REF", "REF:Utility", false),
    SkillRow("Swimming", "REF", "REF:Utility", false),
    SkillRow("Zero Gee", "REF", "REF:Utility", false)
  ]

  /** The first half of the TECH skills: module/data/skills.js:71-78. */
  const TechRowsA: seq<SkillRow> := [
    // TECH, lines 71-78
    SkillRow("Basic Repair", "TECH", "TECH", false),
    SkillRow("First Aid", "TECH", "TECH", false),
    SkillRow("Jury Rig", "TECH", "TECH", false),
    SkillRow("Mecha Design (H)", "TECH", "TECH", true),
    SkillRow("Mecha Tech (H)", "TECH", "TECH", true),
    SkillRow("Medical (H)", "TECH", "TECH", true),
    SkillRow("Play Musical Instrument", "TECH", "TECH", false),
    SkillRow("Paint or Draw", "TECH", "TECH", false)
  ]

  /** The second half of the TECH skills: module/data/skills.js:79-85. */
  const TechRowsB: seq<SkillRow> := [
    // TECH, continued, lines 79-85
    SkillRow("Photography & Film", "TECH", "TECH", false),
    SkillRow("Pick Lock (H)", "TECH", "TECH", true),
    SkillRow("Pickpocket (H)", "TECH", "TECH", true),
    SkillRow("Forgery", "TECH", "TECH", false),
    SkillRow("Cybertech", "TECH", "TECH", false),
    SkillRow("Electronics", "TECH", "TECH", false),
    SkillRow("Mechanics", "TECH", "TECH", false)
  ]

  /** The expanded, BODY and FORCE psionic skills: module/data/skills.js:88-102. */
  const PsiRowsA: seq<SkillRow> := [
    // Psionics (Expanded), lines 88-92
    SkillRow("Stat Boost (phys)", "PSI", "PSI", false),
    SkillRow("Telekinesis", "PSI", "PSI", false),
    SkillRow("Levitation", "PSI", "PSI", false),
    SkillRow("Illusion Generation", "PSI", "PSI", false),
    SkillRow("Danger Sense", "PSI", "PSI", false),
    // BODY Psionics, lines 95-96
    SkillRow("Healing", "PSI", "PSI", false),
    SkillRow("Regeneration", "PSI", "PSI", false),
    // FORCE Psionics, lines 99-102
    SkillRow("Energy Manipulation", "PSI", "PSI", false),
    SkillRow("Psychometry", "PSI", "PSI", false),
    SkillRow("Pyrokinesis", "PSI", "PSI", false),
    SkillRow("Retrocognition", "PSI", "PSI", false)
  ]

  /** The MIND psionic skills: module/data/skills.js:105-111. */
  const PsiMindRows: seq<SkillRow> := [
    // MIND Psionics, lines 105-111
    SkillRow("Astral Projection", "PSI", "PSI", false),
    SkillRow("Illusion", "PSI", "PSI", false),
    SkillRow("Recognition", "PSI", "PSI", false),
    SkillRow("Psi Blast", "PSI", "PSI", false),
    SkillRow("Psi Block", "PSI", "PSI", false),
    SkillRow("Suggestion", "PSI", "PSI", false),
    SkillRow("Telepathy", "PSI", "PSI", false)
  ]

  /** The WILL psionic skills: module/data/skills.js:114-119. */
  const PsiWillRows: seq<SkillRow> := [
    // WILL Psionics, lines 114-119
    SkillRow("Aura Viewing", "PSI", "PSI", false),
    SkillRow("Clairvoyance", "PSI", "PSI", false),
    SkillRow("Empathy", "PSI", "PSI", false),
    SkillRow("Emotion Scan", "PSI", "PSI", false),
    SkillRow("Postcognition", "PSI", "PSI", false),
    SkillRow("Possession", "PSI", "PSI", false)
  ]

  /** The rows of `CP2020_SKILLS`, in source order: the stat skills (lines
      3-85) and then the psionic skills (lines 88-119). */
  const StatRows: seq<SkillRow> := AttrCoolRows + EmpRows + IntRowsA + IntRowsB + RefCombatRows + RefUtilityRows + TechRowsA + TechRowsB
  const PsiRows: seq<SkillRow> := PsiRowsA + PsiMindRows + PsiWillRows
  const SkillRows: seq<SkillRow> := StatRows + PsiRows

  const CP2020_SKILLS: seq<Entry> := Entries(SkillRows)

  const PSIONIC_SKILL_NAMES: seq<string> := [
    "Stat Boost (phys)",
    "Telekinesis",
    "Levitation",
    "Illusion Generation",
    "Danger Sense",
    "Healing",
    "Regeneration",
    "Energy Manipulation",
    "Psychometry",
    "Pyrokinesis",
    "Retrocognition",
    "Astral Projection",
    "Illusion",
    "Recognition",
    "Psi Blast",
    "Psi Block",
    "Suggestion",
    "Telepathy",
    "Aura Viewing",
    "Clairvoyance",
    "Empathy",
    "Emotion Scan",
    "Postcognition",
    "Possession"
  ]
  // ---------------------------------------------------------------------------
  // What every row looks like
  // ---------------------------------------------------------------------------

  /** The stats a skill row may name. */
  const SkillStats: set<string> := {"ATTR", "COOL", "EMP", "INT", "REF", "TECH", "PSI"}

  /** The name ends with the hard tag `(H)`. */
  predicate Tagged(name: string)
  {
    |name| >= 3 && name[|name| - 3] == '(' && name[|name| - 2] == 'H' && name[|name| - 1] == ')'
  }

  /** A tagged name passes the `/\(H\)|\[H\]/i` test. */
  lemma TaggedIsHardMarker(name: string)
    requires Tagged(name)
    ensures HasHardMarker(name)
  {
    EndsWithMarker(name);
  }

  /** The row's stat is known and begins its category; `psi` says whether
      its category is "PSI". */
  predicate RowShape(r: SkillRow, psi: bool)
  {
    r.stat in SkillStats && r.stat <= r.category && (r.category == "PSI") == psi
  }

  /** The row is hard exactly when its name carries the tag. */
  predicate RowTagged(r: SkillRow)
  {
    r.hard <==> Tagged(r.name)
  }

  predicate GroupShape(rows: seq<SkillRow>, psi: bool)
  {
    forall i | 0 <= i < |rows| :: RowShape(rows[i], psi)
  }

  predicate GroupTagged(rows: seq<SkillRow>)
  {
    forall i | 0 <= i < |rows| :: RowTagged(rows[i])
  }

  lemma AttrCoolShape()
    ensures GroupShape(AttrCoolRows, false)
  {
  }

  lemma AttrCoolTagged()
    ensures GroupTagged(AttrCoolRows)
  {
  }

  lemma EmpShape()
    ensures GroupShape(EmpRows, false)
  {
  }

  lemma EmpTagged()
    ensures GroupTagged(EmpRows)
  {
  }

  lemma IntAShape()
    ensures GroupShape(IntRowsA, false)
  {
  }

  lemma IntATagged()
    ensures GroupTagged(IntRowsA)
  {
  }

  lemma IntBShape()
    ensures GroupShape(IntRowsB, false)
  {
  }

  lemma IntBTagged()
    ensures GroupTagged(IntRowsB)
  {
  }

  lemma RefCombatShape()
    ensures GroupShape(RefCombatRows, false)
  {
  }

  lemma RefCombatTagged()
    ensures GroupTagged(RefCombatRows)
  {
  }

  lemma RefUtilityShape()
    ensures GroupShape(RefUtilityRows, false)
  {
  }

  lemma RefUtilityTagged()
    ensures GroupTagged(RefUtilityRows)
  {
  }

  lemma TechAShape()
    ensures GroupShape(TechRowsA, false)
  {
  }

  lemma TechATagged()
    ensures GroupTagged(TechRowsA)
  {
  }

  lemma TechBShape()
    ensures GroupShape(TechRowsB, false)
  {
  }

  lemma TechBTagged()
    ensures GroupTagged(TechRowsB)
  {
  }

  lemma PsiAShape()
    ensures GroupShape(PsiRowsA, true)
  {
  }

  lemma PsiATagged()
    ensures GroupTagged(PsiRowsA)
  {
  }

  lemma PsiMindShape()
    ensures GroupShape(PsiMindRows, true)
  {
  }

  lemma PsiMindTagged()
    ensures GroupTagged(PsiMindRows)
  {
  }

  lemma PsiWillShape()
    ensures GroupShape(PsiWillRows, true)
  {
  }

  lemma PsiWillTagged()
    ensures GroupTagged(PsiWillRows)
  {
  }
  // ---------------------------------------------------------------------------
  // Names
  // ---------------------------------------------------------------------------

  /** No two rows share a name, unless the name is `dup`. */
  predicate NamesDistinctBut(rows: seq<SkillRow>, dup: string)
  {
    forall i, j | 0 <= i < j < |rows| :: rows[i].name == rows[j].name ==> rows[i].name == dup
  }

  /** No row of `a` shares a name with a row of `b`, unless the name is `dup`. */
  predicate NamesDisjointBut(a: seq<SkillRow>, b: seq<SkillRow>, dup: string)
  {
    forall i, j | 0 <= i < |a| && 0 <= j < |b| :: a[i].name == b[j].name ==> a[i].name == dup
  }

  predicate NamesDistinct(rows: seq<SkillRow>)
  {
    forall i, j | 0 <= i < j < |rows| :: rows[i].name != rows[j].name
  }

  predicate NamesDisjoint(a: seq<SkillRow>, b: seq<SkillRow>)
  {
    forall i, j | 0 <= i < |a| && 0 <= j < |b| :: a[i].name != b[j].name
  }

  lemma DistinctIsBut(rows: seq<SkillRow>, dup: string)
    requires NamesDistinct(rows)
    ensures NamesDistinctBut(rows, dup)
  {
  }

  lemma DisjointIsBut(a: seq<SkillRow>, b: seq<SkillRow>, dup: string)
    requires NamesDisjoint(a, b)
    ensures NamesDisjointBut(a, b, dup)
  {
  }

  lemma DisjointAppendRight(a: seq<SkillRow>, b: seq<SkillRow>, c: seq<SkillRow>, dup: string)
    requires NamesDisjointBut(a, b, dup) && NamesDisjointBut(a, c, dup)
    ensures NamesDisjointBut(a, b + c, dup)
  {
    var s := b + c;
    forall i, j | 0 <= i < |a| && 0 <= j < |s| && a[i].name == s[j].name
      ensures a[i].name == dup
    {
      if j < |b| {
        assert s[j] == b[j];
      } else {
        assert s[j] == c[j - |b|];
      }
    }
  }

  lemma DistinctAppend(a: seq<SkillRow>, b: seq<SkillRow>, dup: string)
    requires NamesDistinctBut(a, dup) && NamesDistinctBut(b, dup) && NamesDisjointBut(a, b, dup)
    ensures NamesDistinctBut(a + b, dup)
  {
    var s := a + b;
    forall i, j | 0 <= i < j < |s| && s[i].name == s[j].name
      ensures s[i].name == dup
    {
      if j < |a| {
        assert s[i] == a[i] && s[j] == a[j];
      } else if i >= |a| {
        assert s[i] == b[i - |a|] && s[j] == b[j - |a|];
      } else {
        assert s[i] == a[i] && s[j] == b[j - |a|];
      }
    }
  }

  lemma DisjointAppendLeft(a: seq<SkillRow>, b: seq<SkillRow>, c: seq<SkillRow>, dup: string)
    requires NamesDisjointBut(a, c, dup) && NamesDisjointBut(b, c, dup)
    ensures NamesDisjointBut(a + b, c, dup)
  {
    var s := a + b;
    forall i, j | 0 <= i < |s| && 0 <= j < |c| && s[i].name == c[j].name
      ensures s[i].name == dup
    {
      if i < |a| {
        assert s[i] == a[i];
      } else {
        assert s[i] == b[i - |a|];
      }
    }
  }

  lemma AttrCoolDistinct()
    ensures NamesDistinct(AttrCoolRows)
  {
    forall i, j | 0 <= i < j < |AttrCoolRows|
      ensures AttrCoolRows[i].name != AttrCoolRows[j].name
    {
      if i < |AttrCoolRows| / 2 {
        assert AttrCoolRows[i].name != AttrCoolRows[j].name;
      } else {
        assert AttrCoolRows[i].name != AttrCoolRows[j].name;
      }
    }
  }

  lemma EmpDistinct()
    ensures NamesDistinct(EmpRows)
  {
    forall i, j | 0 <= i < j < |EmpRows|
      ensures EmpRows[i].name != EmpRows[j].name
    {
      if i < |EmpRows| / 2 {
        assert EmpRows[i].name != EmpRows[j].name;
      } else {
        assert EmpRows[i].name != EmpRows[j].name;
      }
    }
  }

  lemma IntADistinct()
    ensures NamesDistinct(IntRowsA)
  {
    forall i, j | 0 <= i < j < |IntRowsA|
      ensures IntRowsA[i].name != IntRowsA[j].name
    {
      if i < |IntRowsA| / 2 {
        assert IntRowsA[i].name != IntRowsA[j].name;
      } else {
        assert IntRowsA[i].name != IntRowsA[j].name;
      }
    }
  }

  lemma IntBDistinct()
    ensures NamesDistinct(IntRowsB)
  {
    forall i, j | 0 <= i < j < |IntRowsB|
      ensures IntRowsB[i].name != IntRowsB[j].name
    {
      if i < |IntRowsB| / 2 {
        assert IntRowsB[i].name != IntRowsB[j].name;
      } else {
        assert IntRowsB[i].name != IntRowsB[j].name;
      }
    }
  }

  lemma RefCombatDistinct()
    ensures NamesDistinct(RefCombatRows)
  {
    forall i, j | 0 <= i < j < |RefCombatRows|
      ensures RefCombatRows[i].name != RefCombatRows[j].name
    {
      if i < |RefCombatRows| / 2 {
        assert RefCombatRows[i].name != RefCombatRows[j].name;
      } else {
        assert RefCombatRows[i].name != RefCombatRows[j].name;
      }
    }
  }

  lemma RefUtilityDistinct()
    ensures NamesDistinct(RefUtilityRows)
  {
    forall i, j | 0 <= i < j < |RefUtilityRows|
      ensures RefUtilityRows[i].name != RefUtilityRows[j].name
    {
      if i < |RefUtilityRows| / 2 {
        assert RefUtilityRows[i].name != RefUtilityRows[j].name;
      } else {
        assert RefUtilityRows[i].name != RefUtilityRows[j].name;
      }
    }
  }

  lemma TechADistinct()
    ensures NamesDistinct(TechRowsA)
  {
    forall i, j | 0 <= i < j < |TechRowsA|
      ensures TechRowsA[i].name != TechRowsA[j].name
    {
      if i < |TechRowsA| / 2 {
        assert TechRowsA[i].name != TechRowsA[j].name;
      } else {
        assert TechRowsA[i].name != TechRowsA[j].name;
      }
    }
  }

  lemma TechBDistinct()
    ensures NamesDistinct(TechRowsB)
  {
    forall i, j | 0 <= i < j < |TechRowsB|
      ensures TechRowsB[i].name != TechRowsB[j].name
    {
      if i < |TechRowsB| / 2 {
        assert TechRowsB[i].name != TechRowsB[j].name;
      } else {
        assert TechRowsB[i].name != TechRowsB[j].name;
      }
    }
  }

  lemma PsiADistinct()
    ensures NamesDistinct(PsiRowsA)
  {
    forall i, j | 0 <= i < j < |PsiRowsA|
      ensures PsiRowsA[i].name != PsiRowsA[j].name
    {
      if i < 4 {
        assert PsiRowsA[i].name != PsiRowsA[j].name;
      } else {
        assert PsiRowsA[i].name != PsiRowsA[j].name;
      }
    }
  }

  lemma PsiMindDistinct()
    ensures NamesDistinct(PsiMindRows)
  {
    forall i, j | 0 <= i < j < |PsiMindRows|
      ensures PsiMindRows[i].name != PsiMindRows[j].name
    {
      if i < |PsiMindRows| / 2 {
        assert PsiMindRows[i].name != PsiMindRows[j].name;
      } else {
        assert PsiMindRows[i].name != PsiMindRows[j].name;
      }
    }
  }

  lemma PsiWillDistinct()
    ensures NamesDistinct(PsiWillRows)
  {
    forall i, j | 0 <= i < j < |PsiWillRows|
      ensures PsiWillRows[i].name != PsiWillRows[j].name
    {
      if i < |PsiWillRows| / 2 {
        assert PsiWillRows[i].name != PsiWillRows[j].name;
      } else {
        assert PsiWillRows[i].name != PsiWillRows[j].name;
      }
    }
  }

  lemma AttrCoolApartEmp()
    ensures NamesDisjoint(AttrCoolRows, EmpRows)
  {
  }

  lemma AttrCoolApartIntA()
    ensures NamesDisjoint(AttrCoolRows, IntRowsA)
  {
  }

  lemma AttrCoolApartIntB()
    ensures NamesDisjoint(AttrCoolRows, IntRowsB)
  {
  }

  lemma AttrCoolApartRefCombat()
    ensures NamesDisjoint(AttrCoolRows, RefCombatRows)
  {
  }

  lemma AttrCoolApartRefUtility()
    ensures NamesDisjoint(AttrCoolRows, RefUtilityRows)
  {
  }

  lemma AttrCoolApartTechA()
    ensures NamesDisjoint(AttrCoolRows, TechRowsA)
  {
  }

  lemma AttrCoolApartTechB()
    ensures NamesDisjoint(AttrCoolRows, TechRowsB)
  {
  }

  lemma AttrCoolApartPsiA()
    ensures NamesDisjoint(AttrCoolRows, PsiRowsA)
  {
  }

  lemma AttrCoolApartPsiMind()
    ensures NamesDisjoint(AttrCoolRows, PsiMindRows)
  {
  }

  lemma AttrCoolApartPsiWill()
    ensures NamesDisjoint(AttrCoolRows, PsiWillRows)
  {
  }

  lemma EmpApartIntA()
    ensures NamesDisjoint(EmpRows, IntRowsA)
  {
  }

  lemma EmpApartIntB()
    ensures NamesDisjoint(EmpRows, IntRowsB)
  {
  }

  lemma EmpApartRefCombat()
    ensures NamesDisjoint(EmpRows, RefCombatRows)
  {
  }

  lemma EmpApartRefUtility()
    ensures NamesDisjoint(EmpRows, RefUtilityRows)
  {
  }

  lemma EmpApartTechA()
    ensures NamesDisjoint(EmpRows, TechRowsA)
  {
  }

  lemma EmpApartTechB()
    ensures NamesDisjoint(EmpRows, TechRowsB)
  {
  }

  lemma EmpApartPsiA()
    ensures NamesDisjointBut(EmpRows, PsiRowsA, "Regeneration")
  {
  }

  lemma EmpApartPsiMind()
    ensures NamesDisjoint(EmpRows, PsiMindRows)
  {
  }

  lemma EmpApartPsiWill()
    ensures NamesDisjoint(EmpRows, PsiWillRows)
  {
  }

  lemma IntAApartIntB()
    ensures NamesDisjoint(IntRowsA, IntRowsB)
  {
  }

  lemma IntAApartRefCombat()
    ensures NamesDisjoint(IntRowsA, RefCombatRows)
  {
  }

  lemma IntAApartRefUtility()
    ensures NamesDisjoint(IntRowsA, RefUtilityRows)
  {
  }

  lemma IntAApartTechA()
    ensures NamesDisjoint(IntRowsA, TechRowsA)
  {
  }

  lemma IntAApartTechB()
    ensures NamesDisjoint(IntRowsA, TechRowsB)
  {
  }

  lemma IntAApartPsiA()
    ensures NamesDisjoint(IntRowsA, PsiRowsA)
  {
  }

  lemma IntAApartPsiMind()
    ensures NamesDisjoint(IntRowsA, PsiMindRows)
  {
  }

  lemma IntAApartPsiWill()
    ensures NamesDisjoint(IntRowsA, PsiWillRows)
  {
  }

  lemma IntBApartRefCombat()
    ensures NamesDisjoint(IntRowsB, RefCombatRows)
  {
  }

  lemma IntBApartRefUtility()
    ensures NamesDisjoint(IntRowsB, RefUtilityRows)
  {
  }

  lemma IntBApartTechA()
    ensures NamesDisjoint(IntRowsB, TechRowsA)
  {
  }

  lemma IntBApartTechB()
    ensures NamesDisjoint(IntRowsB, TechRowsB)
  {
  }

  lemma IntBApartPsiA()
    ensures NamesDisjoint(IntRowsB, PsiRowsA)
  {
  }

  lemma IntBApartPsiMind()
    ensures NamesDisjoint(IntRowsB, PsiMindRows)
  {
  }

  lemma IntBApartPsiWill()
    ensures NamesDisjoint(IntRowsB, PsiWillRows)
  {
  }

  lemma RefCombatApartRefUtility()
    ensures NamesDisjoint(RefCombatRows, RefUtilityRows)
  {
  }

  lemma RefCombatApartTechA()
    ensures NamesDisjoint(RefCombatRows, TechRowsA)
  {
  }

  lemma RefCombatApartTechB()
    ensures NamesDisjoint(RefCombatRows, TechRowsB)
  {
  }

  lemma RefCombatApartPsiA()
    ensures NamesDisjoint(RefCombatRows, PsiRowsA)
  {
  }

  lemma RefCombatApartPsiMind()
    ensures NamesDisjoint(RefCombatRows, PsiMindRows)
  {
  }

  lemma RefCombatApartPsiWill()
    ensures NamesDisjoint(RefCombatRows, PsiWillRows)
  {
  }

  lemma RefUtilityApartTechA()
    ensures NamesDisjoint(RefUtilityRows, TechRowsA)
  {
  }

  lemma RefUtilityApartTechB()
    ensures NamesDisjoint(RefUtilityRows, TechRowsB)
  {
  }

  lemma RefUtilityApartPsiA()
    ensures NamesDisjoint(RefUtilityRows, PsiRowsA)
  {
  }

  lemma RefUtilityApartPsiMind()
    ensures NamesDisjoint(RefUtilityRows, PsiMindRows)
  {
  }

  lemma RefUtilityApartPsiWill()
    ensures NamesDisjoint(RefUtilityRows, PsiWillRows)
  {
  }

  lemma TechAApartTechB()
    ensures NamesDisjoint(TechRowsA, TechRowsB)
  {
  }

  lemma TechAApartPsiA()
    ensures NamesDisjoint(TechRowsA, PsiRowsA)
  {
  }

  lemma TechAApartPsiMind()
    ensures NamesDisjoint(TechRowsA, PsiMindRows)
  {
  }

  lemma TechAApartPsiWill()
    ensures NamesDisjoint(TechRowsA, PsiWillRows)
  {
  }

  lemma TechBApartPsiA()
    ensures NamesDisjoint(TechRowsB, PsiRowsA)
  {
  }

  lemma TechBApartPsiMind()
    ensures NamesDisjoint(TechRowsB, PsiMindRows)
  {
  }

  lemma TechBApartPsiWill()
    ensures NamesDisjoint(TechRowsB, PsiWillRows)
  {
  }

  lemma PsiAApartPsiMind()
    ensures NamesDisjoint(PsiRowsA, PsiMindRows)
  {
  }

  lemma PsiAApartPsiWill()
    ensures NamesDisjoint(PsiRowsA, PsiWillRows)
  {
  }

  lemma PsiMindApartPsiWill()
    ensures NamesDisjoint(PsiMindRows, PsiWillRows)
  {
  }

  lemma StatRowsDistinct()
    ensures NamesDistinctBut(StatRows, "Regeneration")
  {
    AttrCoolDistinct(); DistinctIsBut(AttrCoolRows, "Regeneration");
    EmpDistinct(); DistinctIsBut(EmpRows, "Regeneration");
    IntADistinct(); DistinctIsBut(IntRowsA, "Regeneration");
    IntBDistinct(); DistinctIsBut(IntRowsB, "Regeneration");
    RefCombatDistinct(); DistinctIsBut(RefCombatRows, "Regeneration");
    RefUtilityDistinct(); DistinctIsBut(RefUtilityRows, "Regeneration");
    TechADistinct(); DistinctIsBut(TechRowsA, "Regeneration");
    TechBDistinct(); DistinctIsBut(TechRowsB, "Regeneration");
    AttrCoolApartEmp();
    DisjointIsBut(AttrCoolRows, EmpRows, "Regeneration");
    DistinctAppend(AttrCoolRows, EmpRows, "Regeneration");
    AttrCoolApartIntA();
    DisjointIsBut(AttrCoolRows, IntRowsA, "Regeneration");
    EmpApartIntA();
    DisjointIsBut(EmpRows, IntRowsA, "Regeneration");
    DisjointAppendLeft(AttrCoolRows, EmpRows, IntRowsA, "Regeneration");
    DistinctAppend(AttrCoolRows + EmpRows, IntRowsA, "Regeneration");
    AttrCoolApartIntB();
    DisjointIsBut(AttrCoolRows, IntRowsB, "Regeneration");
    EmpApartIntB();
    DisjointIsBut(EmpRows, IntRowsB, "Regeneration");
    IntAApartIntB();
    DisjointIsBut(IntRowsA, IntRowsB, "Regeneration");
    DisjointAppendLeft(AttrCoolRows, EmpRows, IntRowsB, "Regeneration");
    DisjointAppendLeft(AttrCoolRows + EmpRows, IntRowsA, IntRowsB, "Regeneration");
    DistinctAppend(AttrCoolRows + EmpRows + IntRowsA, IntRowsB, "Regeneration");
    AttrCoolApartRefCombat();
    DisjointIsBut(AttrCoolRows, RefCombatRows, "Regeneration");
    EmpApartRefCombat();
    DisjointIsBut(EmpRows, RefCombatRows, "Regeneration");
    IntAApartRefCombat();
    DisjointIsBut(IntRowsA, RefCombatRows, "Regeneration");
    IntBApartRefCombat();
    DisjointIsBut(IntRowsB, RefCombatRows, "Regeneration");
    DisjointAppendLeft(AttrCoolRows, EmpRows, RefCombatRows, "Regeneration");
    DisjointAppendLeft(AttrCoolRows + EmpRows, IntRowsA, RefCombatRows, "Regeneration");
    DisjointAppendLeft(AttrCoolRows + EmpRows + IntRowsA, IntRowsB, RefCombatRows, "Regeneration");
    DistinctAppend(AttrCoolRows + EmpRows + IntRowsA + IntRowsB, RefCombatRows, "Regeneration");
    AttrCoolApartRefUtility();
    DisjointIsBut(AttrCoolRows, RefUtilityRows, "Regeneration");
    EmpApartRefUtility();
    DisjointIsBut(EmpRows, RefUtilityRows, "Regeneration");
    IntAApartRefUtility();
    DisjointIsBut(IntRowsA, RefUtilityRows, "Regeneration");
    IntBApartRefUtility();
    DisjointIsBut(IntRowsB, RefUtilityRows, "Regeneration");
    RefCombatApartRefUtility();
    DisjointIsBut(RefCombatRows, RefUtilityRows, "Regeneration");
    DisjointAppendLeft(AttrCoolRows, EmpRows, RefUtilityRows, "Regeneration");
    DisjointAppendLeft(AttrCoolRows + EmpRows, IntRowsA, RefUtilityRows, "Regeneration");
    DisjointAppendLeft(AttrCoolRows + EmpRows + IntRowsA, IntRowsB, RefUtilityRows, "Regeneration");
    DisjointAppendLeft(AttrCoolRows + EmpRows + IntRowsA + IntRowsB, RefCombatRows, RefUtilityRows, "Regeneration");
    DistinctAppend(AttrCoolRows + EmpRows + IntRowsA + IntRowsB + RefCombatRows, RefUtilityRows, "Regeneration");
    AttrCoolApartTechA();
    DisjointIsBut(AttrCoolRows, TechRowsA, "Regeneration");
    EmpApartTechA();
    DisjointIsBut(EmpRows, TechRowsA, "Regeneration");
    IntAApartTechA();
    DisjointIsBut(IntRowsA, TechRowsA, "Regeneration");
    IntBApartTechA();
    DisjointIsBut(IntRowsB, TechRowsA, "Regeneration");
    RefCombatApartTechA();
    DisjointIsBut(RefCombatRows, TechRowsA, "Regeneration");
    RefUtilityApartTechA();
    DisjointIsBut(RefUtilityRows, TechRowsA, "Regeneration");
    DisjointAppendLeft(AttrCoolRows, EmpRows, TechRowsA, "Regeneration");
    DisjointAppendLeft(AttrCoolRows + EmpRows, IntRowsA, TechRowsA, "Regeneration");
    DisjointAppendLeft(AttrCoolRows + EmpRows + IntRowsA, IntRowsB, TechRowsA, "Regeneration");
    DisjointAppendLeft(AttrCoolRows + EmpRows + IntRowsA + IntRowsB, RefCombatRows, TechRowsA, "Regeneration");
    DisjointAppendLeft(AttrCoolRows + EmpRows + IntRowsA + IntRowsB + RefCombatRows, RefUtilityRows, TechRowsA, "Regeneration");
    DistinctAppend(AttrCoolRows + EmpRows + IntRowsA + IntRowsB + RefCombatRows + RefUtilityRows, TechRowsA, "Regeneration");
    AttrCoolApartTechB();
    DisjointIsBut(AttrCoolRows, TechRowsB, "Regeneration");
    EmpApartTechB();
    DisjointIsBut(EmpRows, TechRowsB, "Regeneration");
    IntAApartTechB();
    DisjointIsBut(IntRowsA, TechRowsB, "Regeneration");
    IntBApartTechB();
    DisjointIsBut(IntRowsB, TechRowsB, "Regeneration");
    RefCombatApartTechB();
    DisjointIsBut(RefCombatRows, TechRowsB, "Regeneration");
    RefUtilityApartTechB();
    DisjointIsBut(RefUtilityRows, TechRowsB, "Regeneration");
    TechAApartTechB();
    DisjointIsBut(TechRowsA, TechRowsB, "Regeneration");
    DisjointAppendLeft(AttrCoolRows, EmpRows, TechRowsB, "Regeneration");
    DisjointAppendLeft(AttrCoolRows + EmpRows, IntRowsA, TechRowsB, "Regeneration");
    DisjointAppendLeft(AttrCoolRows + EmpRows + IntRowsA, IntRowsB, TechRowsB, "Regeneration");
    DisjointAppendLeft(AttrCoolRows + EmpRows + IntRowsA + IntRowsB, RefCombatRows, TechRowsB, "Regeneration");
    DisjointAppendLeft(AttrCoolRows + EmpRows + IntRowsA + IntRowsB + RefCombatRows, RefUtilityRows, TechRowsB, "Regeneration");
    DisjointAppendLeft(AttrCoolRows + EmpRows + IntRowsA + IntRowsB + RefCombatRows + RefUtilityRows, TechRowsA, TechRowsB, "Regeneration");
    DistinctAppend(AttrCoolRows + EmpRows + IntRowsA + IntRowsB + RefCombatRows + RefUtilityRows + TechRowsA, TechRowsB, "Regeneration");
  }

  lemma PsiRowsDistinct()
    ensures NamesDistinctBut(PsiRows, "Regeneration")
  {
    PsiADistinct(); DistinctIsBut(PsiRowsA, "Regeneration");
    PsiMindDistinct(); DistinctIsBut(PsiMindRows, "Regeneration");
    PsiWillDistinct(); DistinctIsBut(PsiWillRows, "Regeneration");
    PsiAApartPsiMind();
    DisjointIsBut(PsiRowsA, PsiMindRows, "Regeneration");
    DistinctAppend(PsiRowsA, PsiMindRows, "Regeneration");
    PsiAApartPsiWill();
    DisjointIsBut(PsiRowsA, PsiWillRows, "Regeneration");
    PsiMindApartPsiWill();
    DisjointIsBut(PsiMindRows, PsiWillRows, "Regeneration");
    DisjointAppendLeft(PsiRowsA, PsiMindRows, PsiWillRows, "Regeneration");
    DistinctAppend(PsiRowsA + PsiMindRows, PsiWillRows, "Regeneration");
  }

  lemma HalvesApart()
    ensures NamesDisjointBut(StatRows, PsiRows, "Regeneration")
  {
    AttrCoolApartPsiA();
    DisjointIsBut(AttrCoolRows, PsiRowsA, "Regeneration");
    EmpApartPsiA();
    IntAApartPsiA();
    DisjointIsBut(IntRowsA, PsiRowsA, "Regeneration");
    IntBApartPsiA();
    DisjointIsBut(IntRowsB, PsiRowsA, "Regeneration");
    RefCombatApartPsiA();
    DisjointIsBut(RefCombatRows, PsiRowsA, "Regeneration");
    RefUtilityApartPsiA();
    DisjointIsBut(RefUtilityRows, PsiRowsA, "Regeneration");
    TechAApartPsiA();
    DisjointIsBut(TechRowsA, PsiRowsA, "Regeneration");
    TechBApartPsiA();
    DisjointIsBut(TechRowsB, PsiRowsA, "Regeneration");
    DisjointAppendLeft(AttrCoolRows, EmpRows, PsiRowsA, "Regeneration");
    DisjointAppendLeft(AttrCoolRows + EmpRows, IntRowsA, PsiRowsA, "Regeneration");
    DisjointAppendLeft(AttrCoolRows + EmpRows + IntRowsA, IntRowsB, PsiRowsA, "Regeneration");
    DisjointAppendLeft(AttrCoolRows + EmpRows + IntRowsA + IntRowsB, RefCombatRows, PsiRowsA, "Regeneration");
    DisjointAppendLeft(AttrCoolRows + EmpRows + IntRowsA + IntRowsB + RefCombatRows, RefUtilityRows, PsiRowsA, "Regeneration");
    DisjointAppendLeft(AttrCoolRows + EmpRows + IntRowsA + IntRowsB + RefCombatRows + RefUtilityRows, TechRowsA, PsiRowsA, "Regeneration");
    DisjointAppendLeft(AttrCoolRows + EmpRows + IntRowsA + IntRowsB + RefCombatRows + RefUtilityRows + TechRowsA, TechRowsB, PsiRowsA, "Regeneration");
    AttrCoolApartPsiMind();
    DisjointIsBut(AttrCoolRows, PsiMindRows, "Regeneration");
    EmpApartPsiMind();
    DisjointIsBut(EmpRows, PsiMindRows, "Regeneration");
    IntAApartPsiMind();
    DisjointIsBut(IntRowsA, PsiMindRows, "Regeneration");
    IntBApartPsiMind();
    DisjointIsBut(IntRowsB, PsiMindRows, "Regeneration");
    RefCombatApartPsiMind();
    DisjointIsBut(RefCombatRows, PsiMindRows, "Regeneration");
    RefUtilityApartPsiMind();
    DisjointIsBut(RefUtilityRows, PsiMindRows, "Regeneration");
    TechAApartPsiMind();
    DisjointIsBut(TechRowsA, PsiMindRows, "Regeneration");
    TechBApartPsiMind();
    DisjointIsBut(TechRowsB, PsiMindRows, "Regeneration");
    DisjointAppendLeft(AttrCoolRows, EmpRows, PsiMindRows, "Regeneration");
    DisjointAppendLeft(AttrCoolRows + EmpRows, IntRowsA, PsiMindRows, "Regeneration");
    DisjointAppendLeft(AttrCoolRows + EmpRows + IntRowsA, IntRowsB, PsiMindRows, "Regeneration");
    DisjointAppendLeft(AttrCoolRows + EmpRows + IntRowsA + IntRowsB, RefCombatRows, PsiMindRows, "Regeneration");
    DisjointAppendLeft(AttrCoolRows + EmpRows + IntRowsA + IntRowsB + RefCombatRows, RefUtilityRows, PsiMindRows, "Regeneration");
    DisjointAppendLeft(AttrCoolRows + EmpRows + IntRowsA + IntRowsB + RefCombatRows + RefUtilityRows, TechRowsA, PsiMindRows, "Regeneration");
    DisjointAppendLeft(AttrCoolRows + EmpRows + IntRowsA + IntRowsB + RefCombatRows + RefUtilityRows + TechRowsA, TechRowsB, PsiMindRows, "Regeneration");
    AttrCoolApartPsiWill();
    DisjointIsBut(AttrCoolRows, PsiWillRows, "Regeneration");
    EmpApartPsiWill();
    DisjointIsBut(EmpRows, PsiWillRows, "Regeneration");
    IntAApartPsiWill();
    DisjointIsBut(IntRowsA, PsiWillRows, "Regeneration");
    IntBApartPsiWill();
    DisjointIsBut(IntRowsB, PsiWillRows, "Regeneration");
    RefCombatApartPsiWill();
    DisjointIsBut(RefCombatRows, PsiWillRows, "Regeneration");
    RefUtilityApartPsiWill();
    DisjointIsBut(RefUtilityRows, PsiWillRows, "Regeneration");
    TechAApartPsiWill();
    DisjointIsBut(TechRowsA, PsiWillRows, "Regeneration");
    TechBApartPsiWill();
    DisjointIsBut(TechRowsB, PsiWillRows, "Regeneration");
    DisjointAppendLeft(AttrCoolRows, EmpRows, PsiWillRows, "Regeneration");
    DisjointAppendLeft(AttrCoolRows + EmpRows, IntRowsA, PsiWillRows, "Regeneration");
    DisjointAppendLeft(AttrCoolRows + EmpRows + IntRowsA, IntRowsB, PsiWillRows, "Regeneration");
    DisjointAppendLeft(AttrCoolRows + EmpRows + IntRowsA + IntRowsB, RefCombatRows, PsiWillRows, "Regeneration");
    DisjointAppendLeft(AttrCoolRows + EmpRows + IntRowsA + IntRowsB + RefCombatRows, RefUtilityRows, PsiWillRows, "Regeneration");
    DisjointAppendLeft(AttrCoolRows + EmpRows + IntRowsA + IntRowsB + RefCombatRows + RefUtilityRows, TechRowsA, PsiWillRows, "Regeneration");
    DisjointAppendLeft(AttrCoolRows + EmpRows + IntRowsA + IntRowsB + RefCombatRows + RefUtilityRows + TechRowsA, TechRowsB, PsiWillRows, "Regeneration");
    DisjointAppendRight(StatRows, PsiRowsA, PsiMindRows, "Regeneration");
    DisjointAppendRight(StatRows, PsiRowsA + PsiMindRows, PsiWillRows, "Regeneration");
  }

  /** Apart from "Regeneration", no two rows of the table share a name. */
  lemma RowNamesDistinctBut()
    ensures NamesDistinctBut(SkillRows, "Regeneration")
  {
    StatRowsDistinct();
    PsiRowsDistinct();
    HalvesApart();
    DistinctAppend(StatRows, PsiRows, "Regeneration");
  }
  // ---------------------------------------------------------------------------
  // The table as a whole
  // ---------------------------------------------------------------------------

  lemma AllRowsShaped()
    ensures forall i | 0 <= i < |SkillRows| :: SkillRows[i].stat in SkillStats && SkillRows[i].stat <= SkillRows[i].category
  {
    AttrCoolShape(); EmpShape(); IntAShape(); IntBShape(); RefCombatShape(); RefUtilityShape();
    TechAShape(); TechBShape(); PsiAShape(); PsiMindShape(); PsiWillShape();
    forall i | 0 <= i < |SkillRows|
      ensures SkillRows[i].stat in SkillStats && SkillRows[i].stat <= SkillRows[i].category
    {
      assert SkillRows[i] in SkillRows;
    }
  }

  lemma AllRowsTagged()
    ensures forall i | 0 <= i < |SkillRows| :: RowTagged(SkillRows[i])
  {
    AttrCoolTagged(); EmpTagged(); IntATagged(); IntBTagged(); RefCombatTagged(); RefUtilityTagged();
    TechATagged(); TechBTagged(); PsiATagged(); PsiMindTagged(); PsiWillTagged();
    forall i | 0 <= i < |SkillRows|
      ensures RowTagged(SkillRows[i])
    {
      assert SkillRows[i] in SkillRows;
    }
  }

  /** A table row as the seeding code reads it: a fresh skill (rank 0, not a
      favourite, no improvement points) whose stat is one of the seven known
      stats and begins its category, with `hard` either absent or true and no
      `name` inside its system. */
  predicate WellFormedSkill(e: Entry)
  {
    && e.kind == "skill"
    && Get(e.system, "stat").Str? && Get(e.system, "stat").s in SkillStats
    && Get(e.system, "category").Str? && Get(e.system, "stat").s <= Get(e.system, "category").s
    && Get(e.system, "rank") == Num(0)
    && Get(e.system, "favorite") == Bool(false)
    && Get(e.system, "ip") == Num(0)
    && (Get(e.system, "hard") == Undefined || Get(e.system, "hard") == Bool(true))
    && e.system.Keys <= SkillKeys
  }

  /** The table has 93 rows. */
  lemma CatalogSize()
    ensures |SkillRows| == 93 && |CP2020_SKILLS| == 93
  {
  }

  /** Every row of `CP2020_SKILLS` is a well-formed fresh skill. */
  lemma CatalogWellFormed()
    ensures |CP2020_SKILLS| == 93
    ensures forall i | 0 <= i < |CP2020_SKILLS| :: WellFormedSkill(CP2020_SKILLS[i])
  {
    AllRowsShaped();
    KeysDistinct();
  }

  /** `hard: true` sits exactly on the rows whose name ends with the `(H)` tag,
      and each of those names passes the hard-skill pattern. */
  lemma CatalogHardIffTagged()
    ensures forall i | 0 <= i < |CP2020_SKILLS| ::
              (Get(CP2020_SKILLS[i].system, "hard") == Bool(true) <==> Tagged(CP2020_SKILLS[i].name))
    ensures forall i | 0 <= i < |CP2020_SKILLS| && Tagged(CP2020_SKILLS[i].name) ::
              HasHardMarker(CP2020_SKILLS[i].name)
  {
    AllRowsTagged();
    KeysDistinct();
    forall i | 0 <= i < |CP2020_SKILLS| && Tagged(CP2020_SKILLS[i].name)
      ensures HasHardMarker(CP2020_SKILLS[i].name)
    {
      TaggedIsHardMarker(CP2020_SKILLS[i].name);
    }
  }

  // ---------------------------------------------------------------------------
  // The psionic names
  // ---------------------------------------------------------------------------

  /** The names of the table objects whose category is "PSI", in table order. */
  function PsiNames(table: seq<Entry>): seq<string>
  {
    if table == [] then []
    else
      var last := table[|table| - 1];
      PsiNames(table[..|table| - 1]) + (if Get(last.system, "category") == Str("PSI") then [last.name] else [])
  }

  lemma {:induction false} PsiNamesAppend(a: seq<Entry>, b: seq<Entry>)
    ensures PsiNames(a + b) == PsiNames(a) + PsiNames(b)
  {
    if b == [] {
      assert a + b == a;
    } else {
      var init := b[..|b| - 1];
      assert (a + b)[..|a + b| - 1] == a + init;
      PsiNamesAppend(a, init);
    }
  }

  function Names(rows: seq<SkillRow>): (names: seq<string>)
    ensures |names| == |rows|
  {
    seq(|rows|, i requires 0 <= i < |rows| => rows[i].name)
  }

  lemma {:induction false} PsiNamesOfGroup(rows: seq<SkillRow>, psi: bool)
    requires GroupShape(rows, psi)
    ensures PsiNames(Entries(rows)) == if psi then Names(rows) else []
  {
    if rows != [] {
      var init := rows[..|rows| - 1];
      assert Entries(rows)[..|rows| - 1] == Entries(init);
      assert Names(rows) == Names(init) + [rows[|rows| - 1].name];
      PsiNamesOfGroup(init, psi);
    }
  }

  lemma GroupShapeAppend(a: seq<SkillRow>, b: seq<SkillRow>, psi: bool)
    requires GroupShape(a, psi) && GroupShape(b, psi)
    ensures GroupShape(a + b, psi)
  {
    forall i | 0 <= i < |a + b|
      ensures RowShape((a + b)[i], psi)
    {
      if i >= |a| {
        assert (a + b)[i] == b[i - |a|];
      }
    }
  }

  lemma StatRowsNotPsi()
    ensures GroupShape(StatRows, false)
  {
    AttrCoolShape(); EmpShape(); IntAShape(); IntBShape(); RefCombatShape(); RefUtilityShape(); TechAShape(); TechBShape();
    GroupShapeAppend(AttrCoolRows, EmpRows, false);
    GroupShapeAppend(AttrCoolRows + EmpRows, IntRowsA, false);
    GroupShapeAppend(AttrCoolRows + EmpRows + IntRowsA, IntRowsB, false);
    GroupShapeAppend(AttrCoolRows + EmpRows + IntRowsA + IntRowsB, RefCombatRows, false);
    GroupShapeAppend(AttrCoolRows + EmpRows + IntRowsA + IntRowsB + RefCombatRows, RefUtilityRows, false);
    GroupShapeAppend(AttrCoolRows + EmpRows + IntRowsA + IntRowsB + RefCombatRows + RefUtilityRows, TechRowsA, false);
    GroupShapeAppend(AttrCoolRows + EmpRows + IntRowsA + IntRowsB + RefCombatRows + RefUtilityRows + TechRowsA, TechRowsB, false);
  }

  lemma PsiRowsArePsi()
    ensures GroupShape(PsiRows, true)
  {
    PsiAShape(); PsiMindShape(); PsiWillShape();
    GroupShapeAppend(PsiRowsA, PsiMindRows, true);
    GroupShapeAppend(PsiRowsA + PsiMindRows, PsiWillRows, true);
  }

  lemma PsionicListIsPsiRowNames()
    ensures Names(PsiRows) == PSIONIC_SKILL_NAMES
  {
  }

  /** `PSIONIC_SKILL_NAMES` lists, in table order, exactly the names of the
      table rows whose category is "PSI". */
  lemma PsionicNamesArePsiRows()
    ensures PSIONIC_SKILL_NAMES == PsiNames(CP2020_SKILLS)
  {
    StatRowsNotPsi();
    PsiRowsArePsi();
    PsiNamesOfGroup(StatRows, false);
    PsiNamesOfGroup(PsiRows, true);
    EntriesAppend(StatRows, PsiRows);
    PsiNamesAppend(Entries(StatRows), Entries(PsiRows));
    PsionicListIsPsiRowNames();
  }

  // ---------------------------------------------------------------------------
  // The repeated name
  // ---------------------------------------------------------------------------

  lemma StatRowsRegenerationLow()
    ensures forall i | 0 <= i < 35 :: StatRows[i].name == "Regeneration" <==> i == 16
  {
  }

  lemma StatRowsRegenerationHigh()
    ensures forall i | 35 <= i < |StatRows| :: StatRows[i].name != "Regeneration"
  {
  }

  lemma PsiRowsRegeneration()
    ensures forall i | 0 <= i < |PsiRows| :: PsiRows[i].name == "Regeneration" <==> i == 6
  {
  }

  /** The two "Regeneration" rows: the EMP skill at position 16 and the
      psionic one at position 75. */
  lemma RegenerationRows()
    ensures |SkillRows| == 93
    ensures SkillRows[16] == SkillRow("Regeneration", "EMP", "EMP", false)
    ensures SkillRows[75] == SkillRow("Regeneration", "PSI", "PSI", false)
  {
    assert SkillRows[16] == StatRows[16] == EmpRows[6];
    assert SkillRows[75] == PsiRows[6] == PsiRowsA[6];
  }

  /** The table repeats exactly one name: "Regeneration" is both the EMP row at
      position 16 and the psionic row at position 75; every other name occurs
      once. */
  lemma CatalogNamesDistinctButRegeneration()
    ensures |CP2020_SKILLS| == 93
    ensures forall i, j | 0 <= i < j < |CP2020_SKILLS| ::
              CP2020_SKILLS[i].name == CP2020_SKILLS[j].name <==> i == 16 && j == 75
    ensures CP2020_SKILLS[16].name == "Regeneration" && Get(CP2020_SKILLS[16].system, "stat") == Str("EMP")
    ensures CP2020_SKILLS[75].name == "Regeneration" && Get(CP2020_SKILLS[75].system, "stat") == Str("PSI")
  {
    RowNamesDistinctBut();
    StatRowsRegenerationLow();
    StatRowsRegenerationHigh();
    PsiRowsRegeneration();
    forall i | 0 <= i < |SkillRows|
      ensures SkillRows[i].name == "Regeneration" <==> i == 16 || i == 75
    {
      if i < |StatRows| {
        assert SkillRows[i] == StatRows[i];
      } else {
        assert SkillRows[i] == PsiRows[i - |StatRows|];
      }
    }
    KeysDistinct();
  }

  // ---------------------------------------------------------------------------
  // Normalising the table
  // ---------------------------------------------------------------------------

  /** Every stat is written in capitals, so upper-casing leaves it alone. */
  lemma SkillStatsUpperCase()
    ensures forall s | s in SkillStats :: s != "" && NoLowerAscii(s)
  {
  }

  /** `prepareSkillSystem` leaves a system that is already in normal form and
      has no `name` as it is, except for adding `hard: false` when `hard` is
      absent (the pattern is tested against ""). */
  lemma PrepareSettledSystem(sys: Object)
    requires Get(sys, "stat").Str? && Get(sys, "stat").s != "" && NoLowerAscii(Get(sys, "stat").s)
    requires Get(sys, "category").Str?
    requires forall k | k in {"rank", "favorite", "ip", "hard"} && k in sys :: !Nullish(sys[k])
    requires {"rank", "favorite", "ip"} <= sys.Keys && "name" !in sys
    ensures PrepareSkillSystem(sys) == if "hard" in sys then sys else sys["hard" := Bool(false)]
  {
    var want := if "hard" in sys then sys else sys["hard" := Bool(false)];
    var got := PrepareSkillSystem(sys);
    assert got.Keys == want.Keys;
    forall k | k in got
      ensures got[k] == want[k]
    {
      if k == "stat" {
        UpperFixesNoLower(Get(sys, "stat").s);
        assert Get(got, k) == want[k];
      } else if k == "hard" {
        assert Get(got, k) == want[k];
      } else {
        assert Get(got, k) == Get(want, k);
      }
    }
  }

  /** `prepareSkillSystem` leaves a row's system as it is, except that a row
      without `hard` gains `hard: false` (its system has no `name`, so the
      pattern is tested against ""). */
  lemma PrepareRowSystem(r: SkillRow)
    requires r.stat in SkillStats && r.stat <= r.category
    ensures var sys := RowEntry(r).system;
            PrepareSkillSystem(sys) == if r.hard then sys else sys["hard" := Bool(false)]
  {
    var sys := RowEntry(r).system;
    KeysDistinct();
    SkillStatsUpperCase();
    assert "name" !in sys;
    PrepareSettledSystem(sys);
  }

  /** Over the whole table, `prepareSkillSystem` changes nothing but adding
      `hard: false` where `hard` is absent. */
  lemma CatalogPrepareAddsOnlyHard()
    ensures forall i | 0 <= i < |CP2020_SKILLS| ::
              var sys := CP2020_SKILLS[i].system;
              PrepareSkillSystem(sys) == if "hard" in sys then sys else sys["hard" := Bool(false)]
  {
    AllRowsShaped();
    KeysDistinct();
    forall i | 0 <= i < |CP2020_SKILLS|
      ensures var sys := CP2020_SKILLS[i].system;
              PrepareSkillSystem(sys) == if "hard" in sys then sys else sys["hard" := Bool(false)]
    {
      PrepareRowSystem(SkillRows[i]);
    }
  }
}

=== FILE: spells.dfy ===
/** The Witcher sign table (`WITCHER_SIGNS`, module/data/spells.js:1-52). */
module Spells {
  import opened JsValue
  import opened Documents
  import opened SeedNormalise

  const WITCHER_SIGNS: seq<Entry> := [
    Entry("Aard", "spell", map["school" := Str("Sign"), "cost" := Num(3), "test" := Str("INT"),
                               "effect" := Str("Telekinetic blast; push/knockdown in a cone.")]),
    Entry("Igni", "spell", map["school" := Str("Sign"), "cost" := Num(3), "test" := Str("INT"),
                               "effect" := Str("Flame burst; cone fire damage; may ignite.")]),
    Entry("Yrden", "spell", map["school" := Str("Sign"), "cost" := Num(2), "test" := Str("INT"),
                                "effect" := Str("Magical trap; slows/hinders within area.")]),
    Entry("Quen", "spell", map["school" := Str("Sign"), "cost" := Num(2), "test" := Str("INT"),
                               "effect" := Str("Protective shield; absorb damage for short time.")]),
    Entry("Axii", "spell", map["school" := Str("Sign"), "cost" := Num(2), "test" := Str("EMP"),
                               "effect" := Str("Charm/calm; influence target's actions briefly.")])
  ]

  /** A sign row: a spell of the Sign school tested on INT or EMP, costing 2 or
      3, with a non-empty effect text and no `favorite` field. */
  predicate WellFormedSign(e: Entry)
  {
    && e.kind == "spell"
    && e.system.Keys == {"school", "cost", "test", "effect"}
    && e.system["school"] == Str("Sign")
    && (e.system["cost"] == Num(2) || e.system["cost"] == Num(3))
    && (e.system["test"] == Str("INT") || e.system["test"] == Str("EMP"))
    && e.system["effect"].Str? && e.system["effect"].s != ""
  }

  /** There are five signs, with pairwise different names, all well formed. */
  lemma SignsWellFormed()
    ensures |WITCHER_SIGNS| == 5
    ensures forall i, j | 0 <= i < j < |WITCHER_SIGNS| :: WITCHER_SIGNS[i].name != WITCHER_SIGNS[j].name
    ensures forall i | 0 <= i < |WITCHER_SIGNS| :: WellFormedSign(WITCHER_SIGNS[i])
  {
  }

  /** `prepareSpellSystem` leaves a system whose spell fields are already in
      normal form as it is, except for adding `favorite: false` when
      `favorite` is absent. */
  lemma PrepareSettledSpell(sys: Object)
    requires Get(sys, "test").Str? && Get(sys, "test").s != "" && NoLowerAscii(Get(sys, "test").s)
    requires forall k | k in {"school", "cost", "effect", "favorite"} && k in sys :: !Nullish(sys[k])
    requires {"school", "cost", "effect"} <= sys.Keys
    ensures PrepareSpellSystem(sys) == if "favorite" in sys then sys else sys["favorite" := Bool(false)]
  {
    var want := if "favorite" in sys then sys else sys["favorite" := Bool(false)];
    var got := PrepareSpellSystem(sys);
    assert got.Keys == want.Keys;
    forall k | k in got
      ensures got[k] == want[k]
    {
      if k == "test" {
        UpperFixesNoLower(Get(sys, "test").s);
        assert Get(got, k) == want[k];
      } else if k == "favorite" {
        assert Get(got, k) == want[k];
      } else {
        assert Get(got, k) == Get(want, k);
      }
    }
  }

  /** `prepareSpellSystem` leaves a well-formed sign's system as it is, except
      for adding `favorite: false`. */
  lemma PrepareSignSystem(e: Entry)
    requires WellFormedSign(e)
    ensures PrepareSpellSystem(e.system) == e.system["favorite" := Bool(false)]
  {
    KeysDistinct();
    assert NoLowerAscii(e.system["test"].s);
    PrepareSettledSpell(e.system);
  }

  /** Over the whole table, preparing a sign only adds `favorite: false`. */
  lemma SignsPrepareAddsOnlyFavorite()
    ensures forall i | 0 <= i < |WITCHER_SIGNS| ::
              PrepareSpellSystem(WITCHER_SIGNS[i].system) == WITCHER_SIGNS[i].system["favorite" := Bool(false)]
  {
    SignsWellFormed();
    forall i | 0 <= i < |WITCHER_SIGNS|
      ensures PrepareSpellSystem(WITCHER_SIGNS[i].system) == WITCHER_SIGNS[i].system["favorite" := Bool(false)]
    {
      PrepareSignSystem(WITCHER_SIGNS[i]);
    }
  }
}

=== FILE: stats.dfy ===
/** The stat list (`CP2020_STATS`) and the stat defaults (`STAT_DEFAULTS`) of
module/data/stats.js. */
module Stats {
  import opened StatDefaults

  /** `{ key, label }`; `label` is a reserved word here. */
  datatype StatInfo = StatInfo(key: string, text: string)

  /** module/data/stats.js:1-12 */
  const CP2020_STATS: seq<StatInfo> := [
    StatInfo("INT", "Intelligence"),
    StatInfo("REF", "Reflexes"),
    StatInfo("TECH", "Technical Ability"),
    StatInfo("COOL", "Cool"),
    StatInfo("ATTR", "Attractiveness"),
    StatInfo("LUCK", "Luck"),
    StatInfo("MA", "Movement Allowance"),
    StatInfo("BODY", "Body"),
    StatInfo("EMP", "Empathy"),
    StatInfo("EDU", "Education")
  ]

  /** module/data/stats.js:14-25 */
  const STAT_DEFAULTS: map<string, StatValue> := map[
    "INT" := Int(5), "REF" := Int(5), "TECH" := Int(5), "COOL" := Int(5), "ATTR" := Int(5),
    "LUCK" := Int(5), "MA" := Int(5), "BODY" := Int(5), "EMP" := Int(5), "EDU" := Int(5)]

  function StatKeys(stats: seq<StatInfo>): (keys: set<string>)
    ensures forall k :: k in keys <==> exists i | 0 <= i < |stats| :: stats[i].key == k
  {
    set i | 0 <= i < |stats| :: stats[i].key
  }

  /** Ten stats with pairwise different keys. */
  lemma StatsDistinct()
    ensures |CP2020_STATS| == 10
    ensures forall i, j | 0 <= i < j < |CP2020_STATS| :: CP2020_STATS[i].key != CP2020_STATS[j].key
  {
  }

  /** Every listed stat has a default. */
  lemma StatsHaveDefaults()
    ensures forall i | 0 <= i < |CP2020_STATS| :: CP2020_STATS[i].key in STAT_DEFAULTS
  {
  }

  /** Every default belongs to a listed stat. */
  lemma DefaultsAreStats()
    ensures forall k | k in STAT_DEFAULTS :: k in StatKeys(CP2020_STATS)
  {
    forall k | k in STAT_DEFAULTS
      ensures exists i | 0 <= i < |CP2020_STATS| :: CP2020_STATS[i].key == k
    {
      var i := if k == "INT" then 0 else if k == "REF" then 1 else if k == "TECH" then 2
        else if k == "COOL" then 3 else if k == "ATTR" then 4 else if k == "LUCK" then 5
        else if k == "MA" then 6 else if k == "BODY" then 7 else if k == "EMP" then 8 else 9;
      assert CP2020_STATS[i].key == k;
    }
  }

  /** `STAT_DEFAULTS` has a value for exactly the listed stats. */
  lemma StatDefaultsCoverStats()
    ensures STAT_DEFAULTS.Keys == StatKeys(CP2020_STATS)
  {
    StatsHaveDefaults();
    DefaultsAreStats();
  }

  /** Every value of `STAT_DEFAULTS` is 5, and the map is `STAT_DEFAULT_VALUES`. */
  lemma StatDefaultsAreDefaultValues()
    ensures forall k | k in STAT_DEFAULTS :: STAT_DEFAULTS[k] == Int(5)
    ensures STAT_DEFAULTS == STAT_DEFAULT_VALUES
  {
    DefaultValuesAllFive();
  }
}

=== FILE: world_seed.dfy ===
/** Seeding the world item directory and syncing every actor
(`seedWorldData`, module/seed.js:187-269).

The world pass renames legacy skills in the world's name map, collapses the
old Mecha Gunnery spellings, then runs one loop over the skill catalog and
the signs: an entry whose name the map lacks is created, and an existing item
whose `system` is not deep-equal to the normalised entry's gets that system.
Afterwards every actor is synced and notifications report the counts. The
two folders are host documents; their ids come in as parameters.
 */
module WorldSeed {
  import opened JsValue
  import opened Documents
  import opened SeedNormalise
  import opened Skills
  import opened Spells
  import opened Legacy
  import opened ActorSync

  // ---------------------------------------------------------------------------
  // The world-level legacy renames (module/seed.js:192-203)
  // ---------------------------------------------------------------------------

  /** The world's items and the name map the pass keeps next to them. The map
      is a `Map`, so only names actually present are found. */
  datatype Named = Named(items: seq<Item>, byName: map<string, Item>)

  /** One rename: it fires when the old name is present and the new one is
      absent; the item is renamed and moves from the old key to the new key. */
  function RenameStep(w: Named, from: string, to: string): Named
  {
    if from in w.byName && to !in w.byName then
      var it := w.byName[from];
      Named(RenameById(w.items, it.id, to), (w.byName - {from})[to := it.(name := to)])
    else w
  }

  /** The renames in the order `Object.entries` yields them. */
  function RenameWorld(w: Named, pairs: seq<(string, string)>): Named
    decreases |pairs|
  {
    if pairs == [] then w else RenameWorld(RenameStep(w, pairs[0].0, pairs[0].1), pairs[1..])
  }

  /** The names a rename table mentions, old or new. */
  function TableNames(pairs: seq<(string, string)>): set<string>
  {
    (set p | p in pairs :: p.0) + (set p | p in pairs :: p.1)
  }

  /** A table whose old names are pairwise different, whose new names are
      pairwise different, and in which no new name is also an old name. */
  predicate RenameTable(pairs: seq<(string, string)>)
  {
    && (forall i, j | 0 <= i < j < |pairs| :: pairs[i].0 != pairs[j].0 && pairs[i].1 != pairs[j].1)
    && (forall i, j | 0 <= i < |pairs| && 0 <= j < |pairs| :: pairs[i].0 != pairs[j].1)
  }

  lemma LegacyRenamesAreTable()
    ensures RenameTable(LEGACY_SKILL_RENAMES)
  {
  }

  /** A name the table does not mention keeps its entry in the map. */
  lemma {:induction false} RenameWorldFrame(w: Named, pairs: seq<(string, string)>, k: string)
    requires k !in TableNames(pairs)
    ensures var r := RenameWorld(w, pairs).byName;
            (k in r <==> k in w.byName) && (k in w.byName ==> r[k] == w.byName[k])
    decreases |pairs|
  {
    if pairs != [] {
      assert pairs[0] in pairs;
      assert TableNames(pairs[1..]) <= TableNames(pairs);
      RenameWorldFrame(RenameStep(w, pairs[0].0, pairs[0].1), pairs[1..], k);
    }
  }

  /** The effect of the whole pass on one pair of the table: when the old name
      is present and the new one absent, the old item now sits under the new
      name and the old name is gone; otherwise both names keep their entries,
      so an item already carrying the new name is never replaced. */
  lemma {:induction false} RenameWorldPair(w: Named, pairs: seq<(string, string)>, i: nat)
    requires RenameTable(pairs) && i < |pairs|
    ensures var (o, n) := pairs[i];
            var r := RenameWorld(w, pairs).byName;
            && (o in w.byName && n !in w.byName ==>
                  o !in r && n in r && r[n] == w.byName[o].(name := n))
            && (!(o in w.byName && n !in w.byName) ==>
                  && (o in r <==> o in w.byName) && (n in r <==> n in w.byName)
                  && (o in w.byName ==> r[o] == w.byName[o])
                  && (n in w.byName ==> r[n] == w.byName[n]))
    decreases |pairs|
  {
    var step := RenameStep(w, pairs[0].0, pairs[0].1);
    var (o, n) := pairs[i];
    if i == 0 {
      assert o !in TableNames(pairs[1..]) && n !in TableNames(pairs[1..]) by {
        forall p | p in pairs[1..]
          ensures p.0 != o && p.1 != o && p.0 != n && p.1 != n
        {
          var j :| 0 <= j < |pairs[1..]| && pairs[1..][j] == p;
          assert p == pairs[j + 1];
        }
      }
      RenameWorldFrame(step, pairs[1..], o);
      RenameWorldFrame(step, pairs[1..], n);
    } else {
      assert pairs[i] == pairs[1..][i - 1];
      RenameWorldPair(step, pairs[1..], i - 1);
    }
  }

  // ---------------------------------------------------------------------------
  // The desired records (module/seed.js:222-236)
  // ---------------------------------------------------------------------------

  /** The `system` `normaliseSeedData` gives an entry of this kind. */
  function DesiredSystem(e: Entry): Object
  {
    if e.kind == "skill" then PrepareSkillSystem(e.system)
    else if e.kind == "spell" then PrepareSpellSystem(e.system)
    else e.system
  }

  /** `normaliseSeedData` never fails on a catalog-shaped entry: it gives the
      entry with its prepared system and the folder id. */
  lemma NormaliseEntry(e: Entry, folderId: string)
    ensures NormaliseSeedData(AsObject(e), folderId) ==
            Success(AsObject(Entry(e.name, e.kind, DesiredSystem(e)))["folder" := Str(folderId)])
  {
    var entry := AsObject(e);
    var rest := map["name" := Str(e.name), "type" := Str(e.kind)];
    assert entry - {"data", "system"} == rest;
    assert BaseSystem(entry) == Obj(e.system);
    var want := rest["folder" := Str(folderId)]["system" := Obj(DesiredSystem(e))];
    assert want == AsObject(Entry(e.name, e.kind, DesiredSystem(e)))["folder" := Str(folderId)];
  }

  /** Each entry of a table with the system `normaliseSeedData` gives it. */
  function Desired(table: seq<Entry>): (ds: seq<Entry>)
    ensures |ds| == |table|
    ensures forall i | 0 <= i < |table| ::
              ds[i] == Entry(table[i].name, table[i].kind, DesiredSystem(table[i]))
  {
    seq(|table|, i requires 0 <= i < |table| => Entry(table[i].name, table[i].kind, DesiredSystem(table[i])))
  }

  /** The entries the world loop installs: the skills, then the signs. */
  function WorldDefaults(): seq<Entry>
  {
    Desired(CP2020_SKILLS + WITCHER_SIGNS)
  }

  /** For skill entries followed by spell entries, the desired records are
      the actor sync's prepared skills followed by its prepared signs. */
  lemma DesiredSplits(skills: seq<Entry>, signs: seq<Entry>)
    requires forall i | 0 <= i < |skills| :: skills[i].kind == "skill"
    requires forall i | 0 <= i < |signs| :: signs[i].kind == "spell"
    ensures Desired(skills + signs) == DefaultSkills(skills) + DefaultSpells(signs)
  {
    var ds := Desired(skills + signs);
    var sync := DefaultSkills(skills) + DefaultSpells(signs);
    forall i | 0 <= i < |ds|
      ensures ds[i] == sync[i]
    {
      if i < |skills| {
        assert (skills + signs)[i] == skills[i];
      } else {
        assert (skills + signs)[i] == signs[i - |skills|];
      }
    }
  }

  /** Every entry built from a row is a skill. */
  lemma EntriesAreSkills(rows: seq<SkillRow>)
    ensures forall i | 0 <= i < |Entries(rows)| :: Entries(rows)[i].kind == "skill"
  {
  }

  /** The world installs the same records as the actor sync: the prepared
      catalog skills followed by the prepared signs. */
  lemma WorldDefaultsAreSyncDefaults()
    ensures WorldDefaults() == DefaultSkills(CP2020_SKILLS) + DefaultSpells(WITCHER_SIGNS)
  {
    EntriesAreSkills(SkillRows);
    SignsWellFormed();
    DesiredSplits(CP2020_SKILLS, WITCHER_SIGNS);
  }

  // ---------------------------------------------------------------------------
  // The world pass
  // ---------------------------------------------------------------------------

  /** Every stage of the world pass. The loop over the entries is the loop of
      the sign sync (`PlanSpells`): create when the name is missing, write
      the desired system (merged by the host) when it differs. */
  datatype WorldRun = WorldRun(
    renamed: Named,         // after the legacy renames
    collapse: Collapse,     // the Mecha Gunnery collapse of the name map
    collapsed: seq<Item>,   // the items after the collapse
    plan: SpellPlan,        // the records to create and the systems to write
    items: seq<Item>)       // the world's items at the end

  function RunWorld(items: seq<Item>, defaults: seq<Entry>): WorldRun
  {
    var renamed := RenameWorld(Named(items, ByName(items)), LEGACY_SKILL_RENAMES);
    var collapse := CollapseMecha(renamed.byName);
    var collapsed := DeleteIds(RenameOpt(renamed.items, collapse.renamed, HARD_MECHA_GUNNERY), collapse.deleted);
    var plan := PlanSpells(collapse.byName, defaults);
    WorldRun(renamed, collapse, collapsed, plan, ApplyPatches(Create(collapsed, plan.creates), plan.overwrites))
  }

  /** The catalog lists "Regeneration" twice, once on EMP and once on PSI, so
      the two desired records under that name have different systems. */
  lemma RegenerationRecords()
    ensures WorldDefaults()[16].name == "Regeneration" && WorldDefaults()[75].name == "Regeneration"
    ensures WorldDefaults()[16].system != WorldDefaults()[75].system
  {
    RegenerationRows();
    DesiredRow(SkillRows, WITCHER_SIGNS, 16);
    DesiredRow(SkillRows, WITCHER_SIGNS, 75);
    UpperPointwise("EMP");
    UpperPointwise("PSI");
  }

  /** The desired record of a catalog row keeps its name and carries its
      stat upper-cased. */
  lemma DesiredRow(rows: seq<SkillRow>, signs: seq<Entry>, i: nat)
    requires i < |rows|
    ensures var ds := Desired(Entries(rows) + signs);
            ds[i].name == rows[i].name && Get(ds[i].system, "stat") == Str(Upper(rows[i].stat))
  {
    assert (Entries(rows) + signs)[i] == RowEntry(rows[i]);
  }

  /** Whatever the world holds, the loop finds work: if no item is called
      "Regeneration" one is created, and if one is, its system differs from
      one of the two records and gets an update. So every run of the world
      pass creates or updates at least one item. */
  lemma WorldNeverSettles(m: map<string, Item>)
    ensures var p := PlanSpells(m, WorldDefaults());
            |p.creates| + |p.overwrites| > 0
  {
    RegenerationRecords();
    var ds := WorldDefaults();
    var p := PlanSpells(m, ds);
    if "Regeneration" !in m {
      assert ds[16] in p.creates;
    } else if m["Regeneration"].system != ds[16].system {
      PlanSpellsOverwritesEveryDifference(m, ds, ds[16]);
    } else {
      PlanSpellsOverwritesEveryDifference(m, ds, ds[75]);
    }
  }

  /** With an empty name map the loop creates every record and updates none. */
  lemma {:induction false} PlanOnEmptyMap(defaults: seq<Entry>)
    ensures PlanSpells(map[], defaults) == SpellPlan(defaults, [])
    decreases |defaults|
  {
    if defaults != [] {
      PlanOnEmptyMap(defaults[1..]);
      assert [defaults[0]] + defaults[1..] == defaults;
    }
  }

  /** On an empty world nothing is renamed or collapsed and every desired
      record is created, in order. */
  lemma SeedEmptyWorld(defaults: seq<Entry>)
    ensures RunWorld([], defaults).plan == SpellPlan(defaults, [])
    ensures |RunWorld([], defaults).items| == |defaults|
    ensures forall k | 0 <= k < |defaults| ::
              RunWorld([], defaults).items[k] == Item(k, defaults[k].name, defaults[k].kind, defaults[k].system)
  {
    EmptyWorldCollapses();
    PlanOnEmptyMap(defaults);
    var run := RunWorld([], defaults);
    assert run.collapsed == [] && run.plan.overwrites == [];
    assert run.items == Create([], defaults);
  }

  /** An empty world has nothing to rename and no Mecha Gunnery to collapse. */
  lemma EmptyWorldCollapses()
    ensures forall defaults: seq<Entry> {:trigger RunWorld([], defaults)} ::
              RunWorld([], defaults).collapse == Collapse(map[], None, []) && RunWorld([], defaults).collapsed == []
  {
    var renamed := RenameWorld(Named([], ByName([])), LEGACY_SKILL_RENAMES);
    RenameEmpty(Named([], ByName([])), LEGACY_SKILL_RENAMES);
    assert renamed == Named([], map[]);
    var collapse := CollapseMecha(map[]);
    assert collapse == Collapse(map[], None, []);
    assert DeleteIds(RenameOpt([], None, HARD_MECHA_GUNNERY), []) == [];
  }

  /** With nothing in the name map no rename fires. */
  lemma {:induction false} RenameEmpty(w: Named, pairs: seq<(string, string)>)
    requires w.byName == map[]
    ensures RenameWorld(w, pairs) == w
    decreases |pairs|
  {
    if pairs != [] {
      RenameEmpty(w, pairs[1..]);
    }
  }

  // ---------------------------------------------------------------------------
  // The actors and the notifications (module/seed.js:250-264)
  // ---------------------------------------------------------------------------

  /** Syncing an actor that exists leaves an actor: the input itself when its
      type is not synced, the edited one otherwise. */
  lemma SyncKeepsActor(a: Actor)
    ensures EnsureActorHasCoreItems(Some(a)).actor.Some?
    ensures EnsureActorHasCoreItems(Some(a)).actor.value.kind == a.kind
  {
  }

  /** The sum of the `{ created, updated }` records: zero exactly when every
      record is zero. */
  function Total(cs: seq<Counts>): (t: Counts)
    ensures t == Counts(0, 0) <==> forall i | 0 <= i < |cs| :: cs[i] == Counts(0, 0)
    ensures forall i | 0 <= i < |cs| :: cs[i].created <= t.created && cs[i].updated <= t.updated
    decreases |cs|
  {
    if cs == [] then Counts(0, 0)
    else
      var rest := Total(cs[1..]);
      assert forall i | 1 <= i < |cs| :: cs[i] == cs[1..][i - 1];
      Counts(cs[0].created + rest.created, cs[0].updated + rest.updated)
  }

  /** Appending records adds their sums. */
  lemma {:induction false} TotalAppend(a: seq<Counts>, b: seq<Counts>)
    ensures Total(a + b) == Counts(Total(a).created + Total(b).created, Total(a).updated + Total(b).updated)
    decreases |a|
  {
    if a == [] {
      assert a + b == b;
    } else {
      assert (a + b)[1..] == a[1..] + b;
      TotalAppend(a[1..], b);
    }
  }

  /** One record sums to itself. */
  lemma TotalSingle(c: Counts)
    ensures Total([c]) == c
  {
    assert [c][1..] == [];
  }

  /** The `+=` loop of the source: adding one more record to the running
      totals gives the totals of the longer list. */
  lemma {:induction false} TotalSnoc(cs: seq<Counts>, c: Counts)
    ensures Total(cs + [c]) == Counts(Total(cs).created + c.created, Total(cs).updated + c.updated)
  {
    TotalAppend(cs, [c]);
    TotalSingle(c);
  }

  /** The actor loop: every actor synced, in order. */
  function SyncActors(actors: seq<Actor>): (ss: seq<Sync>)
    ensures |ss| == |actors|
    ensures forall i | 0 <= i < |actors| :: ss[i] == EnsureActorHasCoreItems(Some(actors[i]))
    ensures forall i | 0 <= i < |actors| :: ss[i].actor.Some? && ss[i].actor.value.kind == actors[i].kind
  {
    forall i | 0 <= i < |actors| {
      SyncKeepsActor(actors[i]);
    }
    seq(|actors|, i requires 0 <= i < |actors| => EnsureActorHasCoreItems(Some(actors[i])))
  }

  /** `ui.notifications.info` messages, in the order they are shown. */
  datatype Notice =
    | Seeded(count: nat)                      // "Seeded N Items (skills/spells)."
    | Refreshed(count: nat)                   // "Updated N existing Items."
    | SyncedActors(added: nat, refreshed: nat) // "Synced actor items: A added, R refreshed."
    | NothingToSeed                           // "No new Items to seed."

  /** The notifications for the world counts and the actor totals: each count
      message appears exactly when its count is non-zero, and the closing
      message exactly when every count is zero. */
  function Notices(created: nat, updated: nat, actors: Counts): (ns: seq<Notice>)
    ensures Seeded(created) in ns <==> created > 0
    ensures Refreshed(updated) in ns <==> updated > 0
    ensures SyncedActors(actors.created, actors.updated) in ns <==> actors != Counts(0, 0)
    ensures NothingToSeed in ns <==> created == 0 && updated == 0 && actors == Counts(0, 0)
    ensures |ns| <= 3
  {
    (if created > 0 then [Seeded(created)] else [])
    + (if updated > 0 then [Refreshed(updated)] else [])
    + (if actors != Counts(0, 0) then [SyncedActors(actors.created, actors.updated)] else [])
    + (if created == 0 && updated == 0 && actors == Counts(0, 0) then [NothingToSeed] else [])
  }

  /** Every run of the world pass creates or updates at least one item. */
  lemma WorldPassFindsWork(items: seq<Item>)
    ensures var run := RunWorld(items, WorldDefaults()); |run.plan.creates| + |run.plan.overwrites| > 0
  {
    WorldNeverSettles(RunWorld(items, WorldDefaults()).collapse.byName);
  }

  /** The world's items, the synced actors and the notifications shown. */
  datatype Seeding = Seeding(items: seq<Item>, actors: seq<Actor>, notices: seq<Notice>)

  /** The `{ created, updated }` record of each sync, in order. */
  function CountsOf(ss: seq<Sync>): (cs: seq<Counts>)
    ensures |cs| == |ss| && forall i | 0 <= i < |ss| :: cs[i] == ss[i].counts
  {
    seq(|ss|, i requires 0 <= i < |ss| => ss[i].counts)
  }

  /** The actors after the loop, and the summed counts. */
  function ActorResults(ss: seq<Sync>): (r: (seq<Actor>, Counts))
    requires forall i | 0 <= i < |ss| :: ss[i].actor.Some?
    ensures |r.0| == |ss| && forall i | 0 <= i < |ss| :: r.0[i] == ss[i].actor.value
    ensures r.1 == Total(CountsOf(ss))
    ensures r.1 == Counts(0, 0) <==> forall i | 0 <= i < |ss| :: ss[i].counts == Counts(0, 0)
  {
    (seq(|ss|, i requires 0 <= i < |ss| => ss[i].actor.value), Total(CountsOf(ss)))
  }

  /** The actor loop with its running totals: the synced actors in order and
      the sum of their counts. */
  function ActorPass(actors: seq<Actor>): (r: (seq<Actor>, Counts))
    ensures |r.0| == |actors|
    ensures forall i | 0 <= i < |actors| :: r.0[i] == EnsureActorHasCoreItems(Some(actors[i])).actor.value
    ensures r.1 == Total(CountsOf(SyncActors(actors)))
  {
    ActorResults(SyncActors(actors))
  }

  /** `seedWorldData()`, every host call succeeding: the world pass, then
      every actor synced in order, then the notifications for the world counts
      and the summed actor counts. "No new Items to seed." is never shown,
      because the world pass always finds work. */
  function SeedWorldData(items: seq<Item>, actors: seq<Actor>): (r: Seeding)
    ensures r.items == RunWorld(items, WorldDefaults()).items
    ensures |r.actors| == |actors|
    ensures forall i | 0 <= i < |actors| :: r.actors[i] == EnsureActorHasCoreItems(Some(actors[i])).actor.value
    ensures var run := RunWorld(items, WorldDefaults());
            r.notices == Notices(|run.plan.creates|, |run.plan.overwrites|, Total(CountsOf(SyncActors(actors))))
    ensures NothingToSeed !in r.notices
    ensures |r.notices| > 0
  {
    var run := RunWorld(items, WorldDefaults());
    WorldPassFindsWork(items);
    var (synced, totals) := ActorPass(actors);
    Seeding(run.items, synced, Notices(|run.plan.creates|, |run.plan.overwrites|, totals))
  }
}
